=== FILE: README.md ===
# M3U Player content pipeline, in Dafny

A model of the logic at the heart of the M3U Player desktop IPTV client. It
covers:

- The M3U playlist parser. This is a two-state line scan: no record pending,
  or an `#EXTINF` line waiting for its stream URL. It includes the
  attribute regex and the first-match content-type table, and builds ids
  from a hash with 32-bit wrap-around.
- The XMLTV guide parser. This covers lenient tag extraction, compact dates
  with a `±HHMM` offset computed in integer milliseconds, the ±12 h window
  around `now`, and per-channel sorting by start time.
- Both Xtream-Codes clients:
  - server normalisation;
  - the ordered login checks;
  - the category join;
  - the renderer client's tolerant listings;
  - the main-process client's strict listings and legacy stream URLs.
- The persisted store, as state-in/state-out functions. It covers
  playlists, favourites, the capped history, playback positions with
  oldest-first eviction, and settings.
- Renderer services: channel filtering, the current and next programme, the
  freshness of the guide cache, and gzip detection (gzip is specified in
  section 2.3.1 of RFC 1952).
- Small helpers: `truncate`, `timeAgo`, `epgProgress`, the sidebar counts,
  the episode URLs and names of the series dialog, the default playlist
  names, the subtitle title cleaner, and the result choice.

Time, random ids, fetched responses and parsed payloads are parameters.
Failures are a `Fetched` value (`Got(v)` or `Threw`), and error paths are a
`Result`. Each module follows one source file. `Strings`, `Seqs`,
`Ordering`, `Numerals`, `Encoding` and `XmlScan` give the JavaScript
built-ins and regular expressions the semantics the program relies on.

Behaviours modelled exactly as written:
- The M3U default group is the literal `'Non classÃ©'` (a doubly-encoded
  "Non classé").
- `_normalizeServer` is not idempotent (`Xtream.NormalizeServerNotIdempotent`).
- The subtitle tag rule has no word boundary (`OpenSubtitles.FrozenLosesFr`).
- A group literally named `all` adds to the `all` count of the sidebar
  (`Sidebar.Counts`).
- The renderer's `addPlaylist` forwards only the url and the name, so an
  Xtream form is saved as an `m3u` entry (see "## Findings").

## Model

| member | source | states |
|---|---|---|
| Content.GroupIndex | src/main/m3u-parser.js:126-128 | a group list is strictly sorted and duplicate-free, and holds exactly the groups of its items; it is never longer than the item list |
| Content.GroupIndexUnique | src/main/m3u-parser.js:126-128 | any sorted, duplicate-free list of exactly the items' groups is the group index, so the index depends only on the set of groups |
| M3uPatterns.DetectContentType | src/main/m3u-parser.js:34-60 | classification is first-match in the order series URL, VOD URL, series group, VOD group, else live; a VOD URL beats a series group; both directions are characterised for live and series |
| M3uId.ToInt32 | src/main/m3u-parser.js:162-163 | the wrapped value lies in [-2^31, 2^31) and is congruent to the input modulo 2^32 |
| M3uId.ToInt32Congruent | src/main/m3u-parser.js:162-163 | inputs congruent modulo 2^32 wrap to the same 32-bit integer |
| M3uId.StepCongruent | src/main/m3u-parser.js:162-163 | one shift-and-subtract round on a hash congruent to the polynomial gives the wrapped next polynomial value |
| M3uId.HashIsPolynomial | src/main/m3u-parser.js:157-164 | the loop with 32-bit wrap-around computes the base-31 polynomial of the UTF-16 code units, reduced to a signed 32-bit integer |
| M3uId.GenerateId | src/main/m3u-parser.js:157-166 | every id starts with `ch_` and has at least one character after it |
| M3uId.GenerateIdDecodes | src/main/m3u-parser.js:157-166 | the part after `ch_` is a base-36 numeral whose value is the magnitude of the wrapped polynomial hash of `tvgId|url` and at most 2^31; equal `(tvgId, url)` pairs get equal ids |
| M3uAttrs.NormKey | src/main/m3u-parser.js:140 | a key is lowercased character by character with `_` turned into `-`, keeping its length; the result is a stored key |
| M3uAttrs.NormKeyOfNormal | src/main/m3u-parser.js:140 | a key already in stored form normalises to itself |
| M3uAttrs.KeyRun | src/main/m3u-parser.js:137 | the key class `[a-zA-Z_-]+` matches the longest run of key characters |
| M3uAttrs.MatchHere | src/main/m3u-parser.js:137 | a match of the attribute regex has a stored key and a value without `"`, and ends inside the line |
| M3uAttrs.ScanAttrs | src/main/m3u-parser.js:137-142 | every attribute the global regex loop yields has a stored key and a quote-free value |
| M3uAttrs.LastValue | src/main/m3u-parser.js:141 | a key has a value iff some attribute carries it, and the value is that of the last attribute with the key: a later duplicate overwrites an earlier one |
| M3uAttrs.ParseExtInf | src/main/m3u-parser.js:133-155 | the name is never empty: the trimmed text after the last comma, else `tvg-name`, else `Unknown` |
| M3uAttrs.MatchRendered | src/main/m3u-parser.js:137 | the attribute regex matches a written `key="value"` exactly, whatever follows it |
| M3uAttrs.MatchFound | src/main/m3u-parser.js:137 | a key run that ends at `="` and a closing quote make the regex match at index 0 |
| M3uAttrs.ScanRendered | src/main/m3u-parser.js:137-142 | written attributes scan back to themselves, in order |
| M3uAttrs.SkipNonKey | src/main/m3u-parser.js:137-139 | a character that cannot start a key is skipped by the global scan |
| M3uAttrs.ScanSkipsPlain | src/main/m3u-parser.js:137-139 | a stretch without `=` that ends in a non-key character yields no attribute |
| M3uAttrs.ScanNoQuote | src/main/m3u-parser.js:137-139 | a line without `"` holds no attribute |
| M3uAttrs.ScanExtInfLine | src/main/m3u-parser.js:137-142 | the attributes read from a written `#EXTINF` line are exactly the ones written |
| M3uAttrs.LastComma | src/main/m3u-parser.js:145 | a comma with no comma after it is what `lastIndexOf` finds |
| M3uAttrs.TitleOfExtInfLine | src/main/m3u-parser.js:145-146 | the display name of a written line is the title after its comma |
| M3uAttrs.ExtInfLineTrimmed | src/main/m3u-parser.js:86 | a written `#EXTINF` line with a trimmed title is its own trim |
| M3uAttrs.ParseExtInfRendered | src/main/m3u-parser.js:133-155 | `parseExtInf` reads back every field of a written line: id, name, title, logo and group |
| M3uAttrs.QuotedAttrHere | src/main/m3u-parser.js:72 | a case-insensitive `name="value"` match yields a value without `"` |
| M3uAttrs.EpgAttrHere | src/main/m3u-parser.js:72 | the header regex tries `url-tvg`, `x-tvg-url`, `tvg-url` in order and yields a quote-free value |
| M3uAttrs.HeaderEpgUrl | src/main/m3u-parser.js:70-75 | the guide address is the quote-free value of the leftmost matching attribute of the header line, or none |
| M3uAttrs.HeaderSkipsPlain | src/main/m3u-parser.js:72 | a prefix without `=` that ends in a space does not change the address found after it |
| M3uAttrs.HeaderEpgUrlRendered | src/main/m3u-parser.js:70-75 | the address written into a header line is the one read back from it |
| M3u.Entry | src/main/m3u-parser.js:91-103 | an item carries the stream line, the record's fields, and the group `'Non classÃ©'` when the record has none |
| M3u.Add | src/main/m3u-parser.js:105-114 | an item goes to the end of exactly the list of its type; the other lists and the pending record are unchanged |
| M3u.EntryValid | src/main/m3u-parser.js:91-103 | an item built from a named record and a stream line is valid: hash id, heuristic type, non-empty name and group |
| M3u.Emit | src/main/m3u-parser.js:90-116 | a stream line with a record pending adds one item and clears the record; lists only grow |
| M3u.EmitValid | src/main/m3u-parser.js:90-116 | filing an item keeps every list made of valid items of its own type |
| M3u.Step | src/main/m3u-parser.js:85-123 | a line adds at most one item, and adds one iff it is a stream line and a record is pending; lists only grow |
| M3u.StepExtInf | src/main/m3u-parser.js:88-89 | an `#EXTINF:` line sets or replaces the pending record and changes nothing else |
| M3u.StepSkipsDirectives | src/main/m3u-parser.js:117-123 | blank lines and other `#` lines leave the whole state, pending record included, untouched |
| M3u.StepIgnoresOrphanUrl | src/main/m3u-parser.js:90 | a URL line with no record pending is dropped |
| M3u.StepValid | src/main/m3u-parser.js:85-123 | every line preserves the invariant that lists hold valid items of their own type |
| M3u.Scan | src/main/m3u-parser.js:85-124 | the loop adds at most one item per line and never removes one |
| M3u.ScanValid | src/main/m3u-parser.js:85-124 | the whole loop preserves the list invariant |
| M3u.Lines | src/main/m3u-parser.js:63 | splitting the CRLF-normalised text gives at least one line |
| M3u.ParseM3U | src/main/m3u-parser.js:62-131 | it fails with the header message iff the first line, trimmed, does not start with `#EXTM3U` (a blank first line fails); on success the items are valid and of their list's type, each group list is the sorted set of its items' groups, the guide address comes from the first line, and there are fewer items than lines |
| M3u.ParseM3UAcceptsHeader | src/main/m3u-parser.js:63-67 | text starting with `#EXTM3U` is accepted, whatever follows |
| M3u.ParseM3URejectsEmpty | src/main/m3u-parser.js:65-66 | empty text is rejected with the header message |
| M3u.StepEmits | src/main/m3u-parser.js:90-116 | a stream line with a record pending files exactly that record |
| M3u.UrlLineStep | src/main/m3u-parser.js:90-116 | a trimmed URL line turns the pending record into one item of its type and clears it |
| M3u.ExtInfLineStep | src/main/m3u-parser.js:86-89 | a written `#EXTINF` line becomes the pending record unchanged |
| M3u.EntryRoundTrip | src/main/m3u-parser.js:85-116 | an `#EXTINF` line followed by its URL line adds exactly one item, built from the written attributes and title |
| Epg.ChannelAt | src/main/epg-parser.js:6 | a channel match starts with `<channel`, ends inside the text and has an id without `"` |
| Epg.ProgrammeAt | src/main/epg-parser.js:24-25 | a programme match starts with `<programme`, ends inside the text and names a quote-free channel |
| Epg.LastOfIdKeys | src/main/epg-parser.js:8-17 | the table has an entry for exactly the ids of the channel elements |
| Epg.LastOfIdWins | src/main/epg-parser.js:13-16 | an id keeps its last element, so a later element with the same id overwrites an earlier one |
| Epg.ChannelTableKeys | src/main/epg-parser.js:8-17 | the channel table's keys are exactly the channel ids in the document |
| Epg.ChannelTableLastWins | src/main/epg-parser.js:11-16 | an id maps to the trimmed first display name (or the id) and the first icon (or `""`) of its last element |
| Epg.Listings | src/main/epg-parser.js:26-31 | each programme element gives one listing with both dates parsed, in document order |
| Epg.Kept | src/main/epg-parser.js:32-34 | the kept listings are the listings filtered by the window test: exactly those in the window, in document order, each as often as it occurs; start > stop is not checked |
| Epg.WindowBoundsInclusive | src/main/epg-parser.js:20-34 | both window boundaries are kept, and one millisecond beyond either end is dropped |
| Epg.OnChannel | src/main/epg-parser.js:40-50 | a channel's programmes are exactly the programmes of the listings that name it, in document order and with repeats |
| Epg.GroupIsOnChannel | src/main/epg-parser.js:40-50 | a channel has a list iff some kept listing names it, and the list is that channel's listings in order |
| Epg.OnChannelInWindow | src/main/epg-parser.js:32-50 | a channel's list holds only programmes that passed the window |
| Epg.SortGroups | src/main/epg-parser.js:54-56 | each list is sorted by start and is a permutation of the unsorted one; no channel is added or lost |
| Epg.ParseEpg | src/main/epg-parser.js:1-59 | channels are the last-wins table of channel ids; a channel has programmes iff some kept listing names it (no `<channel>` element needed); each list is sorted by start, a permutation of that channel's kept programmes, and inside the window |
| XmlScan.CharFrom | src/main/epg-parser.js:6 | `[^c]*c` stops at the first `c` at or after the start |
| XmlScan.LitFrom | src/main/epg-parser.js:6 | the lazy `[\s\S]*?lit` stops at the first occurrence of `lit` |
| XmlScan.SpacedAttr | src/main/epg-parser.js:12 | `\s+name="…"` captures a quote-free value and ends after the closing quote |
| XmlScan.Body | src/main/epg-parser.js:6 | an element body ends at the first closing tag and holds no closing tag itself |
| XmlScan.LitAtSlice | src/main/epg-parser.js:6 | an occurrence inside a body is an occurrence in the document |
| XmlScan.Leftmost | src/main/epg-parser.js:8 | a regex match is the leftmost start at which the pattern matches |
| XmlScan.ExecAll | src/main/epg-parser.js:8 | the global exec loop ends, with no more matches than positions |
| XmlScan.TagTextAt | src/main/epg-parser.js:11 | a `<tag…>text</tag>` match captures text without `<` |
| XmlScan.FirstTagText | src/main/epg-parser.js:11 | there is a capture iff the pattern matches somewhere, and it holds no `<` |
| XmltvDate.Number | src/main/epg-parser.js:63-68 | `n` digits read as a number below 10^n |
| XmltvDate.DaysFromCivilAgrees | src/main/epg-parser.js:70 | the days-from-civil formula agrees with the calendar's day-of-year arithmetic |
| XmltvDate.MakeDayAgrees | src/main/epg-parser.js:70 | `MakeDay` lets the year absorb whole years of the month, as ECMA-262 specifies |
| XmltvDate.EpochIsDayZero | src/main/epg-parser.js:70 | 1 January 1970 is day 0 |
| XmltvDate.TimeFields | src/main/epg-parser.js:78 | a time value is the sum of its day, hour, minute, second and millisecond fields |
| XmltvDate.SetUtcMinutesShifts | src/main/epg-parser.js:78 | adding delta to the minutes field moves the instant by exactly delta minutes, across day boundaries |
| XmltvDate.FieldsOfTime | src/main/epg-parser.js:70 | fields in range are read back unchanged from the time value they build |
| XmltvDate.FindOffset | src/main/epg-parser.js:73 | the offset is the leftmost `[+-]dddd` match, or none |
| XmltvDate.OffsetMinutes | src/main/epg-parser.js:75-78 | the offset is signed as written: `+HHMM` gives +(HH·60+MM) minutes east of UTC and `-HHMM` gives −(HH·60+MM), strictly within ±6040; `ParseXmltvDate` subtracts it from the local digits |
| XmltvDate.CompactFields | src/main/epg-parser.js:63-68 | the six fields are read from fixed positions and lie within their digit ranges |
| XmltvDate.ParseXmltvDate | src/main/epg-parser.js:61-82 | with no offset the digits are read as UTC; with `+HHMM` HH·60+MM minutes are subtracted, and with `-HHMM` they are added |
| XmltvDate.ShiftMinutes | src/main/epg-parser.js:78 | the shifted instant is exactly delta minutes later |
| XmltvDate.UtcValueCalendar | src/main/epg-parser.js:70 | in-range fields give the calendar day number times a day, plus the time of day |
| XmltvDate.UtcValueTimeOfDay | src/main/epg-parser.js:70 | the day, hour, minute and second read back from the instant are the fields it was built from |
| XmltvDate.UtcValueInRange | src/main/epg-parser.js:70 | any fourteen digits give an instant within a few thousand years of 1970 |
| XmltvDate.ParseXmltvDateInRange | src/main/epg-parser.js:61-82 | every parsed date is a valid time value, so `TimeClip` never yields NaN here |
| Xtream.Elements | src/main/xtream-client.js:88 | a listing that is not an array counts as empty; an array counts as its elements |
| Xtream.StripTrailingSlashes | src/renderer/js/services/xtream-client.js:14 | exactly the run of `/` at the end is removed; the result does not end in `/` |
| Xtream.WithScheme | src/renderer/js/services/xtream-client.js:10-13 | the trimmed server gains `http://` unless it starts with `http://` or `https://` |
| Xtream.NormalizeServer | src/renderer/js/services/xtream-client.js:9-15 | the result is the schemed, trimmed server minus only trailing `/`, never ends in `/`, and starts with `http:` or `https:` |
| Xtream.StripKeepsPrefix | src/renderer/js/services/xtream-client.js:14 | stripping slashes never cuts into a prefix that does not end in `/` |
| Xtream.NormalizeServerNotIdempotent | src/renderer/js/services/xtream-client.js:9-15 | normalising is not idempotent: `http://` becomes `http:`, which then becomes `http://http:` |
| Xtream.NormalizeServerStable | src/renderer/js/services/xtream-client.js:9-15 | a normalised server that kept its scheme and has no edge white space is a fixed point |
| Xtream.CredentialQueryFields | src/renderer/js/services/xtream-client.js:6 | neither encoded credential holds the `&` that separates them or a `#`, and each decodes to the UTF-8 bytes of the credential |
| Xtream.EncodedLacks | src/renderer/js/services/xtream-client.js:6 | percent-encoding never emits a reserved character other than `%` |
| Xtream.Login | src/renderer/js/services/xtream-client.js:29-47 | the checks run in order (missing `user_info`, `auth === 0`, `Disabled`, `Expired`), so `auth 0` wins over any status; success iff all pass, returning the user and server info |
| Xtream.CategoryName | src/renderer/js/services/xtream-client.js:77 | a category's group name is never empty: its name, or `Unknown` |
| Xtream.CategoryMap | src/renderer/js/services/xtream-client.js:76-81 | every mapped name is non-empty |
| Xtream.CategoryMapKeys | src/renderer/js/services/xtream-client.js:76-81 | the table has an entry for exactly the listed category ids |
| Xtream.CategoryMapLastWins | src/renderer/js/services/xtream-client.js:76-81 | a later category with the same id overwrites an earlier one |
| Xtream.StreamGroup | src/renderer/js/services/xtream-client.js:87 | a stream's group is the name of the last category with its id, or the fallback when no category has it |
| XtreamMain.Strict | src/main/xtream-client.js:85-95 | a failed request propagates; a reply that is not an array becomes `[]` |
| XtreamMain.Channels | src/main/xtream-client.js:124-139 | one channel per stream in order, with id `xt_<stream_id>`, the legacy url `s/u/p/<stream_id>` (no extension), the group or `'Non classé'`, and no type |
| XtreamMain.MainEpgUrl | src/main/xtream-client.js:143-148 | an address exists iff the server reports a non-empty url; it gains `http://` unless it starts with `http`, and the credentials are not encoded |
| XtreamMain.LoadAll | src/main/xtream-client.js:97-161 | it fails iff the login fails or either listing request fails, with login failure first; on success the groups index the channels and the address and account come from the login |
| XtreamMain.ChannelsAgree | src/main/xtream-client.js:124-139 | the two clients give each live stream the same id, name, tvg id and logo; the groups differ only in the fallback name |
| XtreamMain.ClientsAgree | src/main/xtream-client.js:97-161 | with the same login and live listings the two clients succeed alike and list the same live channels, up to the fallback group name |
| XtreamRenderer.Tolerant | src/renderer/js/services/xtream-client.js:65-73 | a failed request and a reply that is not an array both count as `[]` |
| XtreamRenderer.LiveItems | src/renderer/js/services/xtream-client.js:84-99 | one live item per stream in order: id `xt_<id>`, url `s/live/u/p/<id>.m3u8`, group from the category table or `Uncategorized` |
| XtreamRenderer.VodItems | src/renderer/js/services/xtream-client.js:101-118 | one VOD item per stream: id `vod_<id>`, url `s/movie/u/p/<id>.<ext>` with `mp4` by default |
| XtreamRenderer.SeriesItems | src/renderer/js/services/xtream-client.js:120-136 | one series item per entry: id `sr_<series_id>`, the series id set, no url |
| XtreamRenderer.LoadAll | src/renderer/js/services/xtream-client.js:54-157 | it fails iff the login fails; otherwise each of the three lists is built from its listings (failures counting as empty), each group list is the sorted set of its items' groups, and the guide address and credentials are the ones given |
| XtreamRenderer.IdsDisjoint | src/renderer/js/services/xtream-client.js:90-127 | live, VOD and series ids never collide |
| XtreamRenderer.EpgUrlSharesQuery | src/renderer/js/services/xtream-client.js:138-139 | the guide address and the API address share the server and the encoded query; only the script differs |
| Encoding.Utf16Units | src/main/m3u-parser.js:161 | a character is one code unit below 0x10000 and a surrogate pair otherwise |
| Encoding.Utf16RoundTrip | src/main/m3u-parser.js:161 | decoding a character's code units gives the character back |
| Encoding.Utf8Bytes | src/renderer/js/services/xtream-client.js:6 | a character is one to four bytes, and one byte iff it is ASCII |
| Encoding.PercentByte | src/renderer/js/services/xtream-client.js:6 | a byte is written `%XY` with upper-case hex digits that read back as the byte |
| Encoding.EncodeUriComponent | src/renderer/js/services/xtream-client.js:6 | the output uses only unreserved characters, `%` and hex digits, and is unchanged for unreserved input |
| Encoding.DecodePercentBytes | src/renderer/js/services/xtream-client.js:6 | percent-decoding the written escapes gives the bytes back |
| Encoding.EncodeUriComponentRoundTrip | src/renderer/js/services/xtream-client.js:6 | decoding the encoded string gives exactly the UTF-8 bytes of the input |
| Numerals.ToRadix | src/main/m3u-parser.js:165 | `toString(base)` writes a numeral with no leading zero |
| Numerals.RadixRoundTrip | src/main/m3u-parser.js:165 | reading a rendered number gives the number back |
| Numerals.RadixInjective | src/main/m3u-parser.js:165 | distinct numbers render as distinct strings |
| Numerals.Base36 | src/main/store.js:29 | base-36 rendering is a base-36 numeral |
| Ordering.StrLessTransitive | src/main/m3u-parser.js:126-128 | the order used for group lists is transitive |
| Ordering.StrLessTotal | src/main/m3u-parser.js:126-128 | any two distinct names are ordered one way or the other |
| Ordering.InsertSorted | src/main/m3u-parser.js:126-128 | adding a group keeps the list strictly sorted and adds the name iff it was absent |
| Ordering.StrictlySortedUnique | src/main/m3u-parser.js:126-128 | two strictly sorted lists with the same names are equal |
| Ordering.InsertBy | src/main/epg-parser.js:55 | inserting keeps the list sorted by key and adds exactly one element |
| Ordering.SortBy | src/main/epg-parser.js:55 | sorting gives a permutation ordered by key |
| Ordering.SortByStable | src/main/epg-parser.js:55 | the sort is stable, as `Array.prototype.sort` is: for every key, the elements carrying it come out in their input order |
| Seqs.Filter | src/renderer/js/services/playlist-service.js:57 | `filter` keeps exactly the elements that pass the test |
| Seqs.FilterSubseq | src/renderer/js/services/playlist-service.js:57 | filtering keeps the order of what it keeps |
| Seqs.FilterAll | src/renderer/js/services/playlist-service.js:53-74 | nothing is dropped when everything passes |
| Seqs.FilterThen | src/renderer/js/services/playlist-service.js:53-74 | two filters in a row are one filter by the conjunction |
| Seqs.FilterDistinct | src/main/store.js:44 | filtering a duplicate-free list keeps it duplicate-free |
| Seqs.DistinctIffCard | src/main/store.js:115-121 | a list is duplicate-free iff it has as many distinct elements as entries |
| Seqs.PermutationDistinct | src/main/store.js:117 | sorting a duplicate-free key list keeps it duplicate-free |
| Strings.SkipSpace | src/main/opensubtitles.js:190 | `\s*` stops at the first non-space character |
| Strings.TrimStart | src/main/m3u-parser.js:86 | only leading white space is dropped |
| Strings.TrimEnd | src/main/m3u-parser.js:86 | only trailing white space is dropped |
| Strings.Trim | src/main/m3u-parser.js:86 | the result has no white space at either end, and is empty iff the input is all white space |
| Strings.TrimIsSlice | src/main/m3u-parser.js:86 | `trim` keeps one contiguous slice of the input |
| Strings.TrimIdempotent | src/main/opensubtitles.js:204 | trimming twice is trimming once |
| Strings.TrimKeepsPrefix | src/main/m3u-parser.js:65 | trimming keeps a prefix that begins and ends with visible characters |
| Strings.Lower | src/renderer/js/services/playlist-service.js:65 | lowercasing maps each character and keeps the length |
| Strings.ContainsIffOccurs | src/renderer/js/services/playlist-service.js:67-69 | `includes` holds iff the pattern occurs at some index |
| Strings.IndexOf | src/main/m3u-parser.js:137 | `indexOf` finds the first occurrence, and none iff the character is absent |
| Strings.LastIndexOf | src/main/m3u-parser.js:145 | `lastIndexOf` finds the last occurrence, and none iff the character is absent |
| Strings.Split | src/main/m3u-parser.js:63 | the parts hold no separator and join back to the input |
| Strings.NormalizeNewlines | src/main/m3u-parser.js:63 | replacing CR LF never lengthens the text and leaves CR-free text alone |
| Strings.NormalizeNewlinesPrefix | src/main/m3u-parser.js:63 | a CR-free prefix passes through the replacement unchanged |
| Strings.SplitKeepsPrefix | src/main/m3u-parser.js:63 | the first line keeps a separator-free prefix of the text |
| Strings.NormalizeNewlinesSinglePass | src/main/m3u-parser.js:63 | the replacement is one left-to-right pass: `\r\r\n` becomes `\r\n` |
| Store.AddPlaylist | src/main/store.js:27-41 | exactly one entry is appended and returned; its id is the base-36 text of the first clock read plus the random suffix, and `addedAt` is the second clock read; name and url are as given and the type defaults to `m3u`; it has an `xtream` sub-record, equal to the data, iff the type is `xtream` and data was given |
| Store.AddThenRemove | src/main/store.js:27-51 | removing the playlist just added, under an id no entry had and that was not active, gives back the store as it was |
| Store.RemovePlaylist | src/main/store.js:43-51 | every entry with the id goes and the others stay; the active id is cleared iff it equalled the id; nothing else changes |
| Store.RemovePlaylistKeepsOrder | src/main/store.js:44 | the surviving playlists keep their relative order |
| Store.FirstIndex | src/main/store.js:67 | `indexOf` finds the first occurrence, and none iff the id is absent |
| Store.ToggleFavorite | src/main/store.js:65-75 | membership of the id flips and no other id changes; the flag is true iff the id was absent; a duplicate-free list stays duplicate-free |
| Store.ToggleFavoriteTwice | src/main/store.js:65-75 | toggling an absent id twice restores the list |
| Store.AddToHistory | src/main/store.js:81-97 | the new entry is first, no other entry has its channel, at most 50 entries remain, and the survivors keep their order; logo and group default to `''` |
| Store.AddToHistoryDistinct | src/main/store.js:81-97 | a history with distinct channels keeps that property |
| Store.SubseqChannelsDistinct | src/main/store.js:83 | a subsequence of a history with distinct channels has distinct channels |
| Store.Put | src/main/store.js:109 | storing a position sets exactly that entry, keeps an existing key in its place and appends a new key last, with keys and entries in step |
| Store.Delete | src/main/store.js:112 | deleting a position keeps keys and entries in step |
| Store.Update | src/main/store.js:104-113 | the entry is stored iff `duration > 0` and `0.01 < position/duration < 0.95`, otherwise its key is deleted; other keys are untouched |
| Store.Without | src/main/store.js:118-120 | eviction removes exactly the chosen keys and keeps the other values |
| Store.Evict | src/main/store.js:114-121 | above 200 entries exactly 200 remain; kept entries are unchanged, and every evicted key is no newer than every kept key (a missing `savedAt` counts as 0) |
| Store.EvictCount | src/main/store.js:115-120 | the kept key list is duplicate-free, holds the surviving keys, and is shorter by the surplus |
| Store.GoneCount | src/main/store.js:117-120 | the evicted keys are `surplus` distinct keys of the object |
| Store.EvictOldest | src/main/store.js:117-120 | removing the first keys of the list sorted by age evicts the oldest entries |
| Store.SavePlaybackPosition | src/main/store.js:104-123 | only positions change; at most 200 remain; an entry that is not worth keeping is gone; other entries are unchanged |
| Store.SaveThenGet | src/main/store.js:104-128 | below 200 entries, reading back after a save gives the saved entry iff it was worth keeping, and none otherwise |
| Store.UpdateSettings | src/main/store.js:167-172 | a shallow merge: the keys of `partial` override and the other settings are unchanged |
| EpgService.Find | src/renderer/js/services/epg-service.js:131 | `find` returns the leftmost element satisfying the predicate, and none iff no element does |
| EpgService.CurrentProgram | src/renderer/js/services/epg-service.js:122-132 | none without a guide, an id or a list; otherwise the first programme of the list with start ≤ now < stop (every earlier one is not on air), and none iff no programme of the list is on air |
| EpgService.NextProgram | src/renderer/js/services/epg-service.js:134-144 | none without a guide, an id or a list; otherwise the first programme of the list with start ≥ now (every earlier one has started), and none iff every programme has started |
| EpgService.StartingNowIsBoth | src/renderer/js/services/epg-service.js:122-144 | a first programme that starts exactly now is both current and next |
| EpgService.CurrentBeforeNext | src/renderer/js/services/epg-service.js:122-144 | in a list sorted by start, a current programme that began before now comes before the next one |
| EpgService.FreshInMilliseconds | src/renderer/js/services/epg-service.js:19-20 | the age-in-hours test is the same as comparing milliseconds with hours times 3 600 000 |
| EpgService.RefreshHours | src/renderer/js/services/epg-service.js:15 | the period is the setting when it is truthy, else 6 |
| EpgService.Init | src/renderer/js/services/epg-service.js:11-29 | a failed settings read changes nothing; otherwise the period is set, and the cached guide is adopted iff it exists and is fresh |
| EpgService.Load | src/renderer/js/services/epg-service.js:31-96 | an empty url returns none and changes nothing; a fresh cache for the same url answers unless forced; otherwise a failed fetch, a failed decompression of a gzip-looking payload or a failed parse returns none and leaves the state unchanged; a payload is decompressed iff it is longer than two bytes and opens with 0x1f 0x8b, and decoded as UTF-8 otherwise; a success records the guide and its url, and returns it iff the cache write succeeded |
| EpgService.PlainPayloadSkipsGunzip | src/renderer/js/services/epg-service.js:72-80 | a payload without the gzip magic number loads the same whatever the decompressor does |
| EpgService.GzipPayloadSkipsDecoder | src/renderer/js/services/epg-service.js:72-80 | a payload with the gzip magic number loads the same whatever the UTF-8 decoder does, and a failed decompression fails the load |
| EpgService.ForcedLoadIgnoresCache | src/renderer/js/services/epg-service.js:37 | with a forced refresh the outcome does not depend on the cache |
| PlaylistService.LoadFromUrl | src/renderer/js/services/playlist-service.js:11-23 | a loaded catalogue replaces the channels, groups and guide address wholesale; a failure changes nothing |
| PlaylistService.LoadFromUrlForgets | src/renderer/js/services/playlist-service.js:11-23 | after a successful load nothing of the previous state remains |
| PlaylistService.Stage | src/renderer/js/services/playlist-service.js:56-71 | a skipped stage is the same as filtering with a test that always passes |
| PlaylistService.FilterChannels | src/renderer/js/services/playlist-service.js:53-74 | the result is the channels that pass every active filter, in order |
| PlaylistService.FilterChannelsSound | src/renderer/js/services/playlist-service.js:53-74 | the result is an ordered subsequence; every kept channel has the group, is a favourite, and matches the lowercased query in name, tvg name or group, as each filter is active; a channel passing every filter is kept; with no filter the result is the input |
| PlaylistService.AddPlaylist | src/renderer/js/services/playlist-service.js:29-30 | as written, only the url and the name reach the store: the entry is appended, typed `m3u`, and has no credentials |
| PlaylistService.AddPlaylistForwarded | src/main/store.js:27-41 | with all four arguments forwarded, the entry has the given url, name and type, and has the credentials iff the type is `xtream` |
| Formatters.AgeOf | src/renderer/js/utils/formatters.js:9-18 | `Just now` below 60 s (future times included); then minutes 1–59, hours 1–23, days ≥ 1, each the floor of the elapsed time |
| Formatters.AgeMonotone | src/renderer/js/utils/formatters.js:9-18 | an older timestamp never reads as more recent |
| Formatters.DivDiv | src/renderer/js/utils/formatters.js:12-16 | flooring by seconds, then minutes, then hours is one floor by the product |
| Formatters.Truncate | src/renderer/js/utils/formatters.js:20-23 | an empty or short string is returned unchanged; a longer one becomes its first maxLen−1 characters plus `…`, maxLen long, or a lone `…` when maxLen < 1 |
| Formatters.TruncateDefault | src/renderer/js/utils/formatters.js:20-23 | with the default maxLen of 40 the result is at most 40 long: short strings are unchanged and longer ones keep 39 characters plus `…` |
| Formatters.TruncateIdempotent | src/renderer/js/utils/formatters.js:20-23 | truncating a truncated string changes nothing |
| Formatters.Progress | src/renderer/js/utils/formatters.js:25-31 | 0 when stop ≤ start; otherwise clamped to [0, 100], 0 iff not started and 100 iff finished, and the elapsed share in between |
| Formatters.ProgressMonotone | src/renderer/js/utils/formatters.js:25-31 | the bar never moves backwards as the clock advances |
| Sidebar.Count | src/renderer/js/ui/sidebar.js:28-30 | the count of a group never exceeds the number of items |
| Sidebar.TallyCounts | src/renderer/js/ui/sidebar.js:28-30 | the loop adds each group's number of items to what the table held |
| Sidebar.OrEmpty | src/renderer/js/ui/sidebar.js:23-25 | a missing list reads as empty |
| Sidebar.Counts | src/renderer/js/ui/sidebar.js:27-30 | `all` holds the number of items (plus any items whose group is literally `all`), and every other group holds its number of items |
| Sidebar.OnPlaylistLoaded | src/renderer/js/ui/sidebar.js:22-41 | the group lists are replaced (missing ones become empty) and the three count tables count the items of each type; the selection is kept |
| Sidebar.Render | src/renderer/js/ui/sidebar.js:43-65 | one row per group of the active type (VOD, series, else live), with 0 for an uncounted group |
| Sidebar.SetContentType | src/renderer/js/ui/sidebar.js:85-90 | the type is set, the category goes back to `all`, and nothing else changes |
| Sidebar.Select | src/renderer/js/ui/sidebar.js:79-83 | only the active category changes |
| Sidebar.RowsCountItems | src/renderer/js/ui/sidebar.js:22-65 | after a load and a type switch, each row other than a group named `all` shows the number of items of that type in its group |
| ModalManager.FirstSegment | src/renderer/js/ui/modal-manager.js:185 | `split('/')[0]` is the longest slash-free prefix |
| ModalManager.LastSegment | src/renderer/js/ui/modal-manager.js:164 | `split('/').pop()` is the longest slash-free suffix |
| ModalManager.LastSegmentEmpty | src/renderer/js/ui/modal-manager.js:164 | the last segment of a non-empty url is empty iff the url ends in `/` |
| ModalManager.JoinLast | src/renderer/js/ui/modal-manager.js:164 | the last part of a split is the text after the last separator |
| ModalManager.M3UName | src/renderer/js/ui/modal-manager.js:164 | the default name is the url's last path segment, or `Playlist` when the url ends in `/` |
| ModalManager.AddM3U | src/renderer/js/ui/modal-manager.js:160-168 | nothing happens iff the url is empty; otherwise an `m3u` request whose name is the given one or the default, never empty |
| ModalManager.FirstScheme | src/renderer/js/ui/modal-manager.js:185 | the scheme regex matches at its leftmost position, wherever that is |
| ModalManager.StripScheme | src/renderer/js/ui/modal-manager.js:185 | only the leftmost `http(s)://` is removed, or nothing when there is none |
| ModalManager.AddXtream | src/renderer/js/ui/modal-manager.js:180-193 | it is refused with the fill-in message iff server, user or password is empty; otherwise an `xtream` request carrying the credentials, named as given or `user@host` |
| ModalManager.XtreamNameOfUrl | src/renderer/js/ui/modal-manager.js:185 | for a server written scheme, host, path, the default name is `user@host` |
| ModalManager.StripLeadingScheme | src/renderer/js/ui/modal-manager.js:185 | a server that starts with a scheme loses exactly that scheme |
| ModalManager.SubmitXtream | src/renderer/js/ui/modal-manager.js:180-193 | as written: refused iff the form is incomplete; otherwise one entry for the server is appended |
| ModalManager.XtreamFormLosesLogin | src/renderer/js/services/playlist-service.js:29-30 | as written, a valid Xtream form stores an `m3u` entry without credentials, which the saved-playlists list reloads as an M3U url |
| ModalManager.SubmitXtreamForwarded | src/renderer/js/ui/modal-manager.js:180-193 | with the request forwarded in full: refused iff the form is incomplete; otherwise one entry for the server is appended |
| ModalManager.AddXtreamStoresLogin | src/renderer/js/ui/modal-manager.js:189-193 | with the request forwarded in full, a valid form stores an `xtream` entry carrying exactly the entered credentials, which reloads through the Xtream client (modal-manager.js:253-258) |
| ModalManager.M3UFormStores | src/renderer/js/ui/modal-manager.js:160-168 | a valid M3U form stores an `m3u` entry for its url, the same with or without the dropped type argument, and it reloads as an M3U url |
| ModalManager.SeasonOrder | src/renderer/js/ui/modal-manager.js:314 | the season keys come out as a permutation in ascending numeric order |
| ModalManager.EpisodeUrl | src/renderer/js/ui/modal-manager.js:329-330 | the url is the normalised server + `/series/<user>/<pass>/<id>.<ext>`, with `mp4` by default |
| ModalManager.EpisodeFile | src/renderer/js/ui/modal-manager.js:329-330 | when the id and extension hold no slash, the url's last segment is the file `<id>.<ext>` |
| ModalManager.EpisodeName | src/renderer/js/ui/modal-manager.js:331 | the title when there is one, otherwise `Episode <n>`; never empty |
| ModalManager.EpisodeRecord | src/renderer/js/ui/modal-manager.js:340-350 | a VOD record with id `ep_<id>`, name `<series> - <episode>`, the series' logo and group, the episode url, and empty tvg fields |
| OpenSubtitles.FirstAlt | src/main/opensubtitles.js:195 | alternation tries alternatives in order and takes the first that matches |
| OpenSubtitles.StripPrefixTag | src/main/opensubtitles.js:190 | an untagged title is unchanged; a tagged one loses exactly the first opening tag and the separator after it: white space with at most one `-` or `:`, taken greedily, so what is left does not start with white space, and starts with `-` or `:` only when the separator already held one |
| OpenSubtitles.FrozenLosesFr | src/main/opensubtitles.js:190 | the tag rule has no word boundary: `Frozen` becomes `ozen` |
| OpenSubtitles.RemoveYears | src/main/opensubtitles.js:192 | the result keeps characters of the title in order and is shorter by a multiple of six; a title without a bracketed year is unchanged (which characters go is stated by `RemoveYearsDrops`) |
| OpenSubtitles.RemoveYearsKeeps | src/main/opensubtitles.js:192 | text in which no bracketed year starts is kept as it is, and the scan goes on after it |
| OpenSubtitles.RemoveYearsDrops | src/main/opensubtitles.js:192 | the leftmost bracketed year is removed: the text before it is kept and the scan resumes six characters on |
| OpenSubtitles.RemoveYearsNone | src/main/opensubtitles.js:192 | text without a bracketed year comes back unchanged |
| OpenSubtitles.RemoveWords | src/main/opensubtitles.js:194-199 | the result keeps characters of the title in order; a title without a whole-word tag is unchanged (which characters go is stated by `RemoveWordsDrops`) |
| OpenSubtitles.RemoveWordsKeeps | src/main/opensubtitles.js:194-199 | text in which no whole-word tag starts is kept as it is, and the scan goes on after it |
| OpenSubtitles.RemoveWordsDrops | src/main/opensubtitles.js:194-199 | the leftmost whole-word tag is removed: the text before it is kept, the alternative the regex commits to goes, and the scan resumes right after it |
| OpenSubtitles.RemoveWordsSkips | src/main/opensubtitles.js:194-199 | at a whole-word tag the scan skips exactly the committed alternative |
| OpenSubtitles.RemoveWordsNone | src/main/opensubtitles.js:194-199 | text without a whole-word tag comes back unchanged |
| OpenSubtitles.StripSuffix | src/main/opensubtitles.js:201 | one trailing extension, compared case-insensitively, is removed; otherwise the title is unchanged |
| OpenSubtitles.CollapseSpaces | src/main/opensubtitles.js:203 | every white-space run becomes a single space |
| OpenSubtitles.TrimCollapsed | src/main/opensubtitles.js:203-204 | trimming a collapsed string leaves no white space at the ends and single spaces inside |
| OpenSubtitles.NormalizeSpaces | src/main/opensubtitles.js:203-204 | the result has no edge white space and single spaces between words |
| OpenSubtitles.CollapseFixed | src/main/opensubtitles.js:203 | a collapsed string is its own collapse |
| OpenSubtitles.NormalizeSpacesIdempotent | src/main/opensubtitles.js:203-204 | normalising white space twice is normalising once |
| OpenSubtitles.CleanTitle | src/main/opensubtitles.js:186-206 | the cleaned title has no edge white space and single spaces inside (what it loses: `CleanTitleDropsYearAndQuality` and the step lemmas) |
| OpenSubtitles.CleanTitleKeepsPlainTitles | src/main/opensubtitles.js:186-206 | a tidy title with nothing to remove comes back unchanged |
| OpenSubtitles.CleanTitleDropsYearAndQuality | src/main/opensubtitles.js:186-206 | a plain tidy name followed by a space, a bracketed year, a space and a whole quality tag cleans to the name: the year, the tag and the extra white space all go |
| OpenSubtitles.Finds1080p | src/main/opensubtitles.js:195 | `1080p` is matched as a whole quality tag and holds no bracketed year, so the lemma above applies to it |
| OpenSubtitles.SearchType | src/main/opensubtitles.js:31-35 | `movie` and `vod` map to `movie`, `series` and `episode` to `episode`, and anything else adds no type |
| OpenSubtitles.FirstDownloadable | src/main/opensubtitles.js:223 | the first result with a file id, or none iff no result has one |
| OpenSubtitles.ChooseSubtitle | src/main/opensubtitles.js:215-235 | no results and no downloadable result are distinct errors; otherwise the first downloadable result, with the file name falling back to `<query>.srt` |

## Left out

- Network, decompression, IPC and the DOM: `fetch`, `https`, `zlib`/`DecompressionStream`, the Electron wiring, timers (`startAutoRefresh`) and events. Their results are `Fetched` parameters, and the clock and random digits are parameters too.
- The subtitle download (`getDownloadLink`, `downloadSubtitle`) and the mapping of search results from JSON: only the choice among the mapped results is modelled.
- `fmt.time` and `localeCompare`: locale-dependent. Group lists are sorted by the code-point order `Ordering.StrLess`. This can differ from the program: `localeCompare` may return 0 for two distinct strings, which the stable sort then leaves in insertion order, while `StrLess` always separates distinct strings.
- Unicode case mapping: `toLowerCase` and the `i` regex flag are ASCII-only here.
- Floating point: `epgProgress`, `position / duration` and the cache age use exact `real` arithmetic, not IEEE doubles.
- Strings are sequences of code points. `length` and `substring` in `truncate` count code points rather than UTF-16 units. The id hash does use UTF-16 units.
- JSON objects are `map`s, except that the `playbackPositions` key order is kept as a list. The integer-key-first enumeration order of JavaScript objects and `__proto__` keys are not modelled.
- `null` and non-object payloads beyond the ones the model names (a missing `user_info`, a listing that is not an array, a missing list in the sidebar event).
- PlaylistService.FilterChannels: requires every channel to carry a `tvgName`. The M3U and renderer live items always have one; calling `toLowerCase` on a missing one would throw.
- ModalManager.SeasonOrder: requires decimal season keys. `Number()` of any other key is NaN, and a NaN comparison order is not modelled.
- XmltvDate.ParseXmltvDate: requires fourteen leading digits. Malformed dates, which give NaN in the program, are not modelled.
- Epg.ParseEpg: requires well-formed dates in every programme element, for the same reason.
- OpenSubtitles.RemoveWords: `\b` is the ASCII word boundary, and the case-insensitive comparison covers ASCII letters only. Its own contract states order, subsequence and the unchanged case; that every whole-word tag found from the left goes is stated by `RemoveWordsDrops` and `RemoveWordsKeeps`.
- OpenSubtitles.RemoveYears: its own contract states order, subsequence and length; that every bracketed year found from the left goes is stated by `RemoveYearsDrops` and `RemoveYearsKeeps`.
- OpenSubtitles.CleanTitle: its own contract states only that the result is tidy. What goes is stated for whole titles by `CleanTitleDropsYearAndQuality` (a name, a year and a quality tag) and `CleanTitleKeepsPlainTitles` (nothing to remove), and for other titles only step by step, by the contracts of `StripPrefixTag`, `RemoveYearsDrops`, `RemoveWordsDrops` and `StripSuffix`.
- Object keys inherited from `Object.prototype` (`constructor`, `toString`, `__proto__` and the like) are not modelled. A `map` lookup of such a key finds nothing, while the program reads the inherited member. This affects the programme table in `epg-parser.js:40-44`, the category maps in the renderer `xtream-client.js:77-87` and the main `xtream-client.js:110-125`, the sidebar counts in `sidebar.js:29-37`, the guide lookup in `epg-service.js:126-131` and the position lookup in `store.js:127`. A channel id or group named `constructor`, for example, behaves differently in the program.
- Xtream.Message: a failed request surfaces the thrown error's own message, which is outside the model; the model returns a fixed stand-in text for it.
- The Xtream `getSeriesInfo` request and `userInfo` field renaming beyond the account summary are not modelled.
- The UI classes around the rules (`channel-grid.js`, `player-panel.js`, `settings-modal.js`, `toast.js`, `search-bar.js`), and the thin IPC services `favorites-service.js` and `history-service.js`, whose logic is the store's.

## Findings

| source | as written | input that shows it | evidently intended | confidence | as-written member | corrected member |
|---|---|---|---|---|---|---|
| src/renderer/js/services/playlist-service.js:29-30 | `addPlaylist(url, name)` forwards only the url and the name, so the type `'xtream'` and the credentials that `_addXtream` passes are dropped and the store saves an `m3u` entry | any complete Xtream form, e.g. server `http://h`, user `u`, password `p` | forward all four arguments, so the entry is typed `xtream` and carries the credentials the saved-playlists list reloads with | not executed; high | ModalManager.XtreamFormLosesLogin | ModalManager.AddXtreamStoresLogin |

=== FILE: content.dfy ===
/** The catalogue entities shared by the M3U parser, both Xtream-Codes
    normalisers and the user interface: content items, their type, and the
    per-type sorted group index. */
module Content {
  import opened Wrappers
  import opened Ordering

  datatype ContentType = Live | Vod | Series

  /** Fields only some producers set: the Xtream VOD and series records carry
      a rating and, respectively, an `added` stamp or a series id and a plot. */
  datatype Extra =
    | NoExtra
    | VodExtra(rating: string, added: Option<string>)
    | SeriesExtra(seriesId: string, rating: string, plot: string)

  /** One catalogue entry. `tvgId`/`tvgName`/`url`/`kind` are `None` where the
      producing code does not set the field at all (Xtream VOD and series
      records have no tvg fields, series have no url, the main-process Xtream
      channels have no type). */
  datatype Item = Item(
    id: string,
    tvgId: Option<string>,
    tvgName: Option<string>,
    name: string,
    logo: string,
    group: string,
    url: Option<string>,
    kind: Option<ContentType>,
    extra: Extra)

  /** Some item of `items` belongs to group `g`. */
  predicate HasGroup(items: seq<Item>, g: string) {
    exists i :: 0 <= i < |items| && items[i].group == g
  }

  /** `gs` is the group index of `items`: sorted, without repetition, and made
      of exactly the groups the items belong to. */
  ghost predicate IndexesGroups(gs: seq<string>, items: seq<Item>) {
    && StrictlySorted(gs)
    && forall g :: g in gs <==> HasGroup(items, g)
  }

  /** The group index built the way the program builds it: every item's group
      is added to a set while the items are produced, then the set is sorted. */
  function GroupIndex(items: seq<Item>): (gs: seq<string>)
    ensures IndexesGroups(gs, items)
    ensures |gs| <= |items|
  {
    if items == [] then []
    else
      var init := items[..|items| - 1];
      var last := items[|items| - 1];
      var gs := InsertSorted(GroupIndex(init), last.group);
      assert forall g :: HasGroup(items, g) <==> HasGroup(init, g) || g == last.group by {
        forall g ensures HasGroup(items, g) <==> HasGroup(init, g) || g == last.group {
          if HasGroup(items, g) {
            var i :| 0 <= i < |items| && items[i].group == g;
            if i < |items| - 1 {
              assert init[i].group == g;
            }
          }
          if HasGroup(init, g) {
            var i :| 0 <= i < |init| && init[i].group == g;
            assert items[i].group == g;
          }
        }
      }
      gs
  }

  /** Any list that indexes the groups of `items` is the group index: the
      order of the group lists is determined by the groups alone. */
  lemma GroupIndexUnique(gs: seq<string>, items: seq<Item>)
    requires IndexesGroups(gs, items)
    ensures gs == GroupIndex(items)
  {
    StrictlySortedUnique(gs, GroupIndex(items));
  }

  /** A parsed catalogue: the shape both the M3U parser and the renderer-side
      Xtream normaliser return. */
  datatype Catalog = Catalog(
    epgUrl: Option<string>,
    channels: seq<Item>,
    groups: seq<string>,
    vods: seq<Item>,
    vodGroups: seq<string>,
    series: seq<Item>,
    seriesGroups: seq<string>)

  /** Every list holds items of its own type only, and each group list is the
      group index of its item list. */
  ghost predicate WellSorted(c: Catalog) {
    && (forall i :: 0 <= i < |c.channels| ==> c.channels[i].kind == Some(Live))
    && (forall i :: 0 <= i < |c.vods| ==> c.vods[i].kind == Some(Vod))
    && (forall i :: 0 <= i < |c.series| ==> c.series[i].kind == Some(Series))
    && IndexesGroups(c.groups, c.channels)
    && IndexesGroups(c.vodGroups, c.vods)
    && IndexesGroups(c.seriesGroups, c.series)
  }
}

=== FILE: encoding.dfy ===
/** Character encodings the program depends on: the UTF-16 code units that
    `charCodeAt` reads, and `encodeURIComponent` (percent-encoding of the UTF-8
    bytes of every character outside the unreserved set, section 2.1 of
    RFC 3986 with ECMA-262's choice of unreserved marks). Characters are
    Unicode scalar values, so `encodeURIComponent` never meets a lone
    surrogate and never throws. */
module Encoding {

  /** `charCodeAt` over one character: one code unit in the Basic
      Multilingual Plane, a surrogate pair above it. */
  function Utf16Units(c: char): (us: seq<nat>)
    ensures 1 <= |us| <= 2
    ensures forall k :: 0 <= k < |us| ==> us[k] < 0x1_0000
    ensures |us| == 1 <==> (c as int) < 0x1_0000
  {
    var v := c as int;
    if v < 0x1_0000 then [v]
    else [0xD800 + (v - 0x1_0000) / 0x400, 0xDC00 + (v - 0x1_0000) % 0x400]
  }

  /** The code point a unit sequence produced by `Utf16Units` stands for. */
  function Utf16Decode(us: seq<nat>): int
    requires 1 <= |us| <= 2
  {
    if |us| == 1 then us[0] else 0x1_0000 + (us[0] as int - 0xD800) * 0x400 + (us[1] as int - 0xDC00)
  }

  /** Decoding the code units of a character gives the character back. */
  lemma Utf16RoundTrip(c: char)
    ensures Utf16Decode(Utf16Units(c)) == c as int
  {
  }

  /** The string's code units, what `str.charCodeAt(i)` reads for every `i`. */
  function Utf16(s: string): (us: seq<nat>)
    ensures |us| >= |s|
    ensures forall k :: 0 <= k < |us| ==> us[k] < 0x1_0000
  {
    if s == [] then [] else Utf16Units(s[0]) + Utf16(s[1..])
  }

  /** The UTF-8 bytes of one character. */
  function Utf8Bytes(c: char): (bs: seq<nat>)
    ensures 1 <= |bs| <= 4
    ensures forall k :: 0 <= k < |bs| ==> bs[k] < 0x100
    ensures |bs| == 1 <==> (c as int) < 0x80
    ensures |bs| == 1 ==> bs[0] == c as int
  {
    var v := c as int;
    if v < 0x80 then [v]
    else if v < 0x800 then [0xC0 + v / 0x40, 0x80 + v % 0x40]
    else if v < 0x1_0000 then [0xE0 + v / 0x1000, 0x80 + (v / 0x40) % 0x40, 0x80 + v % 0x40]
    else [0xF0 + v / 0x4_0000, 0x80 + (v / 0x1000) % 0x40, 0x80 + (v / 0x40) % 0x40, 0x80 + v % 0x40]
  }

  function Utf8(s: string): seq<nat> {
    if s == [] then [] else Utf8Bytes(s[0]) + Utf8(s[1..])
  }

  /** The characters `encodeURIComponent` leaves alone. */
  predicate IsUnreserved(c: char) {
    || ('A' <= c <= 'Z') || ('a' <= c <= 'z') || ('0' <= c <= '9')
    || c == '-' || c == '_' || c == '.' || c == '!' || c == '~' || c == '*'
    || c == '\'' || c == '(' || c == ')'
  }

  predicate IsUpperHex(c: char) {
    ('0' <= c <= '9') || ('A' <= c <= 'F')
  }

  function HexDigit(d: nat): (c: char)
    requires d < 16
    ensures IsUpperHex(c)
  {
    if d < 10 then ('0' as int + d) as char else ('A' as int + d - 10) as char
  }

  function HexValue(c: char): nat
    requires IsUpperHex(c)
  {
    if c <= '9' then c as int - '0' as int else c as int - 'A' as int + 10
  }

  /** `%XY` with upper-case hex digits, as `encodeURIComponent` writes a byte. */
  function PercentByte(b: nat): (r: string)
    requires b < 0x100
    ensures |r| == 3 && r[0] == '%' && IsUpperHex(r[1]) && IsUpperHex(r[2])
    ensures 16 * HexValue(r[1]) + HexValue(r[2]) == b
  {
    "%" + [HexDigit(b / 16), HexDigit(b % 16)]
  }

  function PercentBytes(bs: seq<nat>): (r: string)
    requires forall k :: 0 <= k < |bs| ==> bs[k] < 0x100
    ensures |r| == 3 * |bs|
  {
    if bs == [] then "" else PercentByte(bs[0]) + PercentBytes(bs[1..])
  }

  function EncodeChar(c: char): string {
    if IsUnreserved(c) then [c] else PercentBytes(Utf8Bytes(c))
  }

  /** `encodeURIComponent(s)`. Its output is made of unreserved characters and
      `%XY` escapes only, so it cannot close a query parameter (`&`, `=`,
      `#`) or add a path segment (`/`); a string of unreserved characters is
      left as it is. */
  function EncodeUriComponent(s: string): (r: string)
    ensures forall k :: 0 <= k < |r| ==> IsUnreserved(r[k]) || r[k] == '%' || IsUpperHex(r[k])
    ensures (forall k :: 0 <= k < |s| ==> IsUnreserved(s[k])) ==> r == s
  {
    if s == [] then ""
    else
      var head := EncodeChar(s[0]);
      var tail := EncodeUriComponent(s[1..]);
      assert forall k :: 0 <= k < |head| ==> IsUnreserved(head[k]) || head[k] == '%' || IsUpperHex(head[k]) by {
        if !IsUnreserved(s[0]) {
          PercentBytesAlphabet(Utf8Bytes(s[0]));
        }
      }
      head + tail
  }

  lemma {:induction false} PercentBytesAlphabet(bs: seq<nat>)
    requires forall k :: 0 <= k < |bs| ==> bs[k] < 0x100
    ensures forall k :: 0 <= k < |PercentBytes(bs)| ==>
      PercentBytes(bs)[k] == '%' || IsUpperHex(PercentBytes(bs)[k])
  {
    if bs != [] {
      PercentBytesAlphabet(bs[1..]);
    }
  }

  /** The bytes a percent-encoded string stands for: an `%XY` escape is the
      byte `0xXY`, any other character is its own (ASCII) code. */
  function DecodeBytes(t: string): seq<nat>
  {
    if t == [] then []
    else if |t| >= 3 && t[0] == '%' && IsUpperHex(t[1]) && IsUpperHex(t[2]) then
      [16 * HexValue(t[1]) + HexValue(t[2])] + DecodeBytes(t[3..])
    else [t[0] as int] + DecodeBytes(t[1..])
  }

  /** One escape decodes to its byte, whatever follows it. */
  lemma DecodeEscape(b: nat, more: string)
    requires b < 0x100
    ensures DecodeBytes(PercentByte(b) + more) == [b] + DecodeBytes(more)
  {
    var e := PercentByte(b);
    var t := e + more;
    assert t[0] == '%' && t[1] == e[1] && t[2] == e[2];
    assert t[3..] == more;
  }

  lemma {:induction false} DecodePercentBytes(bs: seq<nat>, rest: string)
    requires forall k :: 0 <= k < |bs| ==> bs[k] < 0x100
    ensures DecodeBytes(PercentBytes(bs) + rest) == bs + DecodeBytes(rest)
  {
    if bs != [] {
      var head := PercentByte(bs[0]);
      var tail := PercentBytes(bs[1..]);
      calc {
        DecodeBytes(PercentBytes(bs) + rest);
        { assert PercentBytes(bs) + rest == head + (tail + rest); }
        DecodeBytes(head + (tail + rest));
        { DecodeEscape(bs[0], tail + rest); }
        [bs[0]] + DecodeBytes(tail + rest);
        { DecodePercentBytes(bs[1..], rest); }
        [bs[0]] + (bs[1..] + DecodeBytes(rest));
        { assert bs == [bs[0]] + bs[1..]; }
        bs + DecodeBytes(rest);
      }
    } else {
      assert PercentBytes(bs) + rest == rest;
    }
  }

  /** Percent-decoding the encoded string yields exactly the UTF-8 bytes of
      the input: the encoding loses nothing. */
  lemma {:induction false} EncodeUriComponentRoundTrip(s: string)
    ensures DecodeBytes(EncodeUriComponent(s)) == Utf8(s)
  {
    if s != [] {
      var tail := EncodeUriComponent(s[1..]);
      EncodeUriComponentRoundTrip(s[1..]);
      if IsUnreserved(s[0]) {
        assert ([s[0]] + tail)[1..] == tail;
      } else {
        DecodePercentBytes(Utf8Bytes(s[0]), tail);
      }
    }
  }
}

=== FILE: epg.dfy ===
/** `parseEpg` (src/main/epg-parser.js): the channels and the programmes of
    an XMLTV document. Channel elements give a table from id to display name
    and icon, the last element of an id winning; programme elements within
    twelve hours of `now` are grouped by their `channel` attribute, each
    group ordered by start time. `Date.now()` is the parameter `now`. */
module Epg {
  import opened Wrappers
  import opened Strings
  import opened Ordering
  import opened XmlScan
  import opened XmltvDate
  import opened Seqs

  /** The captures of the channel regex: the id and the element body. */
  datatype ChannelMatch = ChannelMatch(id: string, block: string)

  /** What the guide says about a channel. */
  datatype ChannelInfo = ChannelInfo(name: string, icon: string)

  /** The captures of the programme regex. */
  datatype ProgrammeMatch = ProgrammeMatch(start: string, stop: string, channel: string, block: string)

  /** One programme as the parser stores it; times in milliseconds. */
  datatype Programme = Programme(start: int, stop: int, title: string, desc: string, category: string)

  /** A kept programme together with the channel it was listed under. */
  datatype Listing = Listing(channel: string, programme: Programme)

  /** What `parseEpg` returns. */
  datatype EpgData = EpgData(channels: map<string, ChannelInfo>, programmes: map<string, seq<Programme>>)

  /** Twelve hours in milliseconds: half the kept window. */
  const HalfWindow: int := 12 * 3600 * 1000

  // ---- The regular expressions ----

  /** `<channel\s+id="([^"]*)"[^>]*>([\s\S]*?)<\/channel>` at index `p`. */
  function ChannelAt(s: string, p: nat): (r: Option<Match<ChannelMatch>>)
    ensures r.Some? ==> p < r.value.end <= |s|
    ensures r.Some? ==> LitAt(s, p, "<channel") && '"' !in r.value.value.id
  {
    if LitAt(s, p, "<channel") then
      match SpacedAttr(s, p + 8, "id")
      case None => None
      case Some(id) =>
        match Body(s, id.end, "</channel>")
        case None => None
        case Some(body) => Some(Match(ChannelMatch(id.value, body.value), body.end))
    else None
  }

  /** `<programme\s+start="([^"]*)"\s+stop="([^"]*)"\s+channel="([^"]*)"[^>]*>([\s\S]*?)<\/programme>`
      at index `p`. */
  function ProgrammeAt(s: string, p: nat): (r: Option<Match<ProgrammeMatch>>)
    ensures r.Some? ==> p < r.value.end <= |s|
    ensures r.Some? ==> LitAt(s, p, "<programme") && '"' !in r.value.value.channel
  {
    if LitAt(s, p, "<programme") then
      match SpacedAttr(s, p + 10, "start")
      case None => None
      case Some(start) =>
        match SpacedAttr(s, start.end, "stop")
        case None => None
        case Some(stop) =>
          match SpacedAttr(s, stop.end, "channel")
          case None => None
          case Some(channel) =>
            match Body(s, channel.end, "</programme>")
            case None => None
            case Some(body) =>
              Some(Match(ProgrammeMatch(start.value, stop.value, channel.value, body.value), body.end))
    else None
  }

  /** `<icon\s+src="([^"]*)"` at index `p`. */
  function IconAt(s: string, p: nat): Option<string> {
    if LitAt(s, p, "<icon") then
      match SpacedAttr(s, p + 5, "src")
      case None => None
      case Some(src) => Some(src.value)
    else None
  }

  /** Every channel element, in document order. */
  function ChannelMatches(xml: string): seq<ChannelMatch> {
    ExecAll(|xml|, 0, (p: nat) => ChannelAt(xml, p))
  }

  /** Every programme element, in document order. */
  function ProgrammeMatches(xml: string): seq<ProgrammeMatch> {
    ExecAll(|xml|, 0, (p: nat) => ProgrammeAt(xml, p))
  }

  // ---- Channels ----

  /** The trimmed text of the first `tag` element of a block, if any. */
  function TrimmedText(block: string, tag: string): Option<string> {
    match FirstTagText(block, tag)
    case Some(t) => Some(Trim(t))
    case None => None
  }

  /** The name is the trimmed first display name (possibly empty), the id
      when there is none; the icon is the first icon source or `""`. */
  function ChannelInfoOf(m: ChannelMatch): ChannelInfo {
    var icon := Leftmost(|m.block|, 0, (p: nat) => IconAt(m.block, p));
    ChannelInfo(TrimmedText(m.block, "display-name").GetOr(m.id),
      if icon.Some? then icon.value.1 else "")
  }

  /** The last element of each id among the given elements. The loop stores
      `ChannelInfoOf` of each element as it meets it; computing it for the
      last element of each id only gives the same table, the computation
      being pure. */
  function LastOfId(ms: seq<ChannelMatch>): map<string, ChannelMatch> {
    if ms == [] then map[]
    else LastOfId(ms[..|ms| - 1])[ms[|ms| - 1].id := ms[|ms| - 1]]
  }

  /** The channel table after the given elements, processed in order. */
  function ChannelTable(ms: seq<ChannelMatch>): map<string, ChannelInfo> {
    var last := LastOfId(ms);
    map id | id in last :: ChannelInfoOf(last[id])
  }

  /** The table has an entry for exactly the ids of the elements. */
  lemma {:induction false} LastOfIdKeys(ms: seq<ChannelMatch>, id: string)
    ensures id in LastOfId(ms) <==> exists i :: 0 <= i < |ms| && ms[i].id == id
  {
    if ms != [] {
      var init := ms[..|ms| - 1];
      LastOfIdKeys(init, id);
      assert forall i :: 0 <= i < |init| ==> init[i] == ms[i];
    }
  }

  /** The element an id keeps is its last one: a later element with the same
      id overwrites an earlier one. */
  lemma {:induction false} LastOfIdWins(ms: seq<ChannelMatch>, i: nat)
    requires i < |ms|
    requires forall j :: i < j < |ms| ==> ms[j].id != ms[i].id
    ensures ms[i].id in LastOfId(ms)
    ensures LastOfId(ms)[ms[i].id] == ms[i]
  {
    if i < |ms| - 1 {
      var init := ms[..|ms| - 1];
      assert init[i] == ms[i];
      LastOfIdWins(init, i);
    }
  }

  /** The table holds an entry for exactly the ids of the channel elements,
      made from the last element of that id. */
  lemma ChannelTableLastWins(ms: seq<ChannelMatch>, i: nat)
    requires i < |ms|
    requires forall j :: i < j < |ms| ==> ms[j].id != ms[i].id
    ensures ms[i].id in ChannelTable(ms)
    ensures ChannelTable(ms)[ms[i].id] == ChannelInfoOf(ms[i])
  {
    LastOfIdWins(ms, i);
  }

  lemma ChannelTableKeys(ms: seq<ChannelMatch>, id: string)
    ensures id in ChannelTable(ms) <==> exists i :: 0 <= i < |ms| && ms[i].id == id
  {
    LastOfIdKeys(ms, id);
  }

  // ---- Programmes ----

  /** Every programme element carries fourteen leading digits in `start` and
      `stop`. */
  predicate WellDated(ms: seq<ProgrammeMatch>) {
    forall i :: 0 <= i < |ms| ==> IsCompactDate(ms[i].start) && IsCompactDate(ms[i].stop)
  }

  /** The programme an element describes: parsed times, and the trimmed first
      title, description and category, `""` when absent. */
  function ProgrammeOf(m: ProgrammeMatch): Programme
    requires IsCompactDate(m.start) && IsCompactDate(m.stop)
  {
    Programme(ParseXmltvDate(m.start), ParseXmltvDate(m.stop),
      TrimmedText(m.block, "title").GetOr(""),
      TrimmedText(m.block, "desc").GetOr(""),
      TrimmedText(m.block, "category").GetOr(""))
  }

  /** Not dropped by the window test: neither starting after `now + 12h` nor
      ending before `now - 12h`. Both bounds are inclusive, and nothing
      relates `start` to `stop`. */
  predicate InWindow(p: Programme, now: int) {
    !(p.start > now + HalfWindow || p.stop < now - HalfWindow)
  }

  /** Every programme element with its channel, in document order. */
  function Listings(ms: seq<ProgrammeMatch>): (ls: seq<Listing>)
    requires WellDated(ms)
    ensures |ls| == |ms|
    ensures forall i :: 0 <= i < |ms| ==> ls[i] == Listing(ms[i].channel, ProgrammeOf(ms[i]))
  {
    seq(|ms|, i requires 0 <= i < |ms| => Listing(ms[i].channel, ProgrammeOf(ms[i])))
  }

  /** The window test as a filter predicate. */
  function WindowTest(now: int): Listing -> bool {
    (l: Listing) => InWindow(l.programme, now)
  }

  /** The listings the loop keeps, in document order: exactly those in the
      window. */
  function Kept(ls: seq<Listing>, now: int): (ks: seq<Listing>)
    ensures ks == Filter(ls, WindowTest(now))
    ensures forall k :: 0 <= k < |ks| ==> InWindow(ks[k].programme, now) && ks[k] in ls
    ensures forall i :: 0 <= i < |ls| && InWindow(ls[i].programme, now) ==> ls[i] in ks
  {
    if ls == [] then []
    else
      var init := ls[..|ls| - 1];
      var l := ls[|ls| - 1];
      assert ls == init + [l];
      FilterSnoc(init, l, WindowTest(now));
      var ks := Kept(init, now);
      if InWindow(l.programme, now) then ks + [l] else ks
  }

  /** The programmes of some listings, in their order. */
  function ProgrammesOf(ls: seq<Listing>): (ps: seq<Programme>)
    ensures |ps| == |ls| && forall i :: 0 <= i < |ls| ==> ps[i] == ls[i].programme
  {
    seq(|ls|, i requires 0 <= i < |ls| => ls[i].programme)
  }

  /** The channel test as a filter predicate. */
  function ChannelTest(c: string): Listing -> bool {
    (l: Listing) => l.channel == c
  }

  /** The programmes listed under channel `c`, in order: the programmes of
      exactly the listings that name `c`. */
  function OnChannel(ls: seq<Listing>, c: string): (ps: seq<Programme>)
    ensures ps == ProgrammesOf(Filter(ls, ChannelTest(c)))
    ensures |ps| <= |ls|
  {
    if ls == [] then []
    else
      var init := ls[..|ls| - 1];
      var l := ls[|ls| - 1];
      assert ls == init + [l];
      FilterSnoc(init, l, ChannelTest(c));
      var rest := OnChannel(init, c);
      if l.channel == c then rest + [l.programme] else rest
  }

  /** The per-channel lists as the loop builds them: each listing is pushed
      onto its channel's list, created on first use. */
  function Group(ls: seq<Listing>): map<string, seq<Programme>> {
    if ls == [] then map[]
    else
      var g := Group(ls[..|ls| - 1]);
      var l := ls[|ls| - 1];
      g[l.channel := (if l.channel in g then g[l.channel] else []) + [l.programme]]
  }

  /** A channel has a list exactly when some listing names it, and the list
      holds that channel's programmes in document order. No channel element
      is needed for a channel to appear. */
  lemma {:induction false} GroupIsOnChannel(ls: seq<Listing>, c: string)
    ensures c in Group(ls) <==> OnChannel(ls, c) != []
    ensures c in Group(ls) ==> Group(ls)[c] == OnChannel(ls, c)
  {
    if ls != [] {
      GroupIsOnChannel(ls[..|ls| - 1], c);
    }
  }

  function StartOf(p: Programme): int {
    p.start
  }

  /** Each channel's list sorted by start time. */
  function SortGroups(g: map<string, seq<Programme>>): (r: map<string, seq<Programme>>)
    ensures r.Keys == g.Keys
    ensures forall c :: c in r ==> SortedBy(r[c], StartOf) && multiset(r[c]) == multiset(g[c])
  {
    map c | c in g :: SortBy(g[c], StartOf)
  }

  /** `parseEpg(xmlText)` with the clock read as `now`. */
  function ParseEpg(xml: string, now: int): (r: EpgData)
    requires WellDated(ProgrammeMatches(xml))
    ensures r.channels == ChannelTable(ChannelMatches(xml))
    ensures forall id :: id in r.channels <==>
      exists i :: 0 <= i < |ChannelMatches(xml)| && ChannelMatches(xml)[i].id == id
    ensures forall c :: c in r.programmes <==> OnChannel(Kept(Listings(ProgrammeMatches(xml)), now), c) != []
    ensures forall c :: c in r.programmes ==>
      var ps := r.programmes[c];
      && SortedBy(ps, StartOf)
      && multiset(ps) == multiset(OnChannel(Kept(Listings(ProgrammeMatches(xml)), now), c))
    ensures forall c :: c in r.programmes ==>
      forall k :: 0 <= k < |r.programmes[c]| ==> InWindow(r.programmes[c][k], now)
  {
    var kept := Kept(Listings(ProgrammeMatches(xml)), now);
    var r := EpgData(ChannelTable(ChannelMatches(xml)), SortGroups(Group(kept)));
    forall id ensures id in r.channels <==>
      exists i :: 0 <= i < |ChannelMatches(xml)| && ChannelMatches(xml)[i].id == id
    {
      ChannelTableKeys(ChannelMatches(xml), id);
    }
    forall c ensures c in r.programmes <==> OnChannel(kept, c) != [] {
      GroupIsOnChannel(kept, c);
    }
    forall c | c in r.programmes
      ensures multiset(r.programmes[c]) == multiset(OnChannel(kept, c))
      ensures forall k :: 0 <= k < |r.programmes[c]| ==> InWindow(r.programmes[c][k], now)
    {
      GroupIsOnChannel(kept, c);
      OnChannelInWindow(kept, c, now);
      forall k | 0 <= k < |r.programmes[c]| ensures InWindow(r.programmes[c][k], now) {
        assert r.programmes[c][k] in multiset(OnChannel(kept, c));
      }
    }
    r
  }

  /** A channel's programmes come from the listings, so they pass the window. */
  lemma {:induction false} OnChannelInWindow(ls: seq<Listing>, c: string, now: int)
    requires forall k :: 0 <= k < |ls| ==> InWindow(ls[k].programme, now)
    ensures forall p :: p in OnChannel(ls, c) ==> InWindow(p, now)
  {
    if ls != [] {
      OnChannelInWindow(ls[..|ls| - 1], c, now);
    }
  }

  /** Both ends of the window are kept, and a programme that stops before it
      starts is kept like any other. */
  lemma WindowBoundsInclusive(now: int)
    ensures InWindow(Programme(now + HalfWindow, now - HalfWindow, "", "", ""), now)
    ensures !InWindow(Programme(now + HalfWindow + 1, now, "", "", ""), now)
    ensures !InWindow(Programme(now, now - HalfWindow - 1, "", "", ""), now)
  {
  }
}

=== FILE: epg_service.dfy ===
/** The renderer's EPG service (src/renderer/js/services/epg-service.js):
    the current and next programme of a channel, the cache-freshness rules
    of `init` and `load`, and the gzip magic-number test. The clock, the
    settings and cache reads over IPC, and the outcome of fetching,
    decompressing and parsing the guide are parameters; the auto-refresh
    timer is not modelled. */
module EpgService {
  import opened Wrappers
  import opened Ordering
  import opened Epg
  import opened Seqs

  /** The service's fields: the guide in use, where it came from, and how old
      a cached guide may be. */
  datatype Service = Service(data: Option<EpgData>, url: Option<string>, refreshHours: real)

  /** The EPG cache record the main process keeps on disk. */
  datatype Cache = Cache(url: string, data: Option<EpgData>, timestamp: int)

  /** A fresh service: no guide, six hours of cache validity. */
  const DefaultRefreshHours: real := 6.0
  const Initial: Service := Service(None, None, DefaultRefreshHours)

  const MsPerHour: real := 3600000.0

  // ---- Lookups ----

  /** The leftmost programme satisfying `p`: `Array.prototype.find`. */
  function Find(ps: seq<Programme>, p: Programme -> bool): (r: Option<nat>)
    ensures r.Some? ==> r.value < |ps| && p(ps[r.value])
    ensures r.Some? ==> forall j :: 0 <= j < r.value ==> !p(ps[j])
    ensures r.None? <==> forall j :: 0 <= j < |ps| ==> !p(ps[j])
  {
    FindFirst(ps, p)
  }

  /** The programme list of a channel, when there is a guide, a non-empty id
      and a list for it. */
  function ListOf(svc: Service, tvgId: string): Option<seq<Programme>> {
    if svc.data.None? || tvgId == "" || tvgId !in svc.data.value.programmes then None
    else Some(svc.data.value.programmes[tvgId])
  }

  predicate OnAir(p: Programme, now: int) {
    p.start <= now < p.stop
  }

  predicate NotStarted(p: Programme, now: int) {
    p.start >= now
  }

  /** `getCurrentProgram`: the first programme of the channel on air at
      `now`; none without a guide, an id, a list, or such a programme. */
  function CurrentProgram(svc: Service, tvgId: string, now: int): (r: Option<Programme>)
    ensures ListOf(svc, tvgId).None? ==> r.None?
    ensures r.Some? ==> r.value in ListOf(svc, tvgId).value && OnAir(r.value, now)
    ensures r.Some? ==> exists i :: (
      && 0 <= i < |ListOf(svc, tvgId).value| && ListOf(svc, tvgId).value[i] == r.value
      && forall j :: 0 <= j < i ==> !OnAir(ListOf(svc, tvgId).value[j], now))
    ensures ListOf(svc, tvgId).Some? ==>
      (r.None? <==> forall j :: 0 <= j < |ListOf(svc, tvgId).value| ==> !OnAir(ListOf(svc, tvgId).value[j], now))
  {
    match ListOf(svc, tvgId)
    case None => None
    case Some(ps) =>
      match Find(ps, (p: Programme) => OnAir(p, now))
      case None => None
      case Some(i) => Some(ps[i])
  }

  /** `getNextProgram`: the first programme of the channel that starts at or
      after `now`. */
  function NextProgram(svc: Service, tvgId: string, now: int): (r: Option<Programme>)
    ensures ListOf(svc, tvgId).None? ==> r.None?
    ensures r.Some? ==> r.value in ListOf(svc, tvgId).value && NotStarted(r.value, now)
    ensures r.Some? ==> exists i :: (
      && 0 <= i < |ListOf(svc, tvgId).value| && ListOf(svc, tvgId).value[i] == r.value
      && forall j :: 0 <= j < i ==> !NotStarted(ListOf(svc, tvgId).value[j], now))
    ensures ListOf(svc, tvgId).Some? ==>
      (r.None? <==> forall j :: 0 <= j < |ListOf(svc, tvgId).value| ==> !NotStarted(ListOf(svc, tvgId).value[j], now))
  {
    match ListOf(svc, tvgId)
    case None => None
    case Some(ps) =>
      match Find(ps, (p: Programme) => NotStarted(p, now))
      case None => None
      case Some(i) => Some(ps[i])
  }

  /** A programme that starts exactly now, first in its list, is both the
      current and the next programme. */
  lemma StartingNowIsBoth(svc: Service, tvgId: string, now: int)
    requires ListOf(svc, tvgId).Some? && ListOf(svc, tvgId).value != []
    requires ListOf(svc, tvgId).value[0].start == now < ListOf(svc, tvgId).value[0].stop
    ensures CurrentProgram(svc, tvgId, now) == NextProgram(svc, tvgId, now) == Some(ListOf(svc, tvgId).value[0])
  {
  }

  /** In a list sorted by start, a programme that began before `now` and is
      still on air comes before the next programme. */
  lemma CurrentBeforeNext(ps: seq<Programme>, now: int)
    requires SortedBy(ps, (p: Programme) => p.start)
    requires Find(ps, (p: Programme) => OnAir(p, now)).Some?
    requires Find(ps, (p: Programme) => NotStarted(p, now)).Some?
    requires ps[Find(ps, (p: Programme) => OnAir(p, now)).value].start < now
    ensures Find(ps, (p: Programme) => OnAir(p, now)).value < Find(ps, (p: Programme) => NotStarted(p, now)).value
  {
    var i := Find(ps, (p: Programme) => OnAir(p, now)).value;
    var j := Find(ps, (p: Programme) => NotStarted(p, now)).value;
  }

  // ---- Cache freshness ----

  /** A cached guide younger than `hours`, its age measured in hours. */
  predicate Fresh(timestamp: int, now: int, hours: real) {
    ((now - timestamp) as real) / MsPerHour < hours
  }

  /** The same test in milliseconds: younger than `hours` hours. */
  lemma FreshInMilliseconds(timestamp: int, now: int, hours: real)
    ensures Fresh(timestamp, now, hours) <==> ((now - timestamp) as real) < hours * MsPerHour
  {
    var age := (now - timestamp) as real;
    assert age / MsPerHour * MsPerHour == age;
  }

  /** `settings.epgRefreshHours || 6`. */
  function RefreshHours(setting: Option<real>): (h: real)
    ensures h != 0.0
    ensures setting.Some? && setting.value != 0.0 ==> h == setting.value
    ensures !(setting.Some? && setting.value != 0.0) ==> h == DefaultRefreshHours
  {
    if setting.Some? && setting.value != 0.0 then setting.value else DefaultRefreshHours
  }

  /** Both reads succeeded and the cache holds a guide that is fresh for the
      period just read. */
  predicate InitAdopts(settings: Fetched<Option<real>>, cached: Fetched<Option<Cache>>, now: int) {
    && settings.Got? && cached.Got? && cached.value.Some? && cached.value.value.data.Some?
    && Fresh(cached.value.value.timestamp, now, RefreshHours(settings.value))
  }

  /** `init`: read the refresh period, then adopt a cached guide iff it holds
      data and is fresh for that period. A failed settings read leaves the
      service as it was; a failed cache read keeps only the new period. */
  function Init(svc: Service, settings: Fetched<Option<real>>, cached: Fetched<Option<Cache>>, now: int): (r: Service)
    ensures settings.Threw? ==> r == svc
    ensures settings.Got? ==> r.refreshHours == RefreshHours(settings.value)
    ensures InitAdopts(settings, cached, now) ==>
      r.data == cached.value.value.data && r.url == Some(cached.value.value.url)
    ensures !InitAdopts(settings, cached, now) ==> r.data == svc.data && r.url == svc.url
  {
    match settings
    case Threw => svc
    case Got(setting) =>
      var s := svc.(refreshHours := RefreshHours(setting));
      match cached
      case Got(Some(c)) =>
        if c.data.Some? && Fresh(c.timestamp, now, s.refreshHours) then s.(data := c.data, url := Some(c.url))
        else s
      case _ => s
  }

  // ---- Loading ----

  /** The first two bytes of a gzip member are ID1 = 31 and ID2 = 139
      (section 2.3.1 of RFC 1952); the service also wants a third byte. */
  predicate IsGzip(bytes: seq<int>) {
    |bytes| > 2 && bytes[0] == 0x1f && bytes[1] == 0x8b
  }

  /** The text of a fetched guide: a payload that looks gzipped goes through
      `gunzip` (the `DecompressionStream`, which may fail), any other is
      decoded as UTF-8 by `decode` (a `TextDecoder`, which does not). */
  function XmlText(bytes: seq<int>, gunzip: seq<int> -> Fetched<string>, decode: seq<int> -> string): Fetched<string> {
    if IsGzip(bytes) then gunzip(bytes) else Got(decode(bytes))
  }

  /** The outcome of a fetch: the request or the status check failed, or
      the body's bytes went through `XmlText` and then `parse`. */
  function Parsed(response: Fetched<seq<int>>, gunzip: seq<int> -> Fetched<string>, decode: seq<int> -> string,
                  parse: string -> Fetched<EpgData>): Fetched<EpgData> {
    match response
    case Threw => Threw
    case Got(bytes) =>
      match XmlText(bytes, gunzip, decode)
      case Threw => Threw
      case Got(text) => parse(text)
  }

  /** The cache answers a load: no forced refresh, the read succeeded, and
      the cached guide is for this url and fresh. */
  predicate CacheHit(svc: Service, url: string, forceRefresh: bool, cached: Fetched<Option<Cache>>, now: int) {
    && !forceRefresh && cached.Got? && cached.value.Some? && cached.value.value.url == url
    && Fresh(cached.value.value.timestamp, now, svc.refreshHours)
  }

  /** `load(url, forceRefresh)`. `cached` is the cache read, `response` the
      fetched body (or the failed request or status), `gunzip`, `decode` and
      `parse` the decompression, UTF-8 decoding and parsing of the guide, and
      `saved` the cache write; each may have failed except the decoding.
      Returns the new service and the guide handed back to the caller. */
  function Load(svc: Service, url: string, forceRefresh: bool, cached: Fetched<Option<Cache>>,
                response: Fetched<seq<int>>, gunzip: seq<int> -> Fetched<string>, decode: seq<int> -> string,
                parse: string -> Fetched<EpgData>, saved: Fetched<()>, now: int): (r: (Service, Option<EpgData>))
    ensures url == "" ==> r == (svc, None)
    ensures url != "" && CacheHit(svc, url, forceRefresh, cached, now) ==>
      r == (svc.(data := cached.value.value.data, url := Some(url)), cached.value.value.data)
    ensures url != "" && !CacheHit(svc, url, forceRefresh, cached, now) && response.Threw? ==> r == (svc, None)
    ensures url != "" && !CacheHit(svc, url, forceRefresh, cached, now) && response.Got? ==>
      var text := if IsGzip(response.value) then gunzip(response.value) else Got(decode(response.value));
      && (text.Threw? ==> r == (svc, None))
      && (text.Got? && parse(text.value).Threw? ==> r == (svc, None))
      && (text.Got? && parse(text.value).Got? ==>
            r.0 == svc.(data := Some(parse(text.value).value), url := Some(url))
            && r.1 == (if saved.Got? then Some(parse(text.value).value) else None))
    ensures r.1.Some? ==> r.0.data == r.1 && r.0.url == Some(url)
    ensures r.0.refreshHours == svc.refreshHours
  {
    if url == "" then (svc, None)
    else if CacheHit(svc, url, forceRefresh, cached, now) then
      var c := cached.value.value;
      (svc.(data := c.data, url := Some(url)), c.data)
    else
      match Parsed(response, gunzip, decode, parse)
      case Threw => (svc, None)
      case Got(d) =>
        var s := svc.(data := Some(d), url := Some(url));
        match saved
        case Got(_) => (s, Some(d))
        case Threw => (s, None)
  }

  /** A payload without the gzip magic number never reaches the
      decompressor: the load does not depend on it. */
  lemma PlainPayloadSkipsGunzip(svc: Service, url: string, forceRefresh: bool, cached: Fetched<Option<Cache>>,
                                bytes: seq<int>, g1: seq<int> -> Fetched<string>, g2: seq<int> -> Fetched<string>,
                                decode: seq<int> -> string, parse: string -> Fetched<EpgData>, saved: Fetched<()>, now: int)
    requires !IsGzip(bytes)
    ensures Load(svc, url, forceRefresh, cached, Got(bytes), g1, decode, parse, saved, now)
         == Load(svc, url, forceRefresh, cached, Got(bytes), g2, decode, parse, saved, now)
  {
  }

  /** A payload with the gzip magic number is never read as plain text: the
      load does not depend on the UTF-8 decoder, so a payload that only
      looks gzipped and fails to decompress fails the load. */
  lemma GzipPayloadSkipsDecoder(svc: Service, url: string, forceRefresh: bool, cached: Fetched<Option<Cache>>,
                                bytes: seq<int>, gunzip: seq<int> -> Fetched<string>,
                                d1: seq<int> -> string, d2: seq<int> -> string,
                                parse: string -> Fetched<EpgData>, saved: Fetched<()>, now: int)
    requires IsGzip(bytes)
    ensures Load(svc, url, forceRefresh, cached, Got(bytes), gunzip, d1, parse, saved, now)
         == Load(svc, url, forceRefresh, cached, Got(bytes), gunzip, d2, parse, saved, now)
    ensures url != "" && !CacheHit(svc, url, forceRefresh, cached, now) && gunzip(bytes).Threw? ==>
      Load(svc, url, forceRefresh, cached, Got(bytes), gunzip, d1, parse, saved, now) == (svc, None)
  {
  }

  /** A forced refresh ignores the cache: its result depends only on the
      fetch and the cache write. */
  lemma ForcedLoadIgnoresCache(svc: Service, url: string, c1: Fetched<Option<Cache>>, c2: Fetched<Option<Cache>>,
                               response: Fetched<seq<int>>, gunzip: seq<int> -> Fetched<string>,
                               decode: seq<int> -> string, parse: string -> Fetched<EpgData>,
                               saved: Fetched<()>, now: int)
    ensures Load(svc, url, true, c1, response, gunzip, decode, parse, saved, now)
         == Load(svc, url, true, c2, response, gunzip, decode, parse, saved, now)
  {
  }
}

=== FILE: formatters.dfy ===
/** The display helpers of the renderer (src/renderer/js/utils/formatters.js):
    the "time ago" label of the history list, title truncation, and the
    progress bar of the programme on air. Times are epoch milliseconds and
    the clock is a parameter. */
module Formatters {
  import opened Numerals

  const MsPerSecond := 1000
  const MsPerMinute := 60 * MsPerSecond
  const MsPerHour := 60 * MsPerMinute
  const MsPerDay := 24 * MsPerHour

  /** The label `timeAgo` picks, before it is rendered as text. */
  datatype Age = JustNow | MinutesAgo(n: nat) | HoursAgo(n: nat) | DaysAgo(n: nat)
  {
    /** The least elapsed time, in milliseconds, that the label stands for. */
    function Floor(): nat {
      match this
      case JustNow => 0
      case MinutesAgo(n) => n * MsPerMinute
      case HoursAgo(n) => n * MsPerHour
      case DaysAgo(n) => n * MsPerDay
    }
  }

  /** A quotient is determined by any remainder in range. */
  lemma {:induction false} DivUnique(d: int, m: nat, q: int, r: int)
    requires m > 0 && d == m * q + r && 0 <= r < m
    ensures d / m == q
  {
    var k := d / m - q;
    assert m * k == r - d % m;
  }

  lemma Expand(a: int, b: int, q: int, r2: int, r1: int)
    ensures a * (b * q + r2) + r1 == (a * b) * q + (a * r2 + r1)
  {
  }

  lemma RemainderBound(a: nat, b: nat, r1: int, r2: int)
    requires 0 <= r1 < a && 0 <= r2 < b
    ensures 0 <= a * r2 + r1 < a * b
  {
    assert a * r2 <= a * (b - 1);
  }

  /** Two floored divisions in a row are one floored division by the product. */
  lemma {:induction false} DivDiv(d: int, a: nat, b: nat)
    requires a > 0 && b > 0
    ensures d / a / b == d / (a * b)
  {
    var q1, r1 := d / a, d % a;
    var q, r2 := q1 / b, q1 % b;
    assert d == a * (b * q + r2) + r1;
    Expand(a, b, q, r2, r1);
    RemainderBound(a, b, r1, r2);
    DivUnique(d, a * b, q, a * r2 + r1);
  }

  /** The quotient `d / u` lies in `[n, n + 1)` units. */
  lemma {:induction false} DivBounds(d: int, u: nat)
    requires u > 0
    ensures (d / u) * u <= d < (d / u + 1) * u
  {
  }

  /** `timeAgo(timestamp)`: whole seconds elapsed, floored; under a minute
      (a timestamp in the future included) is "just now", then whole minutes
      below an hour, whole hours below a day, whole days beyond. */
  function AgeOf(timestamp: int, now: int): (a: Age)
    ensures a.JustNow? <==> now - timestamp < MsPerMinute
    ensures a.MinutesAgo? <==> MsPerMinute <= now - timestamp < MsPerHour
    ensures a.HoursAgo? <==> MsPerHour <= now - timestamp < MsPerDay
    ensures a.MinutesAgo? ==> 1 <= a.n <= 59
    ensures a.HoursAgo? ==> 1 <= a.n <= 23
    ensures a.DaysAgo? ==> 1 <= a.n
    ensures !a.JustNow? ==> a.Floor() <= now - timestamp
    ensures a.MinutesAgo? ==> now - timestamp < a.Floor() + MsPerMinute
    ensures a.HoursAgo? ==> now - timestamp < a.Floor() + MsPerHour
    ensures a.DaysAgo? ==> now - timestamp < a.Floor() + MsPerDay
  {
    var d := now - timestamp;
    var seconds := d / MsPerSecond;
    if seconds < 60 then
      DivBounds(d, MsPerSecond);
      JustNow
    else
      var minutes := seconds / 60;
      DivDiv(d, MsPerSecond, 60);
      DivBounds(d, MsPerMinute);
      if minutes < 60 then MinutesAgo(minutes)
      else
        var hours := minutes / 60;
        DivDiv(d, MsPerMinute, 60);
        DivBounds(d, MsPerHour);
        if hours < 24 then HoursAgo(hours)
        else
          DivDiv(d, MsPerHour, 24);
          DivBounds(d, MsPerDay);
          DaysAgo(hours / 24)
  }

  /** The label's text. */
  function Label(a: Age): string {
    match a
    case JustNow => "Just now"
    case MinutesAgo(n) => Decimal(n) + "m ago"
    case HoursAgo(n) => Decimal(n) + "h ago"
    case DaysAgo(n) => Decimal(n) + "d ago"
  }

  function TimeAgo(timestamp: int, now: int): string {
    Label(AgeOf(timestamp, now))
  }

  /** An older timestamp never reads as more recent. */
  lemma AgeMonotone(older: int, newer: int, now: int)
    requires older <= newer
    ensures AgeOf(newer, now).Floor() <= AgeOf(older, now).Floor()
  {
    var a, b := AgeOf(older, now), AgeOf(newer, now);
    if b.MinutesAgo? && a.MinutesAgo? {
      assert b.n < a.n + 1 by {
        assert b.n * MsPerMinute <= now - newer <= now - older < a.n * MsPerMinute + MsPerMinute;
      }
    } else if b.HoursAgo? && a.HoursAgo? {
      assert b.n < a.n + 1 by {
        assert b.n * MsPerHour <= now - newer <= now - older < a.n * MsPerHour + MsPerHour;
      }
    } else if b.DaysAgo? && a.DaysAgo? {
      assert b.n < a.n + 1 by {
        assert b.n * MsPerDay <= now - newer <= now - older < a.n * MsPerDay + MsPerDay;
      }
    }
  }

  const DefaultMaxLen := 40
  const Ellipsis: char := '…'

  /** `truncate(str, maxLen)`: an empty or short enough string is returned as
      is; a longer one keeps its first `maxLen - 1` characters (none when
      `maxLen` is below one, as `substring` clamps) and gains an ellipsis. */
  function Truncate(s: string, maxLen: int): (r: string)
    ensures s == [] || |s| <= maxLen ==> r == s
    ensures s != [] && |s| > maxLen ==> |r| == if maxLen < 1 then 1 else maxLen
    ensures s != [] && |s| > maxLen ==> r[|r| - 1] == Ellipsis && r[..|r| - 1] == s[..|r| - 1]
  {
    if s == [] || |s| <= maxLen then s
    else
      var keep := if maxLen - 1 < 0 then 0 else maxLen - 1;
      s[..keep] + [Ellipsis]
  }

  /** `truncate(str)` with the default `maxLen` of 40. */
  function TruncateDefault(s: string): (r: string)
    ensures |r| <= DefaultMaxLen
    ensures |s| <= DefaultMaxLen ==> r == s
    ensures |s| > DefaultMaxLen ==> r == s[..DefaultMaxLen - 1] + [Ellipsis]
  {
    Truncate(s, DefaultMaxLen)
  }

  /** Truncating a truncated string changes nothing. */
  lemma TruncateIdempotent(s: string, maxLen: int)
    ensures Truncate(Truncate(s, maxLen), maxLen) == Truncate(s, maxLen)
  {
    var r := Truncate(s, maxLen);
    if r != [] && |r| > maxLen {
      assert |r| == 1 && r[0] == Ellipsis;
      assert r[..0] + [Ellipsis] == r;
    }
  }

  /** `epgProgress(start, stop)`: the share of the programme elapsed, as a
      percentage clamped to `[0, 100]`; zero for an empty or inverted slot. */
  function Progress(start: int, stop: int, now: int): (r: real)
    ensures 0.0 <= r <= 100.0
    ensures stop <= start ==> r == 0.0
    ensures start < stop ==> (r == 0.0 <==> now <= start)
    ensures start < stop ==> (r == 100.0 <==> stop <= now)
    ensures start < now < stop ==> r == (now - start) as real * 100.0 / (stop - start) as real
  {
    var total := stop - start;
    if total <= 0 then 0.0
    else
      var pct := (now - start) as real / total as real * 100.0;
      var capped := if pct < 100.0 then pct else 100.0;
      if capped < 0.0 then 0.0 else capped
  }

  /** The bar never moves backwards as the clock advances. */
  lemma ProgressMonotone(start: int, stop: int, t1: int, t2: int)
    requires t1 <= t2
    ensures Progress(start, stop, t1) <= Progress(start, stop, t2)
  {
    if start < stop {
      var total := (stop - start) as real;
      assert (t1 - start) as real / total <= (t2 - start) as real / total;
    }
  }
}

=== FILE: m3u.dfy ===
/** `parseM3U` (src/main/m3u-parser.js): the header check, then one pass over
    the remaining lines in which an `#EXTINF` line arms a pending record and
    the next stream line turns it into a catalogue item of the type the
    content heuristic assigns. */
module M3u {
  import opened Wrappers
  import opened Strings
  import opened Content
  import opened M3uPatterns
  import opened M3uAttrs
  import opened M3uId

  /** The group of an entry without `group-title`. The source spells it as
      the UTF-8 bytes of `é` read as Latin-1 (`Ã©`), and so does the model. */
  const DefaultGroup: string := "Non class\U{00C3}\U{00A9}"

  const MissingHeader: string := "Invalid M3U file: missing #EXTM3U header"

  /** The loop state: the last `#EXTINF` line not yet used, and the three
      item lists built so far. The source keeps `parseExtInf` of that line;
      the parse is pure, so keeping the line and parsing it when the URL
      line arrives gives the same items. */
  datatype ScanState = ScanState(
    pending: Option<string>,
    channels: seq<Item>,
    vods: seq<Item>,
    series: seq<Item>)

  const Start: ScanState := ScanState(None, [], [], [])

  /** What every item the parser produces satisfies: it carries its stream
      line, its identifier is the hash of `tvgId|url`, its type is the one
      the heuristic assigns to its URL and group, and neither its name nor
      its group is empty. */
  predicate ValidEntry(it: Item) {
    && it.url.Some? && it.tvgId.Some? && it.tvgName.Some?
    && IsStreamLine(it.url.value)
    && it.id == GenerateId(it.tvgId.value, it.url.value)
    && it.kind == Some(DetectContentType(it.url.value, it.group))
    && it.name != "" && it.group != ""
    && it.extra == NoExtra
  }

  predicate AllValid(items: seq<Item>, t: ContentType) {
    forall i :: 0 <= i < |items| ==> ValidEntry(items[i]) && items[i].kind == Some(t)
  }

  /** Each list holds valid entries of its own type. */
  predicate Inv(st: ScanState) {
    && AllValid(st.channels, Live)
    && AllValid(st.vods, Vod)
    && AllValid(st.series, Series)
  }

  function Total(st: ScanState): nat {
    |st.channels| + |st.vods| + |st.series|
  }

  /** The item a stream line makes of the pending record. */
  function Entry(e: ExtInf, url: string): (it: Item)
    ensures it.group == (if e.group != "" then e.group else DefaultGroup)
    ensures it.url == Some(url) && it.name == e.name && it.logo == e.logo
    ensures it.tvgId == Some(e.tvgId) && it.tvgName == Some(e.tvgName)
  {
    var group := if e.group != "" then e.group else DefaultGroup;
    Item(GenerateId(e.tvgId, url), Some(e.tvgId), Some(e.tvgName), e.name, e.logo,
         group, Some(url), Some(DetectContentType(url, group)), NoExtra)
  }

  /** Appends an item to the list of its type. */
  function Add(st: ScanState, it: Item): (r: ScanState)
    requires it.kind.Some?
    ensures r.pending == st.pending
    ensures Total(r) == Total(st) + 1
    ensures r.channels == if it.kind == Some(Live) then st.channels + [it] else st.channels
    ensures r.vods == if it.kind == Some(Vod) then st.vods + [it] else st.vods
    ensures r.series == if it.kind == Some(Series) then st.series + [it] else st.series
  {
    match it.kind.value
    case Vod => st.(vods := st.vods + [it])
    case Series => st.(series := st.series + [it])
    case Live => st.(channels := st.channels + [it])
  }

  /** A trimmed line that is neither blank nor a directive: a stream URL. */
  predicate IsStreamLine(line: string) {
    line != "" && !StartsWith(line, "#")
  }

  /** An item made of a named record and a stream line is valid. */
  lemma EntryValid(e: ExtInf, url: string)
    requires e.name != "" && IsStreamLine(url)
    ensures ValidEntry(Entry(e, url))
  {
  }

  /** A stream line consumes the pending record and files its item. */
  function Emit(st: ScanState, line: string): (r: ScanState)
    requires st.pending.Some?
    ensures r.pending == None
    ensures Total(r) == Total(st) + 1
    ensures st.channels <= r.channels && st.vods <= r.vods && st.series <= r.series
  {
    Add(st, Entry(ParseExtInf(st.pending.value), line)).(pending := None)
  }

  /** Filing a valid item keeps every list valid and of its own type. */
  lemma EmitValid(st: ScanState, line: string)
    requires Inv(st) && st.pending.Some? && IsStreamLine(line)
    ensures Inv(Emit(st, line))
  {
    var e := ParseExtInf(st.pending.value);
    var it := Entry(e, line);
    EntryValid(e, line);
    match it.kind.value
    case Live => AppendValid(st.channels, it, Live);
    case Vod => AppendValid(st.vods, it, Vod);
    case Series => AppendValid(st.series, it, Series);
  }

  lemma AppendValid(items: seq<Item>, it: Item, t: ContentType)
    requires AllValid(items, t) && ValidEntry(it) && it.kind == Some(t)
    ensures AllValid(items + [it], t)
  {
  }

  /** One iteration of the loop, on the untrimmed line. */
  function Step(st: ScanState, raw: string): (r: ScanState)
    ensures Total(st) <= Total(r) <= Total(st) + 1
    ensures st.channels <= r.channels && st.vods <= r.vods && st.series <= r.series
    ensures Total(r) == Total(st) + 1 <==> IsStreamLine(Trim(raw)) && st.pending.Some?
  {
    var line := Trim(raw);
    if StartsWith(line, "#EXTINF:") then
      ExtInfIsDirective(line);
      st.(pending := Some(line))
    else if IsStreamLine(line) && st.pending.Some? then
      Emit(st, line)
    else
      st
  }

  /** An `#EXTINF` line is a directive, not a stream line. */
  lemma ExtInfIsDirective(line: string)
    requires StartsWith(line, "#EXTINF:")
    ensures !IsStreamLine(line)
  {
    assert line[..1] == line[..8][..1];
  }

  /** An `#EXTINF` line replaces the pending record, even an unused one, and
      files nothing. */
  lemma StepExtInf(st: ScanState, raw: string)
    requires StartsWith(Trim(raw), "#EXTINF:")
    ensures Step(st, raw) == st.(pending := Some(Trim(raw)))
  {
  }

  /** Blank lines and other directives leave the state alone: in particular a
      pending record survives them and still applies to the next URL line. */
  lemma StepSkipsDirectives(st: ScanState, raw: string)
    requires Trim(raw) == "" || (StartsWith(Trim(raw), "#") && !StartsWith(Trim(raw), "#EXTINF:"))
    ensures Step(st, raw) == st
  {
  }

  /** A URL line without a pending record is ignored. */
  lemma StepIgnoresOrphanUrl(st: ScanState, raw: string)
    requires st.pending.None?
    ensures Step(st, raw).channels == st.channels && Step(st, raw).vods == st.vods
      && Step(st, raw).series == st.series
  {
  }

  /** Every line keeps the invariant. */
  lemma StepValid(st: ScanState, raw: string)
    requires Inv(st)
    ensures Inv(Step(st, raw))
  {
    var line := Trim(raw);
    if !StartsWith(line, "#EXTINF:") && IsStreamLine(line) && st.pending.Some? {
      EmitValid(st, line);
    }
  }

  /** The loop over the lines after the header. Lists only grow: what was
      produced before is a prefix of what is produced after. */
  function Scan(st: ScanState, lines: seq<string>): (r: ScanState)
    ensures Total(st) <= Total(r) <= Total(st) + |lines|
    ensures st.channels <= r.channels && st.vods <= r.vods && st.series <= r.series
    decreases |lines|
  {
    if lines == [] then st else Scan(Step(st, lines[0]), lines[1..])
  }

  /** The whole loop keeps the invariant. */
  lemma {:induction false} ScanValid(st: ScanState, lines: seq<string>)
    requires Inv(st)
    ensures Inv(Scan(st, lines))
    decreases |lines|
  {
    if lines != [] {
      StepValid(st, lines[0]);
      ScanValid(Step(st, lines[0]), lines[1..]);
    }
  }

  /** `text.replace(/\r\n/g, '\n').split('\n')`. */
  function Lines(text: string): (ls: seq<string>)
    ensures |ls| >= 1
  {
    Split(NormalizeNewlines(text), '\n')
  }

  /** The header test: a non-empty first line whose trim starts with `#EXTM3U`. */
  predicate HasHeader(first: string) {
    first != "" && StartsWith(Trim(first), "#EXTM3U")
  }

  /** `parseM3U(text)`. It fails exactly when the header is missing; otherwise
      every list holds valid entries of its own type, each group list is the
      sorted set of its items' groups, and the guide address comes from the
      first line. */
  function ParseM3U(text: string): (r: Result<Catalog, string>)
    ensures r.Err? <==> !HasHeader(Lines(text)[0])
    ensures r.Err? ==> r.error == MissingHeader
    ensures r.Ok? ==> WellSorted(r.value)
    ensures r.Ok? ==> r.value.epgUrl == HeaderEpgUrl(Lines(text)[0])
    ensures r.Ok? ==>
      AllValid(r.value.channels, Live) && AllValid(r.value.vods, Vod) && AllValid(r.value.series, Series)
    ensures r.Ok? ==> |r.value.channels| + |r.value.vods| + |r.value.series| < |Lines(text)|
  {
    var lines := Lines(text);
    if !HasHeader(lines[0]) then Err(MissingHeader)
    else
      var st := Scan(Start, lines[1..]);
      ScanValid(Start, lines[1..]);
      Ok(Catalog(HeaderEpgUrl(lines[0]),
        st.channels, GroupIndex(st.channels),
        st.vods, GroupIndex(st.vods),
        st.series, GroupIndex(st.series)))
  }

  /** Text that begins with `#EXTM3U` is accepted, whatever follows. */
  lemma ParseM3UAcceptsHeader(text: string)
    requires StartsWith(text, "#EXTM3U")
    ensures ParseM3U(text).Ok?
  {
    var p := "#EXTM3U";
    assert text == p + text[7..];
    NormalizeNewlinesPrefix(p, text[7..]);
    assert StartsWith(NormalizeNewlines(text), p);
    SplitKeepsPrefix(NormalizeNewlines(text), '\n', p);
    TrimKeepsPrefix(Lines(text)[0], p);
  }

  /** Without the header nothing is parsed. */
  lemma ParseM3URejectsEmpty()
    ensures ParseM3U("") == Err(MissingHeader)
  {
    assert Lines("") == [""];
  }

  /** A stream line is not an `#EXTINF` line. */
  lemma StreamLineIsNoDirective(line: string)
    requires IsStreamLine(line)
    ensures !StartsWith(line, "#EXTINF:")
  {
    if |line| >= 8 {
      assert line[..1] == line[..8][..1];
    }
  }

  /** A stream line with a record pending files that record. */
  lemma StepEmits(st: ScanState, raw: string)
    requires st.pending.Some? && IsStreamLine(Trim(raw))
    ensures Step(st, raw) == Emit(st, Trim(raw))
  {
    StreamLineIsNoDirective(Trim(raw));
  }

  /** Filing an item does not depend on the pending record. */
  lemma AddIgnoresPending(st: ScanState, p: Option<string>, it: Item)
    requires it.kind.Some?
    ensures Add(st.(pending := p), it).(pending := None) == Add(st, it).(pending := None)
  {
  }

  /** A rendered `#EXTINF` line becomes the pending record as it is. */
  lemma ExtInfLineStep(st: ScanState, attrs: seq<Attr>, title: string)
    requires title != "" && Trim(title) == title
    ensures Step(st, ExtInfLine(attrs, title)) == st.(pending := Some(ExtInfLine(attrs, title)))
  {
    ExtInfLineTrimmed(attrs, title);
    ExtInfLineStarts(attrs, title);
    StepExtInf(st, ExtInfLine(attrs, title));
  }

  /** A trimmed stream line files the item of the pending record. */
  lemma UrlLineStep(st: ScanState, url: string)
    requires st.pending.Some? && IsStreamLine(url) && Trim(url) == url
    ensures Step(st, url) == Add(st, Entry(ParseExtInf(st.pending.value), url)).(pending := None)
  {
    StepEmits(st, url);
  }

  /** An `#EXTINF` line followed by its URL line appends exactly one item to
      the list of its type, built from the attributes and the title the line
      carries; the pending record is consumed. */
  lemma EntryRoundTrip(st: ScanState, attrs: seq<Attr>, title: string, url: string)
    requires forall i :: 0 <= i < |attrs| ==> Readable(attrs[i])
    requires title != "" && Trim(title) == title && ',' !in title && '"' !in title
    requires IsStreamLine(url) && Trim(url) == url
    ensures Step(Step(st, ExtInfLine(attrs, title)), url) ==
      Add(st, Entry(ExtInf(Attribute(attrs, "tvg-id"), Attribute(attrs, "tvg-name"), title,
        Attribute(attrs, "tvg-logo"), Attribute(attrs, "group-title")), url)).(pending := None)
  {
    var line := ExtInfLine(attrs, title);
    ExtInfLineStep(st, attrs, title);
    var st1 := st.(pending := Some(line));
    UrlLineStep(st1, url);
    ParseExtInfRendered(attrs, title);
    AddIgnoresPending(st, Some(line), Entry(ParseExtInf(line), url));
  }
}

=== FILE: m3u_attrs.dfy ===
/** The line-level parsing of the M3U parser (src/main/m3u-parser.js): the
    `key="value"` attribute scanner and display-name rule of `parseExtInf`,
    and the EPG address of the `#EXTM3U` header line. */
module M3uAttrs {
  import opened Wrappers
  import opened Strings

  /** A character of the key class `[a-zA-Z_-]`. */
  predicate IsKeyChar(c: char) {
    ('a' <= c <= 'z') || ('A' <= c <= 'Z') || c == '_' || c == '-'
  }

  /** A key as it is stored: lower case, `-` for `_`. */
  predicate IsNormalKey(k: string) {
    |k| > 0 && forall i :: 0 <= i < |k| ==> ('a' <= k[i] <= 'z') || k[i] == '-'
  }

  /** `key.toLowerCase().replace(/_/g, '-')` on a key of `[a-zA-Z_-]+`. */
  function NormKey(k: string): (r: string)
    requires forall i :: 0 <= i < |k| ==> IsKeyChar(k[i])
    ensures |r| == |k| && (|k| > 0 ==> IsNormalKey(r))
    ensures forall i :: 0 <= i < |k| ==> r[i] == NormKeyChar(k[i])
  {
    if k == [] then [] else [NormKeyChar(k[0])] + NormKey(k[1..])
  }

  function NormKeyChar(c: char): (r: char)
    requires IsKeyChar(c)
    ensures ('a' <= r <= 'z') || r == '-'
    ensures ('a' <= c <= 'z') || c == '-' ==> r == c
  {
    if c == '_' then '-' else LowerChar(c)
  }

  /** A stored key is its own normal form. */
  lemma NormKeyOfNormal(k: string)
    requires IsNormalKey(k)
    ensures NormKey(k) == k
  {
  }

  /** Length of the longest run of key characters at the start of `s`, what
      the greedy `[a-zA-Z_-]+` consumes. */
  function KeyRun(s: string): (n: nat)
    ensures n <= |s|
    ensures forall i :: 0 <= i < n ==> IsKeyChar(s[i])
    ensures n == |s| || !IsKeyChar(s[n])
  {
    if s != [] && IsKeyChar(s[0]) then 1 + KeyRun(s[1..]) else 0
  }

  datatype Attr = Attr(key: string, value: string)

  /** A match of the attribute regex: the attribute and the index just after
      the closing quote, where the next search resumes. */
  datatype Hit = Hit(attr: Attr, next: nat)

  /** The attribute regex tried at index 0 of `s`: a key, `="`, a value with
      no `"`, and the closing `"`. Backtracking into a shorter key cannot
      help, because `=` is not a key character. */
  function MatchHere(s: string): (m: Option<Hit>)
    ensures m.Some? ==> 0 < m.value.next <= |s|
    ensures m.Some? ==> IsNormalKey(m.value.attr.key) && '"' !in m.value.attr.value
  {
    var e := KeyRun(s);
    if e > 0 && e + 2 <= |s| && s[e] == '=' && s[e + 1] == '"' then
      match IndexOf(s[e + 2..], '"')
      case Some(q) => Some(HitAt(s, e, q))
      case None => None
    else None
  }

  /** The match whose key is `s[..e]` and whose value is the `q` characters
      after `="`. */
  function HitAt(s: string, e: nat, q: nat): (h: Hit)
    requires 0 < e && e + 3 + q <= |s| && forall i :: 0 <= i < e ==> IsKeyChar(s[i])
  {
    Hit(Attr(NormKey(s[..e]), s[e + 2..e + 2 + q]), e + 3 + q)
  }

  /** Every match of the global attribute regex, left to right, each search
      resuming where the previous match ended. */
  function ScanAttrs(s: string): (attrs: seq<Attr>)
    ensures forall i :: 0 <= i < |attrs| ==> IsNormalKey(attrs[i].key) && '"' !in attrs[i].value
    decreases |s|
  {
    if s == [] then []
    else match MatchHere(s)
      case Some(h) => [h.attr] + ScanAttrs(s[h.next..])
      case None => ScanAttrs(s[1..])
  }

  /** The value an object built by `attrs[key] = value` holds for `k`: the
      last assignment wins. */
  function LastValue(attrs: seq<Attr>, k: string): (v: Option<string>)
    ensures v.Some? <==> exists i :: 0 <= i < |attrs| && attrs[i].key == k
    ensures v.Some? ==> exists i :: 0 <= i < |attrs| && attrs[i] == Attr(k, v.value)
                                 && (forall j :: i < j < |attrs| ==> attrs[j].key != k)
  {
    if attrs == [] then None
    else
      var later := LastValue(attrs[1..], k);
      assert forall i :: 0 < i < |attrs| ==> attrs[i] == attrs[1..][i - 1];
      if later.Some? then later
      else if attrs[0].key == k then Some(attrs[0].value)
      else None
  }

  /** `attrs[k] || ''`. */
  function Attribute(attrs: seq<Attr>, k: string): string {
    LastValue(attrs, k).GetOr("")
  }

  /** What `parseExtInf` returns; every field is a string, empty when absent. */
  datatype ExtInf = ExtInf(tvgId: string, tvgName: string, name: string, logo: string, group: string)

  /** The trimmed text after the last comma of the line, `''` without comma. */
  function TitleOf(line: string): string {
    match LastIndexOf(line, ',')
    case Some(c) => Trim(line[c + 1..])
    case None => ""
  }

  /** `parseExtInf(line)`. The display name falls back to `tvg-name`, then to
      `Unknown`, so it is never empty. */
  function ParseExtInf(line: string): (e: ExtInf)
    ensures e.name != ""
    ensures TitleOf(line) != "" ==> e.name == TitleOf(line)
    ensures TitleOf(line) == "" ==> e.name == if e.tvgName != "" then e.tvgName else "Unknown"
  {
    var attrs := ScanAttrs(line);
    var title := TitleOf(line);
    var tvgName := Attribute(attrs, "tvg-name");
    ExtInf(
      Attribute(attrs, "tvg-id"),
      tvgName,
      if title != "" then title else if tvgName != "" then tvgName else "Unknown",
      Attribute(attrs, "tvg-logo"),
      Attribute(attrs, "group-title"))
  }

  /** An attribute the scanner can read back: a stored key and a value
      without `"`. */
  predicate Readable(a: Attr) {
    IsNormalKey(a.key) && '"' !in a.value
  }

  /** `key="value"`. */
  function RenderAttr(a: Attr): string {
    a.key + ['=', '"'] + a.value + ['"']
  }

  /** Writes attributes the way playlists carry them, each followed by a space. */
  function RenderAttrs(attrs: seq<Attr>): string {
    if attrs == [] then "" else RenderAttr(attrs[0]) + [' '] + RenderAttrs(attrs[1..])
  }

  /** An `#EXTINF` line for the given attributes and title. */
  function ExtInfLine(attrs: seq<Attr>, title: string): string {
    "#EXTINF:-1 " + RenderAttrs(attrs) + "," + title
  }

  /** The key run ends at the first character that cannot belong to a key. */
  lemma {:induction false} KeyRunStops(s: string, n: nat)
    requires n < |s| && !IsKeyChar(s[n])
    requires forall i :: 0 <= i < n ==> IsKeyChar(s[i])
    ensures KeyRun(s) == n
  {
    if n > 0 {
      KeyRunStops(s[1..], n - 1);
    }
  }

  /** The first occurrence is found. */
  lemma IndexOfFirst(t: string, c: char, n: nat)
    requires n < |t| && t[n] == c && c !in t[..n]
    ensures IndexOf(t, c) == Some(n)
  {
    var r := IndexOf(t, c).value;
    assert forall j :: 0 <= j < n ==> t[..n][j] == t[j];
    assert forall j :: 0 <= j < r ==> t[..r][j] == t[j];
  }

  lemma IndexOfAfter(v: string, c: char, u: string)
    requires c !in v
    ensures IndexOf(v + [c] + u, c) == Some(|v|)
  {
    var t := v + [c] + u;
    assert t[..|v|] == v;
    IndexOfFirst(t, c, |v|);
  }

  /** A character that cannot start a key is skipped by the scanner. */
  lemma SkipNonKey(c: char, t: string)
    requires !IsKeyChar(c)
    ensures ScanAttrs([c] + t) == ScanAttrs(t)
  {
    assert ([c] + t)[1..] == t;
  }

  /** A stored key followed by `=` is one key run. */
  lemma KeyRunOfKey(s: string, k: string)
    requires IsNormalKey(k) && |k| < |s| && s[..|k|] == k && s[|k|] == '='
    ensures KeyRun(s) == |k|
  {
    assert forall i :: 0 <= i < |k| ==> s[i] == k[i];
    KeyRunStops(s, |k|);
  }

  /** The attribute regex matches a rendered attribute exactly, whatever
      follows it: the key run stops at `=`, the value at the first quote. */
  lemma MatchRendered(a: Attr, u: string)
    requires Readable(a)
    ensures MatchHere(RenderAttr(a) + u) == Some(Hit(a, |RenderAttr(a)|))
  {
    var s := RenderAttr(a) + u;
    var e := |a.key|;
    RenderedKey(a, u);
    RenderedValue(a, u);
    MatchFound(s, e, |a.value|);
    var k := s[..e];
    NormKeyOfNormal(k);
  }

  /** A rendered attribute begins with its key and `="`. */
  lemma RenderedKey(a: Attr, u: string)
    requires Readable(a)
    ensures var s := RenderAttr(a) + u;
            |a.key| + 2 <= |s| && s[..|a.key|] == a.key && s[|a.key|] == '=' && s[|a.key| + 1] == '"'
            && KeyRun(s) == |a.key|
  {
    var s := RenderAttr(a) + u;
    assert s[..|a.key|] == a.key;
    assert s[|a.key|] == '=';
    KeyRunOfKey(s, a.key);
  }

  /** After the key and `="`, a rendered attribute holds its value and the
      closing quote. */
  lemma RenderedValue(a: Attr, u: string)
    requires Readable(a)
    ensures var s, e := RenderAttr(a) + u, |a.key|;
            e + 2 + |a.value| <= |s| && s[e + 2..e + 2 + |a.value|] == a.value
            && IndexOf(s[e + 2..], '"') == Some(|a.value|)
  {
    var s, e := RenderAttr(a) + u, |a.key|;
    assert s[e + 2..] == a.value + ['"'] + u;
    IndexOfAfter(a.value, '"', u);
    assert s[e + 2..e + 2 + |a.value|] == a.value;
  }

  /** The regex matches once the key run ends at `="` and a quote closes the
      value. */
  lemma MatchFound(s: string, e: nat, q: nat)
    requires 0 < e && e + 2 <= |s| && KeyRun(s) == e && s[e] == '=' && s[e + 1] == '"'
    requires IndexOf(s[e + 2..], '"') == Some(q)
    ensures e + 3 + q <= |s| && MatchHere(s) == Some(HitAt(s, e, q))
  {
  }

  /** A rendered attribute is scanned as one match, then scanning resumes
      right after it. */
  lemma ScanRenderedHead(a: Attr, u: string)
    requires Readable(a)
    ensures ScanAttrs(RenderAttr(a) + u) == [a] + ScanAttrs(u)
  {
    var s := RenderAttr(a) + u;
    MatchRendered(a, u);
    assert s[|RenderAttr(a)|..] == u;
  }

  /** Rendered attributes scan back to themselves, in order, whatever follows. */
  lemma {:induction false} ScanRendered(attrs: seq<Attr>, t: string)
    requires forall i :: 0 <= i < |attrs| ==> Readable(attrs[i])
    ensures ScanAttrs(RenderAttrs(attrs) + t) == attrs + ScanAttrs(t)
  {
    if attrs == [] {
      assert RenderAttrs(attrs) + t == t;
    } else {
      var a, rest := attrs[0], attrs[1..];
      var more := RenderAttrs(rest) + t;
      calc {
        ScanAttrs(RenderAttrs(attrs) + t);
        { RenderAttrsCons(attrs, t); }
        ScanAttrs(RenderAttr(a) + ([' '] + more));
        { ScanRenderedHead(a, [' '] + more); }
        [a] + ScanAttrs([' '] + more);
        { SkipNonKey(' ', more); }
        [a] + ScanAttrs(more);
        { ScanRendered(rest, t); }
        [a] + (rest + ScanAttrs(t));
        { assert attrs == [a] + rest; }
        attrs + ScanAttrs(t);
      }
    }
  }

  /** The rendering of a non-empty list, regrouped around its first attribute. */
  lemma RenderAttrsCons(attrs: seq<Attr>, t: string)
    requires attrs != []
    ensures RenderAttrs(attrs) + t == RenderAttr(attrs[0]) + ([' '] + (RenderAttrs(attrs[1..]) + t))
  {
  }

  /** A stretch without `=` whose last character cannot belong to a key
      yields no attribute, and does not disturb the scanning of what follows. */
  lemma {:induction false} ScanSkipsPlain(p: string, t: string)
    requires '=' !in p
    requires p != [] ==> !IsKeyChar(p[|p| - 1])
    ensures ScanAttrs(p + t) == ScanAttrs(t)
    decreases |p|
  {
    if p == [] {
      assert p + t == t;
    } else {
      var s := p + t;
      var e := KeyRun(s);
      assert forall i :: 0 <= i < |p| ==> s[i] == p[i];
      assert s[e] == p[e];
      assert MatchHere(s) == None;
      assert s[1..] == p[1..] + t;
      ScanSkipsPlain(p[1..], t);
    }
  }

  /** Text without `"` holds no attribute. */
  lemma {:induction false} ScanNoQuote(s: string)
    requires '"' !in s
    ensures ScanAttrs(s) == []
    decreases |s|
  {
    if s != [] {
      var e := KeyRun(s);
      assert e + 2 <= |s| ==> s[e + 1] != '"';
      assert MatchHere(s) == None;
      ScanNoQuote(s[1..]);
    }
  }

  /** The attributes of an `#EXTINF` line are the rendered ones. */
  lemma ScanExtInfLine(attrs: seq<Attr>, title: string)
    requires forall i :: 0 <= i < |attrs| ==> Readable(attrs[i])
    requires '"' !in title
    ensures ScanAttrs(ExtInfLine(attrs, title)) == attrs
  {
    var prefix := "#EXTINF:-1 ";
    var tail := "," + title;
    assert ExtInfLine(attrs, title) == prefix + (RenderAttrs(attrs) + tail);
    ScanSkipsPlain(prefix, RenderAttrs(attrs) + tail);
    ScanRendered(attrs, tail);
    ScanNoQuote(tail);
  }

  /** A comma with none after it is the last one. */
  lemma {:induction false} LastComma(line: string, c: nat)
    requires c < |line| && line[c] == ',' && ',' !in line[c + 1..]
    ensures LastIndexOf(line, ',') == Some(c)
    decreases |line|
  {
    if c < |line| - 1 {
      var init := line[..|line| - 1];
      assert line[|line| - 1] == line[c + 1..][|line| - c - 2];
      assert init[c + 1..] == line[c + 1..|line| - 1];
      LastComma(init, c);
    }
  }

  /** The title of an `#EXTINF` line is the text after its comma. */
  lemma TitleOfExtInfLine(attrs: seq<Attr>, title: string)
    requires Trim(title) == title && ',' !in title
    ensures TitleOf(ExtInfLine(attrs, title)) == title
  {
    var p := "#EXTINF:-1 " + RenderAttrs(attrs);
    CommaBefore(p, title);
    assert (p + "," + title)[|p| + 1..] == title;
  }

  /** The comma in front of a comma-free tail is the last one. */
  lemma CommaBefore(p: string, tail: string)
    requires ',' !in tail
    ensures LastIndexOf(p + "," + tail, ',') == Some(|p|)
  {
    var line := p + "," + tail;
    assert line[|p|] == ',';
    assert line[|p| + 1..] == tail;
    LastComma(line, |p|);
  }

  /** A line with a directive in front and a non-blank title behind is its
      own trim. */
  lemma TrimmedBetween(p: string, title: string)
    requires p != [] && !IsSpace(p[0])
    requires title != "" && Trim(title) == title
    ensures Trim(p + title) == p + title
  {
    var line := p + title;
    assert line[0] == p[0];
    assert line[|line| - 1] == title[|title| - 1];
    assert title[0] == Trim(title)[0];
    TrimOfTrimmed(line);
  }

  /** An `#EXTINF` line with a trimmed title is its own trim. */
  lemma ExtInfLineTrimmed(attrs: seq<Attr>, title: string)
    requires title != "" && Trim(title) == title
    ensures Trim(ExtInfLine(attrs, title)) == ExtInfLine(attrs, title)
  {
    var p := "#EXTINF:-1 " + RenderAttrs(attrs) + ",";
    assert ExtInfLine(attrs, title) == p + title;
    TrimmedBetween(p, title);
  }

  /** An `#EXTINF` line starts with the directive. */
  lemma ExtInfLineStarts(attrs: seq<Attr>, title: string)
    ensures StartsWith(ExtInfLine(attrs, title), "#EXTINF:")
  {
    var line := ExtInfLine(attrs, title);
    assert line[..8] == "#EXTINF:-1 "[..8];
  }

  /** `parseExtInf` reads back what an `#EXTINF` line says: each field is the
      last value given for its attribute, and the name is the title after the
      comma. */
  lemma ParseExtInfRendered(attrs: seq<Attr>, title: string)
    requires forall i :: 0 <= i < |attrs| ==> Readable(attrs[i])
    requires title != "" && Trim(title) == title && ',' !in title && '"' !in title
    ensures ParseExtInf(ExtInfLine(attrs, title)) == ExtInf(
      Attribute(attrs, "tvg-id"), Attribute(attrs, "tvg-name"), title,
      Attribute(attrs, "tvg-logo"), Attribute(attrs, "group-title"))
  {
    ScanExtInfLine(attrs, title);
    TitleOfExtInfLine(attrs, title);
  }

  /** The spellings of the header's EPG attribute, in alternation order. */
  const EpgAttrNames: seq<string> := ["url-tvg", "x-tvg-url", "tvg-url"]

  /** `name="value"` at index 0 of `s`, the name compared case-insensitively. */
  function QuotedAttrHere(s: string, name: string): (v: Option<string>)
    ensures v.Some? ==> '"' !in v.value
  {
    if StartsWithCI(s, name) && |name| + 2 <= |s| && s[|name|] == '=' && s[|name| + 1] == '"' then
      match IndexOf(s[|name| + 2..], '"')
      case Some(q) => Some(s[|name| + 2..|name| + 2 + q])
      case None => None
    else None
  }

  /** The header regex tried at index 0: its alternatives in order. */
  function EpgAttrHere(s: string): (v: Option<string>)
    ensures v.Some? ==> '"' !in v.value
  {
    if QuotedAttrHere(s, EpgAttrNames[0]).Some? then QuotedAttrHere(s, EpgAttrNames[0])
    else if QuotedAttrHere(s, EpgAttrNames[1]).Some? then QuotedAttrHere(s, EpgAttrNames[1])
    else QuotedAttrHere(s, EpgAttrNames[2])
  }

  /** The EPG address of the header line: the value of the leftmost
      `url-tvg`, `x-tvg-url` or `tvg-url` attribute. */
  function HeaderEpgUrl(s: string): (v: Option<string>)
    ensures v.Some? ==> '"' !in v.value
    decreases |s|
  {
    if s == [] then None
    else if EpgAttrHere(s).Some? then EpgAttrHere(s)
    else HeaderEpgUrl(s[1..])
  }

  /** None of the spellings holds a space. */
  lemma EpgNamesHaveNoSpace(k: nat)
    requires k < |EpgAttrNames|
    ensures ' ' !in EpgAttrNames[k] && '=' !in EpgAttrNames[k]
  {
  }

  /** A stretch without `=` that ends in a space cannot hold the start of a
      match: the attribute name would have to run over the space. */
  lemma {:induction false} HeaderSkipsPlain(p: string, t: string)
    requires '=' !in p && p != [] && p[|p| - 1] == ' '
    ensures HeaderEpgUrl(p + t) == HeaderEpgUrl(t)
    decreases |p|
  {
    var s := p + t;
    forall k | 0 <= k < |EpgAttrNames|
      ensures QuotedAttrHere(s, EpgAttrNames[k]) == None
    {
      var name := EpgAttrNames[k];
      EpgNamesHaveNoSpace(k);
      if |name| < |p| {
        assert s[|name|] == p[|name|];
      } else if |name| <= |s| {
        assert Lower(s[..|name|])[|p| - 1] == LowerChar(' ');
        assert name[|p| - 1] in name;
        assert Lower(name)[|p| - 1] == LowerChar(name[|p| - 1]);
      }
    }
    assert EpgAttrHere(s) == None;
    assert s[1..] == p[1..] + t;
    if |p| > 1 {
      HeaderSkipsPlain(p[1..], t);
    }
  }

  /** The header line of a playlist that announces its guide. */
  function HeaderLine(epgUrl: string): string {
    "#EXTM3U " + "url-tvg=\"" + epgUrl + "\""
  }

  /** The first spelling matches at the start of its own attribute. */
  lemma EpgAttrRendered(epgUrl: string)
    requires '"' !in epgUrl
    ensures EpgAttrHere("url-tvg=\"" + epgUrl + "\"") == Some(epgUrl)
  {
    var t := "url-tvg=\"" + epgUrl + "\"";
    assert t[..7] == "url-tvg";
    assert t[7] == '=' && t[8] == '"';
    assert t[9..] == epgUrl + ['"'] + [];
    IndexOfAfter(epgUrl, '"', []);
    assert t[9..9 + |epgUrl|] == epgUrl;
    assert QuotedAttrHere(t, EpgAttrNames[0]) == Some(epgUrl);
  }

  /** The address written into a header line is the one read from it. */
  lemma HeaderEpgUrlRendered(epgUrl: string)
    requires '"' !in epgUrl
    ensures HeaderEpgUrl(HeaderLine(epgUrl)) == Some(epgUrl)
  {
    var t := "url-tvg=\"" + epgUrl + "\"";
    assert HeaderLine(epgUrl) == "#EXTM3U " + t;
    HeaderSkipsPlain("#EXTM3U ", t);
    EpgAttrRendered(epgUrl);
  }
}

=== FILE: m3u_id.dfy ===
/** Channel identifiers of the M3U parser (`generateId` in
    src/main/m3u-parser.js): a 32-bit string hash of `tvgId|url`, made
    non-negative and written in base 36 after `ch_`. */
module M3uId {
  import opened Encoding
  import opened Numerals

  const TwoTo31: int := 0x8000_0000
  const TwoTo32: int := 0x1_0000_0000

  /** ECMA-262 ToInt32 on an integral number: wrap into [-2^31, 2^31). */
  function ToInt32(x: int): (r: int)
    ensures -TwoTo31 <= r < TwoTo31
    ensures (x - r) % TwoTo32 == 0
  {
    (x + TwoTo31) % TwoTo32 - TwoTo31
  }

  /** Values that differ by a multiple of 2^32 wrap to the same 32-bit integer. */
  lemma ToInt32Congruent(x: int, y: int)
    requires (x - y) % TwoTo32 == 0
    ensures ToInt32(x) == ToInt32(y)
  {
    var q := (x - y) / TwoTo32;
    assert x == y + q * TwoTo32;
    assert (y + q * TwoTo32 + TwoTo31) % TwoTo32 == (y + TwoTo31) % TwoTo32;
  }

  /** One round of the loop: `hash = (hash << 5) - hash + char` followed by
      `hash = hash & hash`. The shift works on 32 bits and wraps; the
      subtraction and addition are exact; the `&` wraps the sum again. */
  function HashStep(h: int, unit: nat): int {
    ToInt32(ToInt32(h * 32) - h + unit)
  }

  /** The loop over the code units, left to right, from 0. */
  function HashUnits(us: seq<nat>): int
  {
    if us == [] then 0 else HashStep(HashUnits(us[..|us| - 1]), us[|us| - 1])
  }

  /** The polynomial the loop is meant to compute, without any wrapping
      (`s[0]*31^(n-1) + ... + s[n-1]`, Java's `String.hashCode`). */
  function Polynomial(us: seq<nat>): int
  {
    if us == [] then 0 else Polynomial(us[..|us| - 1]) * 31 + us[|us| - 1]
  }

  /** One round keeps the hash congruent to the polynomial modulo 2^32. */
  lemma StepCongruent(h: int, p: int, c: nat)
    requires (p - h) % TwoTo32 == 0
    ensures HashStep(h, c) == ToInt32(p * 31 + c)
  {
    var shifted := ToInt32(h * 32);
    var a := (p - h) / TwoTo32;
    var b := (h * 32 - shifted) / TwoTo32;
    assert p == h + a * TwoTo32;
    assert h * 32 == shifted + b * TwoTo32;
    assert p * 31 == h * 31 + (a * 31) * TwoTo32;
    var k := a * 31 + b;
    assert (p * 31 + c) - (shifted - h + c) == k * TwoTo32;
    MultipleIsCongruent(p * 31 + c, shifted - h + c, k);
    ToInt32Congruent(shifted - h + c, p * 31 + c);
  }

  /** Values `k` times 2^32 apart are congruent modulo 2^32. */
  lemma MultipleIsCongruent(x: int, y: int, k: int)
    requires x - y == k * TwoTo32
    ensures (y - x) % TwoTo32 == 0
  {
    assert y - x == (-k) * TwoTo32;
  }

  /** The shift-and-subtract loop is the base-31 polynomial hash reduced to
      32 bits: every intermediate wrap-around is harmless. */
  lemma {:induction false} HashIsPolynomial(us: seq<nat>)
    ensures HashUnits(us) == ToInt32(Polynomial(us))
  {
    if us != [] {
      var init := us[..|us| - 1];
      HashIsPolynomial(init);
      var h, p := HashUnits(init), Polynomial(init);
      assert (p - h) % TwoTo32 == 0;
      StepCongruent(h, p, us[|us| - 1]);
    }
  }

  /** `Math.abs(hash)`. */
  function Abs(x: int): nat {
    if x < 0 then -x else x
  }

  /** The hash of `tvgId|url`, as the loop leaves it. */
  function IdHash(tvgId: string, url: string): int {
    HashUnits(Utf16(tvgId + "|" + url))
  }

  /** `generateId(tvgId, url)`: `ch_` and the base-36 magnitude of the hash. */
  function GenerateId(tvgId: string, url: string): (id: string)
    ensures |id| > 3 && id[..3] == "ch_"
  {
    "ch_" + Base36(Abs(IdHash(tvgId, url)))
  }

  /** An identifier reads back as the magnitude of the 32-bit polynomial hash
      of `tvgId|url`, at most 2^31. */
  lemma GenerateIdDecodes(tvgId: string, url: string)
    ensures IsNumeral(GenerateId(tvgId, url)[3..], 36)
    ensures FromRadix(GenerateId(tvgId, url)[3..], 36)
      == Abs(ToInt32(Polynomial(Utf16(tvgId + "|" + url))))
    ensures FromRadix(GenerateId(tvgId, url)[3..], 36) <= TwoTo31
  {
    var us := Utf16(tvgId + "|" + url);
    HashIsPolynomial(us);
    var n := Abs(IdHash(tvgId, url));
    RadixRoundTrip(n, 36);
    assert GenerateId(tvgId, url)[3..] == Base36(n);
  }
}

=== FILE: m3u_patterns.dfy ===
/** The content-type heuristic of the M3U parser (src/main/m3u-parser.js):
    four ordered pattern tables, evaluated first-match, URL evidence before
    group evidence. Each regular expression of the tables is written as a
    `Pattern` value; `Matches` gives it the meaning the JavaScript regex has
    (all of them carry the `i` flag and no `u` flag, so letters compare
    ASCII-case-insensitively and `\b` is the ASCII word boundary). */
module M3uPatterns {
  import opened Strings
  import opened Content

  datatype Pattern =
      /** `/lit/i`, with the optional parts of the regex spelled out in `lits`. */
    | Anywhere(lits: seq<string>)
      /** `/lit(\?|$)/i`: the literal followed by `?` or by the end of input. */
    | BeforeQueryOrEnd(lit: string)
      /** `/^lit/i`, or `/^lit\b/i` when `wordEnd` holds. */
    | Prefix(lits: seq<string>, wordEnd: bool)
      /** `/\blit$/i`. */
    | WordSuffix(lits: seq<string>)
      /** `/^\|.*lit/i`: a leading `|`, then the literal later on the same line. */
    | PipeThen(lit: string)

  /** The regex assertion `\b` at index `i` of `s`. */
  predicate BoundaryAt(s: string, i: nat)
    requires i <= |s|
  {
    (i > 0 && IsWordChar(s[i - 1])) != (i < |s| && IsWordChar(s[i]))
  }

  /** Some spelling in `lits` occurs in `s`. */
  predicate AnyContainsCI(s: string, lits: seq<string>) {
    exists k :: 0 <= k < |lits| && ContainsCI(s, lits[k])
  }

  /** `lit` occurs in `s` followed by `?` or by the end of `s`. */
  predicate OccursBeforeQueryOrEnd(s: string, lit: string)
    decreases |s|
  {
    || (StartsWithCI(s, lit) && (|s| == |lit| || s[|lit|] == '?'))
    || (|s| > 0 && OccursBeforeQueryOrEnd(s[1..], lit))
  }

  /** `lit` occurs in `s` after a stretch without line terminators (`.*lit`). */
  predicate OccursOnFirstLine(s: string, lit: string)
    decreases |s|
  {
    || StartsWithCI(s, lit)
    || (|s| > 0 && !IsLineTerminator(s[0]) && OccursOnFirstLine(s[1..], lit))
  }

  /** What the regex that `p` stands for answers on `s` (`pattern.test(s)`). */
  predicate Matches(p: Pattern, s: string) {
    match p
    case Anywhere(lits) => AnyContainsCI(s, lits)
    case BeforeQueryOrEnd(lit) => OccursBeforeQueryOrEnd(s, lit)
    case Prefix(lits, wordEnd) =>
      exists k :: 0 <= k < |lits| && StartsWithCI(s, lits[k]) && (!wordEnd || BoundaryAt(s, |lits[k]|))
    case WordSuffix(lits) =>
      exists k :: 0 <= k < |lits| && EndsWithCI(s, lits[k]) && BoundaryAt(s, |s| - |lits[k]|)
    case PipeThen(lit) => |s| > 0 && s[0] == '|' && OccursOnFirstLine(s[1..], lit)
  }

  /** `tv[_-]?shows?` spelled out. */
  const TvShowSpellings: seq<string> :=
    ["tvshow", "tvshows", "tv_show", "tv_shows", "tv-show", "tv-shows"]

  /** VOD_URL_PATTERNS. */
  const VodUrlPatterns: seq<Pattern> := [
    Anywhere(["/movie/"]),
    Anywhere(["/movies/"]),
    Anywhere(["/vod/"]),
    Anywhere(["/film/"]),
    BeforeQueryOrEnd(".mp4"),
    BeforeQueryOrEnd(".mkv"),
    BeforeQueryOrEnd(".avi")
  ]

  /** VOD_GROUP_PATTERNS. */
  const VodGroupPatterns: seq<Pattern> := [
    Prefix(["vod"], true),
    Prefix(["movie"], false),
    Prefix(["film"], false),
    WordSuffix(["vod"]),
    WordSuffix(["movie", "movies"]),
    WordSuffix(["film", "films"]),
    PipeThen("vod"),
    PipeThen("movie")
  ]

  /** SERIES_URL_PATTERNS. */
  const SeriesUrlPatterns: seq<Pattern> := [
    Anywhere(["/series/"]),
    Anywhere(["/show/"]),
    Anywhere(["/tvshow/", "/tvshows/", "/tv_show/", "/tv_shows/", "/tv-show/", "/tv-shows/"])
  ]

  /** SERIES_GROUP_PATTERNS. */
  const SeriesGroupPatterns: seq<Pattern> := [
    Prefix(["series"], true),
    WordSuffix(["series"]),
    Prefix(["tvshow", "tv_show", "tv-show"], false),
    WordSuffix(TvShowSpellings),
    PipeThen("series")
  ]

  /** Some pattern of the table matches `s`. */
  predicate AnyMatches(table: seq<Pattern>, s: string) {
    exists k :: 0 <= k < |table| && Matches(table[k], s)
  }

  /** Which input a rule of the classification table looks at. */
  datatype Field = UrlField | GroupField

  /** One row of the classification table: a pattern table, the field it
      looks at, and the type it assigns. */
  datatype Rule = Rule(patterns: seq<Pattern>, field: Field, result: ContentType)

  /** The order `detectContentType` consults its tables in. */
  const Rules: seq<Rule> := [
    Rule(SeriesUrlPatterns, UrlField, Series),
    Rule(VodUrlPatterns, UrlField, Vod),
    Rule(SeriesGroupPatterns, GroupField, Series),
    Rule(VodGroupPatterns, GroupField, Vod)
  ]

  /** First-match evaluation of a rule table; `Live` when nothing matches. */
  function FirstMatch(rules: seq<Rule>, url: string, group: string): ContentType {
    if rules == [] then Live
    else
      var r := rules[0];
      var input := if r.field == UrlField then url else group;
      if AnyMatches(r.patterns, input) then r.result else FirstMatch(rules[1..], url, group)
  }

  /** `detectContentType(url, group)`. The type is decided by the first table
      that matches, in the order series-URL, VOD-URL, series-group, VOD-group;
      so URL evidence always outranks group evidence. */
  function DetectContentType(url: string, group: string): (t: ContentType)
    ensures AnyMatches(SeriesUrlPatterns, url) ==> t == Series
    ensures !AnyMatches(SeriesUrlPatterns, url) && AnyMatches(VodUrlPatterns, url) ==> t == Vod
    ensures t == Live <==>
      && !AnyMatches(SeriesUrlPatterns, url) && !AnyMatches(VodUrlPatterns, url)
      && !AnyMatches(SeriesGroupPatterns, group) && !AnyMatches(VodGroupPatterns, group)
    ensures t == Series <==>
      AnyMatches(SeriesUrlPatterns, url)
      || (!AnyMatches(VodUrlPatterns, url) && AnyMatches(SeriesGroupPatterns, group))
  {
    var r1 := Rules[1..];
    var r2 := r1[1..];
    var r3 := r2[1..];
    assert r3 == [Rule(VodGroupPatterns, GroupField, Vod)] && r3[1..] == [];
    assert FirstMatch(r3, url, group) == if AnyMatches(VodGroupPatterns, group) then Vod else Live;
    assert r2[0] == Rule(SeriesGroupPatterns, GroupField, Series);
    assert FirstMatch(r2, url, group) ==
      if AnyMatches(SeriesGroupPatterns, group) then Series else FirstMatch(r3, url, group);
    assert r1[0] == Rule(VodUrlPatterns, UrlField, Vod);
    assert FirstMatch(r1, url, group) ==
      if AnyMatches(VodUrlPatterns, url) then Vod else FirstMatch(r2, url, group);
    FirstMatch(Rules, url, group)
  }
}

=== FILE: modal_manager.dfy ===
/** The naming and URL rules inside the dialogs of the renderer
    (src/renderer/js/ui/modal-manager.js): the episode list of a series and
    the record played for an episode, and the validation and default names of
    the "add playlist" forms. The dialogs themselves are left to the DOM. */
module ModalManager {
  import opened Wrappers
  import opened Strings
  import opened Ordering
  import opened Content
  import opened Xtream
  import Numerals
  import Store
  import PlaylistService
  import XtreamRenderer

  /** `s.split('/')[0]`: the longest prefix without a slash. */
  function FirstSegment(s: string): (r: string)
    ensures '/' !in r && |r| <= |s| && s[..|r|] == r
    ensures |r| < |s| ==> s[|r|] == '/'
  {
    var parts := Split(s, '/');
    JoinFirst(parts, '/');
    parts[0]
  }

  /** `s.split('/').pop()`: the longest suffix without a slash. */
  function LastSegment(s: string): (r: string)
    ensures '/' !in r && |r| <= |s| && s[|s| - |r|..] == r
    ensures |r| < |s| ==> s[|s| - |r| - 1] == '/'
  {
    var parts := Split(s, '/');
    JoinLast(parts, '/');
    parts[|parts| - 1]
  }

  /** A non-empty string has an empty last segment exactly when it ends in a
      slash. */
  lemma LastSegmentEmpty(s: string)
    requires s != []
    ensures EndsWith(s, "/") <==> LastSegment(s) == ""
  {
    var l := LastSegment(s);
    if l != "" {
      assert s[|s| - 1] == l[|l| - 1];
    } else {
      assert s[|s| - 1..] == "/";
    }
  }

  /** The first segment of `host + path`, for a path empty or starting with a
      slash, is the host. */
  lemma FirstSegmentOf(host: string, path: string)
    requires '/' !in host
    requires path == [] || path[0] == '/'
    ensures FirstSegment(host + path) == host
  {
    var s := host + path;
    var h := FirstSegment(s);
    assert s[..|host|] == host;
  }

  /** The last segment of `dir + "/" + file` is the file. */
  lemma LastSegmentOf(dir: string, file: string)
    requires '/' !in file
    ensures LastSegment(dir + ("/" + file)) == file
  {
    var s := dir + ("/" + file);
    var l := LastSegment(s);
    var n := |s| - |file|;
    assert s[n..] == file && s[n - 1] == '/';
    assert |l| == |file|;
  }

  lemma JoinFirst(parts: seq<string>, sep: char)
    requires |parts| >= 1
    ensures |parts[0]| <= |Join(parts, sep)| && Join(parts, sep)[..|parts[0]|] == parts[0]
    ensures |parts| > 1 ==> |parts[0]| < |Join(parts, sep)| && Join(parts, sep)[|parts[0]|] == sep
  {
    if |parts| > 1 {
      var j := Join(parts, sep);
      assert j == parts[0] + [sep] + Join(parts[1..], sep);
      assert j[..|parts[0]|] == parts[0];
    }
  }

  lemma {:induction false} JoinLast(parts: seq<string>, sep: char)
    requires |parts| >= 1
    ensures var j, l := Join(parts, sep), parts[|parts| - 1];
            |l| <= |j| && j[|j| - |l|..] == l
    ensures var j, l := Join(parts, sep), parts[|parts| - 1];
            |parts| > 1 ==> |l| < |j| && j[|j| - |l| - 1] == sep
  {
    if |parts| > 1 {
      var rest := Join(parts[1..], sep);
      JoinLast(parts[1..], sep);
      var j, l := Join(parts, sep), parts[|parts| - 1];
      assert j == parts[0] + [sep] + rest;
      assert parts[1..][|parts[1..]| - 1] == l;
      assert j[|j| - |l|..] == rest[|rest| - |l|..];
      if |parts| == 2 {
        assert rest == l;
        assert j[|j| - |l| - 1] == sep;
      } else {
        assert j[|j| - |l| - 1] == rest[|rest| - |l| - 1];
      }
    }
  }

  // The "add playlist" forms. The fields arrive trimmed.

  /** What a form hands to `addPlaylist`. */
  datatype Request = Request(url: string, name: string, kind: string, data: Option<Store.XtreamLogin>)

  const DefaultPlaylistName := "Playlist"
  const MissingFields := "Please fill in server, username and password"

  /** The name `_addM3U` falls back on: the URL's last path segment, or
      "Playlist" for a URL ending in a slash. */
  function M3UName(url: string): (r: string)
    requires url != ""
    ensures r != ""
    ensures !EndsWith(url, "/") ==>
      '/' !in r && EndsWith(url, r) && (|r| < |url| ==> url[|url| - |r| - 1] == '/')
    ensures EndsWith(url, "/") ==> r == DefaultPlaylistName
  {
    var last := LastSegment(url);
    LastSegmentEmpty(url);
    if last != "" then last else DefaultPlaylistName
  }

  /** `_addM3U(url, name)`: nothing happens without a URL; the name defaults
      to the URL's last path segment, and to "Playlist" when that is empty. */
  function AddM3U(url: string, name: string): (r: Option<Request>)
    ensures r.None? <==> url == ""
    ensures r.Some? ==> r.value.url == url && r.value.kind == "m3u" && r.value.data.None?
    ensures r.Some? ==> r.value.name != ""
    ensures r.Some? && name != "" ==> r.value.name == name
    ensures r.Some? && name == "" ==> r.value.name == M3UName(url)
  {
    if url == "" then None
    else Some(Request(url, if name != "" then name else M3UName(url), "m3u", None))
  }

  /** The length of a `https?://` match at index `i`, or zero. */
  function SchemeAt(s: string, i: nat): nat {
    if OccursAt(s, "https://", i) then 8
    else if OccursAt(s, "http://", i) then 7
    else 0
  }

  /** The leftmost `https?://` at or after index `i`. */
  function FirstScheme(s: string, i: nat): (r: Option<nat>)
    ensures r.Some? ==> i <= r.value < |s| && SchemeAt(s, r.value) > 0
    ensures r.Some? ==> forall k :: i <= k < r.value ==> SchemeAt(s, k) == 0
    ensures r.None? ==> forall k :: i <= k ==> SchemeAt(s, k) == 0
    decreases |s| - i
  {
    if i >= |s| then None
    else if SchemeAt(s, i) > 0 then Some(i)
    else FirstScheme(s, i + 1)
  }

  /** `s.replace(/https?:\/\//, '')`: the leftmost scheme prefix goes, wherever
      it is. */
  function StripScheme(s: string): (r: string)
    ensures FirstScheme(s, 0).None? ==> r == s
    ensures FirstScheme(s, 0).Some? ==>
      var p := FirstScheme(s, 0).value;
      |r| == |s| - SchemeAt(s, p) && r == s[..p] + s[p + SchemeAt(s, p)..]
  {
    match FirstScheme(s, 0)
    case None => s
    case Some(p) => s[..p] + s[p + SchemeAt(s, p)..]
  }

  /** The default name of an Xtream playlist, `user@host`. */
  function XtreamName(username: string, server: string): string {
    username + "@" + FirstSegment(StripScheme(server))
  }

  /** `_addXtream(server, username, password, name)`: all three credentials
      are required; the name defaults to `user@host`; the entry keeps the
      server as typed, with the credentials attached. */
  function AddXtream(server: string, username: string, password: string, name: string): (r: Result<Request, string>)
    ensures r.Err? <==> server == "" || username == "" || password == ""
    ensures r.Err? ==> r.error == MissingFields
    ensures r.Ok? ==>
      && r.value.url == server && r.value.kind == "xtream"
      && r.value.data == Some(Store.XtreamLogin(server, username, password))
      && r.value.name == (if name != "" then name else XtreamName(username, server))
  {
    if server == "" || username == "" || password == "" then Err(MissingFields)
    else Ok(Request(server, if name != "" then name else XtreamName(username, server),
                    "xtream", Some(Store.XtreamLogin(server, username, password))))
  }

  /** For a server written `scheme host[/path]`, the default name is
      `user@host`. */
  lemma XtreamNameOfUrl(username: string, scheme: string, host: string, path: string)
    requires scheme == "http://" || scheme == "https://"
    requires '/' !in host
    requires path == [] || path[0] == '/'
    ensures XtreamName(username, scheme + host + path) == username + "@" + host
  {
    assert scheme + host + path == scheme + (host + path);
    StripLeadingScheme(scheme, host + path);
    FirstSegmentOf(host, path);
  }

  /** A server typed with a scheme in front loses exactly that scheme. */
  lemma StripLeadingScheme(scheme: string, rest: string)
    requires scheme == "http://" || scheme == "https://"
    ensures StripScheme(scheme + rest) == rest
  {
    var s := scheme + rest;
    SchemeAtStart(scheme, rest);
    assert FirstScheme(s, 0) == Some(0);
    assert s[..0] + s[|scheme|..] == rest;
  }

  /** The scheme at the start of a server is matched in full. */
  lemma SchemeAtStart(scheme: string, rest: string)
    requires scheme == "http://" || scheme == "https://"
    ensures SchemeAt(scheme + rest, 0) == |scheme|
  {
    var s := scheme + rest;
    assert s[..|scheme|] == scheme;
    if scheme == "http://" && |s| >= 8 {
      assert s[0..8] != "https://" by { assert s[4] == ':'; }
    }
  }

  // What the forms store.

  /** The saved-playlists list reloads an entry through the Xtream client
      only when it is typed `xtream` and carries credentials; any other
      entry is reloaded as an M3U URL. */
  predicate ReloadsAsXtream(pl: Store.Playlist) {
    pl.kind == "xtream" && pl.xtream.Some?
  }

  /** `_addXtream` as written: a valid form's request goes through the
      service's two-argument `addPlaylist`, so only the server and the name
      are stored. */
  function SubmitXtream(st: Store.State, server: string, username: string, password: string, name: string,
                        idClock: nat, clock: nat, noise: string): (r: Result<(Store.State, Store.Playlist), string>)
    ensures r.Err? <==> AddXtream(server, username, password, name).Err?
    ensures r.Ok? ==> r.value.1.url == server && r.value.0.playlists == st.playlists + [r.value.1]
  {
    match AddXtream(server, username, password, name)
    case Err(e) => Err(e)
    case Ok(req) => Ok(PlaylistService.AddPlaylist(st, req.url, req.name, idClock, clock, noise))
  }

  /** The entry a valid Xtream form stores is typed `m3u` and has no
      credentials, so the saved-playlists list reloads the server address as
      an M3U playlist. */
  lemma XtreamFormLosesLogin(st: Store.State, server: string, username: string, password: string,
                             name: string, idClock: nat, clock: nat, noise: string)
    requires server != "" && username != "" && password != ""
    ensures var pl := SubmitXtream(st, server, username, password, name, idClock, clock, noise).value.1;
            pl.kind == "m3u" && pl.xtream.None? && !ReloadsAsXtream(pl)
  {
  }

  /** `_addXtream` with the request forwarded in full. */
  function SubmitXtreamForwarded(st: Store.State, server: string, username: string, password: string, name: string,
                                 idClock: nat, clock: nat, noise: string): (r: Result<(Store.State, Store.Playlist), string>)
    ensures r.Err? <==> AddXtream(server, username, password, name).Err?
    ensures r.Ok? ==> r.value.1.url == server && r.value.0.playlists == st.playlists + [r.value.1]
  {
    match AddXtream(server, username, password, name)
    case Err(e) => Err(e)
    case Ok(req) => Ok(PlaylistService.AddPlaylistForwarded(st, req.url, req.name, req.kind, req.data, idClock, clock, noise))
  }

  /** With the request forwarded in full, the entry a valid Xtream form
      stores is typed `xtream`, carries exactly the entered credentials, and
      reloads through the Xtream client. */
  lemma AddXtreamStoresLogin(st: Store.State, server: string, username: string, password: string,
                             name: string, idClock: nat, clock: nat, noise: string)
    requires server != "" && username != "" && password != ""
    ensures var pl := SubmitXtreamForwarded(st, server, username, password, name, idClock, clock, noise).value.1;
            && pl.kind == "xtream" && pl.xtream == Some(Store.XtreamLogin(server, username, password))
            && ReloadsAsXtream(pl)
  {
  }

  /** `_addM3U` through the same service: a valid form stores an `m3u`
      entry for its URL and name, which reloads as an M3U playlist; the
      dropped `'m3u'` argument is the store's default anyway. */
  lemma M3UFormStores(st: Store.State, url: string, name: string, idClock: nat, clock: nat, noise: string)
    requires url != ""
    ensures var req := AddM3U(url, name).value;
            var pl := PlaylistService.AddPlaylist(st, req.url, req.name, idClock, clock, noise).1;
            && pl == PlaylistService.AddPlaylistForwarded(st, req.url, req.name, req.kind, req.data, idClock, clock, noise).1
            && pl.url == url && pl.kind == "m3u" && !ReloadsAsXtream(pl)
  {
  }

  // The episode list of a series.

  /** One entry of `info.episodes[season]`. */
  datatype Episode = Episode(id: string, containerExtension: Option<string>, title: Option<string>, episodeNum: string)

  /** `Number(key)` for a season key; keys are decimal numerals. */
  function SeasonNumber(key: string): int {
    if forall i :: 0 <= i < |key| ==> '0' <= key[i] <= '9' then Numerals.DecimalValue(key) else -1
  }

  /** `Object.keys(info.episodes).sort((a, b) => Number(a) - Number(b))`: the
      season keys, each once, in ascending numeric order. */
  function SeasonOrder(keys: seq<string>): (r: seq<string>)
    requires forall i :: 0 <= i < |keys| ==> Numerals.IsNumeral(keys[i], 10)
    ensures multiset(r) == multiset(keys)
    ensures forall i, j :: 0 <= i < j < |r| ==> SeasonNumber(r[i]) <= SeasonNumber(r[j])
  {
    SortBy(keys, SeasonNumber)
  }

  /** The container extension, `mp4` when absent. */
  function Extension(ep: Episode): string {
    Or(ep.containerExtension, "mp4")
  }

  /** The file an episode is streamed from: `id.ext`. */
  function EpisodeFileName(ep: Episode): string {
    ep.id + "." + Extension(ep)
  }

  /** The directory of a subscription's episode streams:
      `server/series/user/pass` under the normalised server. */
  function EpisodeDir(creds: XtreamRenderer.Credentials): (r: string)
    ensures StartsWith(r, NormalizeServer(creds.server) + "/series/")
  {
    var head := NormalizeServer(creds.server) + "/series/";
    var r := head + creds.username + "/" + creds.password;
    assert r[..|head|] == head;
    r
  }

  /** The episode's stream: `server/series/user/pass/id.ext` under the
      normalised server. */
  function EpisodeUrl(creds: XtreamRenderer.Credentials, ep: Episode): (r: string)
    ensures StartsWith(r, NormalizeServer(creds.server) + "/series/")
    ensures EndsWith(r, "/" + EpisodeFileName(ep))
    ensures r == NormalizeServer(creds.server) + "/series/" + creds.username + "/" + creds.password
      + "/" + EpisodeFileName(ep)
  {
    var tail := "/" + EpisodeFileName(ep);
    var r := EpisodeDir(creds) + tail;
    AppendKeepsPrefix(EpisodeDir(creds), tail, NormalizeServer(creds.server) + "/series/");
    assert r[|r| - |tail|..] == tail;
    r
  }

  /** The label of an episode: its title, else `Episode <n>`; never empty. */
  function EpisodeName(ep: Episode): (r: string)
    ensures r != ""
    ensures ep.title.Some? && ep.title.value != "" ==> r == ep.title.value
    ensures (ep.title.None? || ep.title.value == "") ==> r == "Episode " + ep.episodeNum
  {
    Or(ep.title, "Episode " + ep.episodeNum)
  }

  /** The channel record dispatched when an episode is clicked: a VOD item
      `ep_<id>` named `<series> - <episode>`, with the series' artwork and
      group and empty tvg fields. */
  function EpisodeRecord(series: Item, creds: XtreamRenderer.Credentials, ep: Episode): (r: Item)
    ensures r.id == "ep_" + ep.id && r.kind == Some(Vod)
    ensures r.name == series.name + " - " + EpisodeName(ep)
    ensures r.logo == series.logo && r.group == series.group
    ensures r.url == Some(EpisodeUrl(creds, ep))
    ensures r.tvgId == Some("") && r.tvgName == Some("")
  {
    Item("ep_" + ep.id, Some(""), Some(""), series.name + " - " + EpisodeName(ep),
         series.logo, series.group, Some(EpisodeUrl(creds, ep)), Some(Vod), NoExtra)
  }

  /** When the episode id and the extension hold no slash, the last path
      segment of the episode's stream is `id.ext`: the file the server is
      asked for. */
  lemma EpisodeFile(creds: XtreamRenderer.Credentials, ep: Episode)
    requires '/' !in ep.id && '/' !in Extension(ep)
    ensures LastSegment(EpisodeUrl(creds, ep)) == EpisodeFileName(ep)
  {
    NoSlashInFileName(ep);
    LastSegmentOf(EpisodeDir(creds), EpisodeFileName(ep));
  }

  lemma NoSlashInFileName(ep: Episode)
    requires '/' !in ep.id && '/' !in Extension(ep)
    ensures '/' !in EpisodeFileName(ep)
  {
    var file := EpisodeFileName(ep);
    forall k | 0 <= k < |file| ensures file[k] != '/' {
      if k < |ep.id| { assert file[k] == ep.id[k]; }
      else if k > |ep.id| { assert file[k] == Extension(ep)[k - |ep.id| - 1]; }
    }
  }
}

=== FILE: numerals.dfy ===
/** Rendering non-negative integers in a radix, as JavaScript's
    `Number.prototype.toString(radix)` does for integers, and reading them back. */
module Numerals {
  import opened Wrappers

  /** The digit `toString` writes for `d`: `0`-`9`, then lower-case `a`-`z`. */
  function DigitChar(d: nat): (c: char)
    requires d < 36
    ensures d < 10 ==> '0' <= c <= '9'
    ensures d >= 10 ==> 'a' <= c <= 'z'
  {
    if d < 10 then ('0' as int + d) as char else ('a' as int + d - 10) as char
  }

  /** The value of one digit character, if it is a digit of `base`. */
  function DigitValue(c: char, base: nat): (r: Option<nat>)
    requires 2 <= base <= 36
    ensures r.Some? ==> r.value < base && DigitChar(r.value) == c
  {
    if '0' <= c <= '9' && (c as int - '0' as int) < base then Some(c as int - '0' as int)
    else if 'a' <= c <= 'z' && (c as int - 'a' as int + 10) < base then Some(c as int - 'a' as int + 10)
    else None
  }

  lemma DigitValueOfDigitChar(d: nat, base: nat)
    requires 2 <= base <= 36 && d < base
    ensures DigitValue(DigitChar(d), base) == Some(d)
  {
  }

  /** A non-empty string of digits of `base`. */
  predicate IsNumeral(s: string, base: nat)
    requires 2 <= base <= 36
  {
    |s| >= 1 && forall i :: 0 <= i < |s| ==> DigitValue(s[i], base).Some?
  }

  /** Euclidean division by a radix shrinks the number and leaves a digit. */
  lemma DivShrinks(n: nat, b: nat)
    requires 2 <= b <= n
    ensures 1 <= n / b < n
    ensures n % b < b
    ensures n == n / b * b + n % b
  {
    var q := n / b;
    assert n == q * b + n % b;
    assert q >= 1 by {
      assert n % b < b;
    }
    assert q * b >= q * 2;
  }

  /** `n.toString(base)`: most significant digit first, no leading zero. */
  function ToRadix(n: nat, base: nat): (r: string)
    requires 2 <= base <= 36
    ensures IsNumeral(r, base)
    ensures |r| > 1 ==> r[0] != '0'
    decreases n
  {
    if n < base then [DigitChar(n)]
    else
      DivShrinks(n, base);
      var high := ToRadix(n / base, base);
      DigitValueOfDigitChar(n % base, base);
      high + [DigitChar(n % base)]
  }

  lemma MulNat(a: nat, b: nat)
    ensures a * b >= 0
  {
  }

  /** The value of a numeral (`parseInt(s, base)` on a well-formed numeral). */
  function FromRadix(s: string, base: nat): (n: nat)
    requires 2 <= base <= 36
    requires forall i :: 0 <= i < |s| ==> DigitValue(s[i], base).Some?
  {
    if s == [] then 0
    else
      var high: nat := FromRadix(s[..|s| - 1], base);
      var low: nat := DigitValue(s[|s| - 1], base).value;
      MulNat(high, base);
      high * base + low
  }

  /** Reading a rendered number gives the number back. */
  lemma {:induction false} RadixRoundTrip(n: nat, base: nat)
    requires 2 <= base <= 36
    ensures FromRadix(ToRadix(n, base), base) == n
    decreases n
  {
    if n < base {
      DigitValueOfDigitChar(n, base);
    } else {
      DivShrinks(n, base);
      DigitValueOfDigitChar(n % base, base);
      RadixRoundTrip(n / base, base);
      var high := ToRadix(n / base, base);
      var r := high + [DigitChar(n % base)];
      assert r[..|r| - 1] == high;
    }
  }

  /** Distinct numbers render as distinct strings. */
  lemma RadixInjective(m: nat, n: nat, base: nat)
    requires 2 <= base <= 36
    requires ToRadix(m, base) == ToRadix(n, base)
    ensures m == n
  {
    RadixRoundTrip(m, base);
    RadixRoundTrip(n, base);
  }

  /** Decimal rendering, as string concatenation of an integer does. */
  function Decimal(n: nat): (r: string)
    ensures IsNumeral(r, 10)
  {
    ToRadix(n, 10)
  }

  /** Base-36 rendering, `n.toString(36)`. */
  function Base36(n: nat): (r: string)
    ensures IsNumeral(r, 36)
  {
    ToRadix(n, 36)
  }

  /** `parseInt(s, 10)` of a string made of decimal digits only. */
  function DecimalValue(s: string): nat
    requires forall i :: 0 <= i < |s| ==> '0' <= s[i] <= '9'
  {
    if s == [] then 0 else DecimalValue(s[..|s| - 1]) * 10 + (s[|s| - 1] as int - '0' as int)
  }
}

=== FILE: opensubtitles.dfy ===
/** The subtitle search helpers (src/main/opensubtitles.js): the title
    cleaning applied to a search query, the content-type mapping of the
    search, and the choice of the subtitle to download. The HTTPS calls are
    left out; their results are inputs. */
module OpenSubtitles {
  import opened Wrappers
  import opened Strings
  import opened Seqs

  // Alternations of literals, matched case-insensitively.

  /** `\b` at index `i`: a word character on exactly one side. */
  predicate Boundary(s: string, i: nat) {
    (0 < i <= |s| && IsWordChar(s[i - 1])) != (i < |s| && IsWordChar(s[i]))
  }

  /** Alternative `alt` matches at index `i`, followed by `\b` when
      `bounded`. Every alternative of the patterns here is non-empty. */
  predicate Accepts(s: string, i: nat, alt: string, bounded: bool) {
    alt != [] && MatchesAtCI(s, i, alt) && (bounded ==> Boundary(s, i + |alt|))
  }

  /** The first alternative, from the `k`-th on, that matches at index `i`:
      the one a regex alternation commits to. */
  function FirstAlt(s: string, i: nat, alts: seq<string>, bounded: bool, k: nat): (r: Option<nat>)
    ensures r.Some? ==> k <= r.value < |alts| && Accepts(s, i, alts[r.value], bounded)
    ensures r.Some? ==> forall j :: k <= j < r.value ==> !Accepts(s, i, alts[j], bounded)
    ensures r.None? ==> forall j :: k <= j < |alts| ==> !Accepts(s, i, alts[j], bounded)
    decreases |alts| - k
  {
    if k >= |alts| then None
    else if Accepts(s, i, alts[k], bounded) then Some(k)
    else FirstAlt(s, i, alts, bounded, k + 1)
  }

  // The steps of `cleanTitle`, in order.

  /** The language and quality tags one of which may open a title. */
  const Tags: seq<string> := ["FR", "EN", "VF", "VOSTFR", "VO", "4K", "HD", "UHD", "FHD"]

  /** The title begins with one of `tags`. */
  predicate Tagged(s: string, tags: seq<string>) {
    exists k :: 0 <= k < |tags| && Accepts(s, 0, tags[k], false)
  }

  /** What `\s*[-:]?\s*` consumes: white space around at most one `-` or
      `:`. */
  predicate Separator(g: string) {
    && (forall i :: 0 <= i < |g| ==> IsSpace(g[i]) || g[i] == '-' || g[i] == ':')
    && (forall i, j :: 0 <= i < j < |g| && !IsSpace(g[i]) ==> IsSpace(g[j]))
  }

  /** `^(t1|t2|…)\s*[-:]?\s*` replaced by nothing: the first tag that opens
      the title goes, with the separator after it; the separator takes all
      the white space it can and a `-` or `:` when one comes. */
  function StripPrefixTag(s: string, tags: seq<string>): (r: string)
    ensures !Tagged(s, tags) ==> r == s
    ensures Tagged(s, tags) ==> |r| < |s| && r == s[|s| - |r|..]
    ensures Tagged(s, tags) ==> r == [] || !IsSpace(r[0])
    ensures FirstAlt(s, 0, tags, false, 0).Some? ==>
      var n := |tags[FirstAlt(s, 0, tags, false, 0).value]|;
      && n <= |s| - |r|
      && Separator(s[n..|s| - |r|])
      && (r != [] && (r[0] == '-' || r[0] == ':') ==> exists i :: n <= i < |s| - |r| && !IsSpace(s[i]))
  {
    match FirstAlt(s, 0, tags, false, 0)
    case None => s
    case Some(k) =>
      var n := |tags[k]|;
      var a := SkipSpace(s, n);
      var b := if a < |s| && (s[a] == '-' || s[a] == ':') then a + 1 else a;
      var c := SkipSpace(s, b);
      SeparatorBetween(s, n, a, b, c);
      assert b == a ==> c == a;
      s[c..]
  }

  /** White space, at most one `-` or `:` at index `a`, white space: the
      stretch `s[n..c]` is a separator, and `a` is its only non-space. */
  lemma SeparatorBetween(s: string, n: nat, a: nat, b: nat, c: nat)
    requires n <= a <= b <= c <= |s|
    requires forall k :: n <= k < a ==> IsSpace(s[k])
    requires b == a || (b == a + 1 && (s[a] == '-' || s[a] == ':'))
    requires forall k :: b <= k < c ==> IsSpace(s[k])
    ensures Separator(s[n..c])
    ensures forall i :: n <= i < c && !IsSpace(s[i]) ==> i == a && b == a + 1
  {
    var g := s[n..c];
    assert forall i :: 0 <= i < |g| ==> g[i] == s[n + i];
  }

  /** `[([{]\d{4}[)\]}]` at index `i`. */
  predicate YearAt(s: string, i: nat) {
    && i + 6 <= |s|
    && (s[i] == '(' || s[i] == '[' || s[i] == '{')
    && IsDigit(s[i + 1]) && IsDigit(s[i + 2]) && IsDigit(s[i + 3]) && IsDigit(s[i + 4])
    && (s[i + 5] == ')' || s[i + 5] == ']' || s[i + 5] == '}')
  }

  /** No bracketed year starts at index `i` or after it. */
  predicate NoYearFrom(s: string, i: nat)
    decreases |s| - i
  {
    i >= |s| || (!YearAt(s, i) && NoYearFrom(s, i + 1))
  }

  /** `s.replace(/[([{]\d{4}[)\]}]/g, '')` from index `i`: scanning from the
      left, every bracketed four-digit year goes; the brackets need not pair
      up. Removals only delete, six characters at a time. */
  function RemoveYears(s: string, i: nat): (r: string)
    requires i <= |s|
    ensures IsSubseq(r, s[i..])
    ensures (|s| - i - |r|) % 6 == 0 && |r| <= |s| - i
    ensures NoYearFrom(s, i) ==> r == s[i..]
    decreases |s| - i
  {
    if i == |s| then []
    else if YearAt(s, i) then
      var r := RemoveYears(s, i + 6);
      assert s[i..][6..] == s[i + 6..];
      SubseqOfSuffix(r, s[i..], 6);
      r
    else
      var rest := RemoveYears(s, i + 1);
      assert ([s[i]] + rest)[1..] == rest;
      assert s[i..][1..] == s[i + 1..];
      assert s[i..] == [s[i]] + s[i + 1..];
      [s[i]] + rest
  }

  /** Text in which no bracketed year starts is kept as it is, and the scan
      goes on after it. */
  lemma {:induction false} RemoveYearsKeeps(s: string, i: nat, j: nat)
    requires i <= j <= |s|
    requires forall p :: i <= p < j ==> !YearAt(s, p)
    ensures RemoveYears(s, i) == s[i..j] + RemoveYears(s, j)
    decreases j - i
  {
    if i < j {
      assert !YearAt(s, i);
      assert RemoveYears(s, i) == [s[i]] + RemoveYears(s, i + 1);
      RemoveYearsKeeps(s, i + 1, j);
      ConsSlice(s, i, j, RemoveYears(s, i + 1), RemoveYears(s, j));
    }
  }

  /** The leftmost bracketed year is removed: the text before it is kept,
      and the scan resumes right after it. */
  lemma RemoveYearsDrops(s: string, i: nat, j: nat)
    requires i <= j <= |s| && YearAt(s, j)
    requires forall p :: i <= p < j ==> !YearAt(s, p)
    ensures RemoveYears(s, i) == s[i..j] + RemoveYears(s, j + 6)
  {
    RemoveYearsKeeps(s, i, j);
  }

  /** Text without any bracketed year comes back unchanged. */
  lemma RemoveYearsNone(s: string)
    requires forall p :: 0 <= p < |s| ==> !YearAt(s, p)
    ensures RemoveYears(s, 0) == s
  {
    RemoveYearsKeeps(s, 0, |s|);
    assert s[0..|s|] == s;
  }

  /** `s[i]` in front of `s[i + 1..j] + tail` is `s[i..j] + tail`. */
  lemma ConsSlice(s: string, i: nat, j: nat, rest: string, tail: string)
    requires i < j <= |s| && rest == s[i + 1..j] + tail
    ensures [s[i]] + rest == s[i..j] + tail
  {
    assert s[i..j] == [s[i]] + s[i + 1..j];
  }

  /** The release tags the title loses. */
  const QualityTags: seq<string> :=
    ["2160p", "1080p", "720p", "480p", "HDRip", "BRRip", "BluRay", "WEB-DL", "HDTV", "DVDRip", "4K", "UHD", "HD", "FHD"]

  /** The codec tags the title loses; `H\.?264` is tried with the dot first. */
  const CodecTags: seq<string> :=
    ["x264", "x265", "HEVC", "H.264", "H264", "H.265", "H265", "AAC", "AC3", "DTS"]

  /** A whole-word alternative matches at index `i`: `\b` holds there and
      some alternative matches followed by `\b`. */
  predicate WordAt(s: string, i: nat, alts: seq<string>) {
    Boundary(s, i) && FirstAlt(s, i, alts, true, 0).Some?
  }

  /** The length of the whole-word alternative matched at index `i`: what a
      removal there deletes. */
  function WordLength(s: string, i: nat, alts: seq<string>): (n: nat)
    requires WordAt(s, i, alts)
    ensures 0 < n && i + n <= |s|
  {
    |alts[FirstAlt(s, i, alts, true, 0).value]|
  }

  /** No whole-word alternative matches at index `i` or after it. */
  predicate NoWordFrom(s: string, i: nat, alts: seq<string>)
    decreases |s| - i
  {
    i >= |s| || (!WordAt(s, i, alts) && NoWordFrom(s, i + 1, alts))
  }

  /** `s.replace(/\b(alt|…)\b/gi, '')` from index `i`: every whole-word tag
      found scanning from the left goes. Boundaries are read in the string
      before any removal, as `replace` does. */
  function RemoveWords(s: string, i: nat, alts: seq<string>): (r: string)
    requires i <= |s|
    ensures IsSubseq(r, s[i..])
    ensures NoWordFrom(s, i, alts) ==> r == s[i..]
    decreases |s| - i
  {
    if i == |s| then []
    else
      if WordAt(s, i, alts) then
        var n := |alts[FirstAlt(s, i, alts, true, 0).value]|;
        var r := RemoveWords(s, i + n, alts);
        assert s[i..][n..] == s[i + n..];
        SubseqOfSuffix(r, s[i..], n);
        r
      else
        var rest := RemoveWords(s, i + 1, alts);
        assert ([s[i]] + rest)[1..] == rest;
        assert s[i..][1..] == s[i + 1..];
        assert s[i..] == [s[i]] + s[i + 1..];
        [s[i]] + rest
  }

  /** Text in which no whole-word tag starts is kept as it is, and the scan
      goes on after it. */
  lemma {:induction false} RemoveWordsKeeps(s: string, i: nat, j: nat, alts: seq<string>)
    requires i <= j <= |s|
    requires forall p :: i <= p < j ==> !WordAt(s, p, alts)
    ensures RemoveWords(s, i, alts) == s[i..j] + RemoveWords(s, j, alts)
    decreases j - i
  {
    if i < j {
      assert !WordAt(s, i, alts);
      assert RemoveWords(s, i, alts) == [s[i]] + RemoveWords(s, i + 1, alts);
      RemoveWordsKeeps(s, i + 1, j, alts);
      ConsSlice(s, i, j, RemoveWords(s, i + 1, alts), RemoveWords(s, j, alts));
    }
  }

  /** The leftmost whole-word tag is removed: the text before it is kept,
      the alternative the regex commits to goes, and the scan resumes right
      after it. */
  lemma RemoveWordsDrops(s: string, i: nat, j: nat, alts: seq<string>)
    requires i <= j < |s| && WordAt(s, j, alts)
    requires forall p :: i <= p < j ==> !WordAt(s, p, alts)
    ensures RemoveWords(s, i, alts) == s[i..j] + RemoveWords(s, j + WordLength(s, j, alts), alts)
  {
    RemoveWordsKeeps(s, i, j, alts);
    RemoveWordsSkips(s, j, alts);
  }

  /** Text without any whole-word tag comes back unchanged. */
  lemma RemoveWordsNone(s: string, alts: seq<string>)
    requires forall p :: 0 <= p < |s| ==> !WordAt(s, p, alts)
    ensures RemoveWords(s, 0, alts) == s
  {
    RemoveWordsKeeps(s, 0, |s|, alts);
    assert s[0..|s|] == s;
  }

  /** Where a whole-word tag starts, the scan jumps over the alternative
      the regex commits to. */
  lemma RemoveWordsSkips(s: string, j: nat, alts: seq<string>)
    requires j < |s| && WordAt(s, j, alts)
    ensures RemoveWords(s, j, alts) == RemoveWords(s, j + WordLength(s, j, alts), alts)
  {
    var k := FirstAlt(s, j, alts, true, 0).value;
    assert MatchesAtCI(s, j, alts[k]);
    assert RemoveWords(s, j, alts) == RemoveWords(s, j + |alts[k]|, alts);
  }

  /** The file extensions a title may end with. */
  const Extensions: seq<string> := [".mkv", ".mp4", ".avi", ".mov", ".wmv"]

  /** `s` ends with one of `alts`. */
  predicate EndsWithAny(s: string, alts: seq<string>) {
    exists k :: 0 <= k < |alts| && alts[k] != [] && EndsWithCI(s, alts[k])
  }

  /** The first of `alts`, from the `k`-th on, that ends `s`. */
  function FirstEnding(s: string, alts: seq<string>, k: nat): (r: Option<nat>)
    ensures r.Some? ==> k <= r.value < |alts| && alts[r.value] != [] && EndsWithCI(s, alts[r.value])
    ensures r.None? ==> forall j :: k <= j < |alts| ==> alts[j] == [] || !EndsWithCI(s, alts[j])
    decreases |alts| - k
  {
    if k >= |alts| then None
    else if alts[k] != [] && EndsWithCI(s, alts[k]) then Some(k)
    else FirstEnding(s, alts, k + 1)
  }

  /** `s.replace(/(a1|a2|…)$/i, '')`: one trailing alternative goes. When the
      alternatives have one length, as the extensions do, the first that ends
      the string is the leftmost match. */
  function StripSuffix(s: string, alts: seq<string>): (r: string)
    ensures !EndsWithAny(s, alts) ==> r == s
    ensures EndsWithAny(s, alts) ==> |r| < |s| && r == s[..|r|]
    ensures EndsWithAny(s, alts) ==> exists k :: 0 <= k < |alts| && EndsWithCI(s, alts[k]) && |r| == |s| - |alts[k]|
  {
    match FirstEnding(s, alts, 0)
    case None => s
    case Some(k) => s[..|s| - |alts[k]|]
  }

  /** Every white-space character is a space, and none follows another. */
  predicate Collapsed(s: string) {
    && (forall i :: 0 <= i < |s| && IsSpace(s[i]) ==> s[i] == ' ')
    && (forall i :: 0 <= i < |s| - 1 && IsSpace(s[i]) ==> !IsSpace(s[i + 1]))
  }

  /** Collapsed, with no white space at either end. */
  predicate Tidy(s: string) {
    && (s == [] || (!IsSpace(s[0]) && !IsSpace(s[|s| - 1])))
    && Collapsed(s)
  }

  /** `s.replace(/\s+/g, ' ')`: every white-space run becomes one space. */
  function CollapseSpaces(s: string): (r: string)
    ensures Collapsed(r)
    ensures r == [] <==> s == []
    ensures s != [] && IsSpace(s[0]) ==> r[0] == ' '
    ensures s != [] && !IsSpace(s[0]) ==> r[0] == s[0]
    decreases |s|
  {
    if s == [] then []
    else if IsSpace(s[0]) then
      var rest := CollapseSpaces(s[SkipSpace(s, 0)..]);
      [' '] + rest
    else [s[0]] + CollapseSpaces(s[1..])
  }

  /** Trimming a collapsed string leaves it tidy. */
  lemma TrimCollapsed(c: string)
    requires Collapsed(c)
    ensures Tidy(Trim(c))
  {
    TrimIsSlice(c);
    SliceCollapsed(c, TrimOffset(c), TrimOffset(c) + |Trim(c)|);
  }

  /** Every slice of a collapsed string is collapsed. */
  lemma SliceCollapsed(c: string, a: nat, b: nat)
    requires Collapsed(c) && a <= b <= |c|
    ensures Collapsed(c[a..b])
  {
    var r := c[a..b];
    assert forall i :: 0 <= i < |r| ==> r[i] == c[a + i];
  }

  /** White space collapsed, then trimmed: no white space at either end, and
      inside only single spaces. */
  function NormalizeSpaces(s: string): (r: string)
    ensures Tidy(r)
  {
    var c := CollapseSpaces(s);
    TrimCollapsed(c);
    Trim(c)
  }

  /** A collapsed string is its own collapse. */
  lemma {:induction false} CollapseFixed(s: string)
    requires Collapsed(s)
    ensures CollapseSpaces(s) == s
    decreases |s|
  {
    if s != [] {
      assert Collapsed(s[1..]) by {
        assert forall i :: 0 <= i < |s| - 1 ==> s[1..][i] == s[i + 1];
      }
      if IsSpace(s[0]) {
        assert |s| == 1 || !IsSpace(s[1]);
        assert SkipSpace(s, 0) == 1;
      }
      CollapseFixed(s[1..]);
    }
  }

  /** Normalising white space twice is normalising it once. */
  lemma NormalizeSpacesIdempotent(s: string)
    ensures NormalizeSpaces(NormalizeSpaces(s)) == NormalizeSpaces(s)
  {
    var r := NormalizeSpaces(s);
    CollapseFixed(r);
    TrimOfTrimmed(r);
    assert CollapseSpaces(r) == r;
  }

  /** The steps of `cleanTitle` for given tag lists: the leading tag, the
      bracketed years, the release and codec words and the trailing
      extension go, in that order; then white space is normalised, so the
      result is tidy. */
  function CleanTitleWith(title: string, tags: seq<string>, quality: seq<string>, codecs: seq<string>, extensions: seq<string>): (r: string)
    ensures Tidy(r)
  {
    var a := StripPrefixTag(title, tags);
    var b := RemoveYears(a, 0);
    var c := RemoveWords(b, 0, quality);
    var d := RemoveWords(c, 0, codecs);
    NormalizeSpaces(StripSuffix(d, extensions))
  }

  /** `cleanTitle(title)`. */
  function CleanTitle(title: string): (r: string)
    ensures Tidy(r)
  {
    CleanTitleWith(title, Tags, QualityTags, CodecTags, Extensions)
  }

  /** A title with no tag, year, release or codec word or extension to remove,
      and already tidy, is left as it is. */
  lemma CleanTitleKeepsPlainTitles(title: string, tags: seq<string>, quality: seq<string>, codecs: seq<string>, extensions: seq<string>)
    requires !Tagged(title, tags)
    requires forall p :: 0 <= p < |title| ==> !YearAt(title, p)
    requires forall p :: 0 <= p < |title| ==> !WordAt(title, p, quality)
    requires forall p :: 0 <= p < |title| ==> !WordAt(title, p, codecs)
    requires !EndsWithAny(title, extensions)
    requires Tidy(title)
    ensures CleanTitleWith(title, tags, quality, codecs, extensions) == title
  {
    RemoveYearsNone(title);
    RemoveWordsNone(title, quality);
    RemoveWordsNone(title, codecs);
    CollapseFixed(title);
    TrimOfTrimmed(title);
  }

  /** The tag rule has no word boundary: "Frozen" searches as "ozen". */
  lemma FrozenLosesFr()
    ensures StripPrefixTag("Frozen", Tags) == "ozen"
  {
    assert StartsWithCI("Frozen", "FR");
    assert FirstAlt("Frozen", 0, Tags, false, 0) == Some(0);
  }

  // What a space after the name shields.

  /** No alternative contains a space. */
  predicate Spaceless(alts: seq<string>) {
    forall k, j :: 0 <= k < |alts| && 0 <= j < |alts[k]| ==> alts[k][j] != ' '
  }

  // None of the tag lists has an alternative with a space in it.

  lemma TagsSpaceless()
    ensures Spaceless(Tags)
  {
  }

  lemma QualityTagsSpaceless()
    ensures Spaceless(QualityTags)
  {
  }

  lemma CodecTagsSpaceless()
    ensures Spaceless(CodecTags)
  {
  }

  lemma ExtensionsSpaceless()
    ensures Spaceless(Extensions)
  {
  }

  /** A literal without a space never matches across a space. */
  lemma SpaceBreaksMatch(s: string, i: nat, lit: string, j: nat)
    requires i + |lit| <= |s| && j < |lit| && s[i + j] == ' ' && lit[j] != ' '
    ensures !MatchesAtCI(s, i, lit)
  {
    assert s[i..i + |lit|][j] == ' ';
    assert Lower(s[i..i + |lit|])[j] == ' ' != Lower(lit)[j];
  }

  /** Followed by a space, a string has the same `\b` positions up to and
      including its end. */
  lemma BoundaryInPrefix(x: string, w: string, p: nat)
    requires p <= |x| && w != [] && w[0] == ' '
    ensures Boundary(x + w, p) == Boundary(x, p)
  {
    var s := x + w;
    if p < |x| {
      assert s[p] == x[p];
    } else {
      assert s[p] == ' ';
    }
    if 0 < p {
      assert s[p - 1] == x[p - 1];
    }
  }

  /** Followed by a space, a string accepts the same alternatives at every
      index up to its end: a match cannot reach across the space. */
  lemma AcceptsInPrefix(x: string, w: string, p: nat, alt: string, bounded: bool)
    requires p <= |x| && w != [] && w[0] == ' '
    requires forall j :: 0 <= j < |alt| ==> alt[j] != ' '
    ensures Accepts(x + w, p, alt, bounded) == Accepts(x, p, alt, bounded)
  {
    var s := x + w;
    var n := |alt|;
    if n == 0 {
    } else if p + n <= |x| {
      assert s[p..p + n] == x[p..p + n];
      BoundaryInPrefix(x, w, p + n);
    } else if p + n <= |s| {
      SpaceBreaksMatch(s, p, alt, |x| - p);
    }
  }

  /** Followed by a space, a string commits to the same alternative at every
      index up to its end. */
  lemma {:induction false} FirstAltInPrefix(x: string, w: string, p: nat, alts: seq<string>, bounded: bool, k: nat)
    requires p <= |x| && w != [] && w[0] == ' ' && Spaceless(alts)
    ensures FirstAlt(x + w, p, alts, bounded, k) == FirstAlt(x, p, alts, bounded, k)
    decreases |alts| - k
  {
    if k < |alts| {
      AcceptsInPrefix(x, w, p, alts[k], bounded);
      FirstAltInPrefix(x, w, p, alts, bounded, k + 1);
    }
  }

  /** Followed by a space, a string has the same whole-word tags. */
  lemma WordAtInPrefix(x: string, w: string, p: nat, alts: seq<string>)
    requires p <= |x| && w != [] && w[0] == ' ' && Spaceless(alts)
    ensures WordAt(x + w, p, alts) == WordAt(x, p, alts)
  {
    BoundaryInPrefix(x, w, p);
    FirstAltInPrefix(x, w, p, alts, true, 0);
  }

  /** No whole-word tag starts at the very end of a string. */
  lemma NoWordAtEnd(x: string, alts: seq<string>)
    ensures !WordAt(x, |x|, alts)
  {
  }

  /** A name free of whole-word tags, followed by spaces, has none up to its
      last space. */
  lemma NoWordsBeforeSpaces(name: string, w: string, alts: seq<string>)
    requires |w| >= 2 && w[0] == ' ' && w[1] == ' ' && Spaceless(alts)
    requires forall p :: 0 <= p < |name| ==> !WordAt(name, p, alts)
    ensures forall p :: 0 <= p <= |name| + 1 ==> !WordAt(name + w, p, alts)
  {
    var x := name + " ";
    assert name + w == x + w[1..];
    forall p | 0 <= p <= |name| + 1
      ensures !WordAt(name + w, p, alts)
    {
      WordAtInPrefix(x, w[1..], p, alts);
      if p <= |name| {
        WordAtInPrefix(name, " ", p, alts);
        NoWordAtEnd(name, alts);
      } else {
        NoWordAtEnd(x, alts);
      }
    }
  }

  /** What is accepted right after a prefix depends only on the rest. */
  lemma AcceptsInSuffix(x: string, w: string, alt: string, bounded: bool)
    ensures Accepts(x + w, |x|, alt, bounded) == Accepts(w, 0, alt, bounded)
  {
    var s := x + w;
    var n := |alt|;
    if 0 < n <= |w| {
      assert s[|x|..|x| + n] == w[0..n];
      assert s[|x| + n - 1] == w[n - 1];
      if n < |w| {
        assert s[|x| + n] == w[n];
      }
    }
  }

  /** The alternative committed to right after a prefix depends only on the
      rest. */
  lemma {:induction false} FirstAltInSuffix(x: string, w: string, alts: seq<string>, bounded: bool, k: nat)
    ensures FirstAlt(x + w, |x|, alts, bounded, k) == FirstAlt(w, 0, alts, bounded, k)
    decreases |alts| - k
  {
    if k < |alts| {
      AcceptsInSuffix(x, w, alts[k], bounded);
      FirstAltInSuffix(x, w, alts, bounded, k + 1);
    }
  }

  /** Followed by a space, a string has the same bracketed years. */
  lemma YearAtInPrefix(x: string, w: string, p: nat)
    requires p <= |x| && w != [] && w[0] == ' '
    ensures YearAt(x + w, p) == YearAt(x, p)
  {
    var s := x + w;
    if p + 6 <= |x| {
      assert s[p..p + 6] == x[p..p + 6];
    } else if p + 6 <= |s| {
      assert s[|x|] == ' ';
    }
  }

  /** A collapsed string without trailing white space, followed by two
      spaces, collapses to itself followed by one. */
  lemma {:induction false} CollapseTwoSpaces(x: string)
    requires Collapsed(x) && (x == [] || !IsSpace(x[|x| - 1]))
    ensures CollapseSpaces(x + "  ") == x + " "
    decreases |x|
  {
    var s := x + "  ";
    if x == [] {
      assert SkipSpace(s, 0) == 2;
      assert s[2..] == [];
    } else {
      var t := x[1..];
      assert s[1..] == t + "  ";
      assert Collapsed(t) by {
        assert forall i :: 0 <= i < |t| ==> t[i] == x[i + 1];
      }
      if IsSpace(x[0]) {
        assert |x| >= 2 && !IsSpace(x[1]);
        assert SkipSpace(s, 0) == 1;
        CollapseTwoSpaces(t);
        assert x == [' '] + t;
      } else {
        CollapseTwoSpaces(t);
        assert x == [x[0]] + t;
      }
    }
  }

  /** A string without white space at either end, followed by a space,
      trims to itself. */
  lemma TrimSpaceAfter(x: string)
    requires x == [] || (!IsSpace(x[0]) && !IsSpace(x[|x| - 1]))
    ensures Trim(x + " ") == x
  {
    var s := x + " ";
    if x == [] {
      assert AllSpace(s);
    } else {
      assert TrimStart(s) == s;
      assert s[..|s| - 1] == x;
      assert TrimEnd(s) == TrimEnd(x);
      assert TrimEnd(x) == x;
    }
  }

  /** Two trailing spaces are neither an extension nor survive the
      normalisation of white space. */
  lemma SpacesNormalizeAway(name: string)
    requires Tidy(name)
    ensures !EndsWithAny(name + "  ", Extensions)
    ensures NormalizeSpaces(name + "  ") == name
  {
    var c := name + "  ";
    ExtensionsSpaceless();
    forall k | 0 <= k < |Extensions|
      ensures !EndsWithCI(c, Extensions[k])
    {
      var e := Extensions[k];
      if |e| <= |c| {
        SpaceBreaksMatch(c, |c| - |e|, e, |e| - 1);
      }
    }
    CollapseTwoSpaces(name);
    TrimSpaceAfter(name);
  }

  /** The tag rule does not fire on a title whose name it does not fire on. */
  lemma UntaggedTitle(name: string, w: string)
    requires !Tagged(name, Tags) && w != [] && w[0] == ' '
    ensures StripPrefixTag(name + w, Tags) == name + w
  {
    TagsSpaceless();
    forall k | 0 <= k < |Tags|
      ensures Accepts(name + w, 0, Tags[k], false) == Accepts(name, 0, Tags[k], false)
    {
      AcceptsInPrefix(name, w, 0, Tags[k], false);
    }
  }

  /** Whether a bracketed year starts right after a prefix depends only on
      the rest. */
  lemma YearAtInSuffix(x: string, w: string, p: nat)
    ensures YearAt(x + w, |x| + p) == YearAt(w, p)
  {
    if p + 6 <= |w| {
      assert (x + w)[|x| + p..|x| + p + 6] == w[p..p + 6];
    }
  }

  /** The quality alternation matches all of `tag` as a whole word. */
  predicate WholeQualityTag(tag: string) {
    && tag != [] && IsWordChar(tag[0])
    && FirstAlt(tag, 0, QualityTags, true, 0).Some?
    && |QualityTags[FirstAlt(tag, 0, QualityTags, true, 0).value]| == |tag|
  }

  /** After a prefix, the years are removed as they are from the rest alone. */
  lemma {:induction false} RemoveYearsInSuffix(x: string, w: string, i: nat)
    requires i <= |w|
    ensures RemoveYears(x + w, |x| + i) == RemoveYears(w, i)
    decreases |w| - i
  {
    if i < |w| {
      YearAtInSuffix(x, w, i);
      if YearAt(w, i) {
        RemoveYearsInSuffix(x, w, i + 6);
        SkipYearInSuffix(x, w, i);
      } else {
        RemoveYearsInSuffix(x, w, i + 1);
        KeepCharInSuffix(x, w, i);
      }
    }
  }

  /** The inductive step of `RemoveYearsInSuffix` at a year. */
  lemma SkipYearInSuffix(x: string, w: string, i: nat)
    requires i < |w| && YearAt(w, i) && YearAt(x + w, |x| + i)
    requires RemoveYears(x + w, |x| + i + 6) == RemoveYears(w, i + 6)
    ensures RemoveYears(x + w, |x| + i) == RemoveYears(w, i)
  {
    RemoveYearsStep(x + w, |x| + i);
    RemoveYearsStep(w, i);
  }

  /** The inductive step of `RemoveYearsInSuffix` at any other character. */
  lemma KeepCharInSuffix(x: string, w: string, i: nat)
    requires i < |w| && !YearAt(w, i) && !YearAt(x + w, |x| + i)
    requires RemoveYears(x + w, |x| + i + 1) == RemoveYears(w, i + 1)
    ensures RemoveYears(x + w, |x| + i) == RemoveYears(w, i)
  {
    RemoveYearsStep(x + w, |x| + i);
    RemoveYearsStep(w, i);
    assert (x + w)[|x| + i] == w[i];
  }

  /** One step of the scan for years. */
  lemma RemoveYearsStep(s: string, i: nat)
    requires i < |s|
    ensures RemoveYears(s, i) == if YearAt(s, i) then RemoveYears(s, i + 6) else [s[i]] + RemoveYears(s, i + 1)
  {
  }

  /** A name free of years, then a space: both are kept, and the scan goes
      on in the rest. */
  lemma YearsAfterSpace(name: string, b: string)
    requires forall p :: 0 <= p < |name| ==> !YearAt(name, p)
    ensures RemoveYears(name + " " + b, 0) == name + " " + RemoveYears(b, 0)
  {
    var a := name + " ";
    var t := a + b;
    assert t == name + (" " + b);
    forall p | 0 <= p < |a|
      ensures !YearAt(t, p)
    {
      YearAtInPrefix(name, " " + b, p);
    }
    RemoveYearsKeeps(t, 0, |a|);
    assert t[0..|a|] == a;
    RemoveYearsInSuffix(a, b, 0);
  }

  /** A bracketed year at the front goes, and the scan goes on after it. */
  lemma YearInFront(year: string, c: string)
    requires |year| == 6 && YearAt(year, 0)
    ensures RemoveYears(year + c, 0) == RemoveYears(c, 0)
  {
    var t := year + c;
    assert t[..6] == year;
    assert YearAt(t, 0);
    RemoveYearsInSuffix(year, c, 0);
  }

  /** A space, then text free of years, is kept as it is. */
  lemma NoYearsAfterSpace(tag: string)
    requires forall p :: 0 <= p < |tag| ==> !YearAt(tag, p)
    ensures RemoveYears(" " + tag, 0) == " " + tag
  {
    var c := " " + tag;
    assert !YearAt(c, 0);
    RemoveYearsInSuffix(" ", tag, 0);
    RemoveYearsNone(tag);
  }

  /** The bracketed year after the name is the only one, and it goes. */
  lemma TitleLosesYear(name: string, year: string, tag: string)
    requires forall p :: 0 <= p < |name| ==> !YearAt(name, p)
    requires |year| == 6 && YearAt(year, 0)
    requires forall p :: 0 <= p < |tag| ==> !YearAt(tag, p)
    ensures RemoveYears(name + " " + year + " " + tag, 0) == name + "  " + tag
  {
    var c := " " + tag;
    var b := year + c;
    YearsAfterSpace(name, b);
    YearInFront(year, c);
    NoYearsAfterSpace(tag);
    Regroup(name, year, tag);
  }

  /** The same title, grouped from the right and from the left. */
  lemma Regroup(name: string, year: string, tag: string)
    ensures name + " " + (year + (" " + tag)) == name + " " + year + " " + tag
    ensures name + " " + (" " + tag) == name + "  " + tag
    ensures name + (" " + year + " " + tag) == name + " " + year + " " + tag
  {
    assert (name + " ") + (" " + tag) == (name + " " + " ") + tag;
  }

  /** A whole-word tag that is the last thing in `s`, with none before it,
      is all that goes. */
  lemma DropLastWord(s: string, q: nat, alts: seq<string>)
    requires q < |s| && WordAt(s, q, alts)
    requires forall p :: 0 <= p < q ==> !WordAt(s, p, alts)
    requires q + WordLength(s, q, alts) == |s|
    ensures RemoveWords(s, 0, alts) == s[..q]
  {
    RemoveWordsDrops(s, 0, q, alts);
    assert s[0..q] == s[..q];
  }

  /** The quality tag after the name is the only one, and it goes. */
  lemma TitleLosesQuality(name: string, tag: string)
    requires forall p :: 0 <= p < |name| ==> !WordAt(name, p, QualityTags)
    requires WholeQualityTag(tag)
    ensures RemoveWords(name + "  " + tag, 0, QualityTags) == name + "  "
  {
    var w := "  " + tag;
    var s := name + w;
    QualityTagsSpaceless();
    NoWordsBeforeSpaces(name, w, QualityTags);
    var x := name + "  ";
    assert s == x + tag;
    var q := |x|;
    assert s[q - 1] == ' ' && s[q] == tag[0];
    assert Boundary(s, q);
    FirstAltInSuffix(x, tag, QualityTags, true, 0);
    DropLastWord(s, q, QualityTags);
    assert s[..q] == x;
  }

  /** `1080p` is a whole quality tag without a bracketed year in it. */
  lemma Finds1080p()
    ensures WholeQualityTag("1080p")
    ensures forall p :: 0 <= p < 5 ==> !YearAt("1080p", p)
  {
    assert !Accepts("1080p", 0, QualityTags[0], true);
    assert Accepts("1080p", 0, QualityTags[1], true);
  }

  /** A plain name followed by a bracketed year and a quality tag searches
      as the name: the year, the tag and the extra white space all go. */
  lemma CleanTitleDropsYearAndQuality(name: string, year: string, tag: string)
    requires Tidy(name) && !Tagged(name, Tags)
    requires forall p :: 0 <= p < |name| ==> !YearAt(name, p)
    requires forall p :: 0 <= p < |name| ==> !WordAt(name, p, QualityTags)
    requires forall p :: 0 <= p < |name| ==> !WordAt(name, p, CodecTags)
    requires |year| == 6 && YearAt(year, 0)
    requires WholeQualityTag(tag) && forall p :: 0 <= p < |tag| ==> !YearAt(tag, p)
    ensures CleanTitle(name + " " + year + " " + tag) == name
  {
    Regroup(name, year, tag);
    UntaggedTitle(name, " " + year + " " + tag);
    TitleLosesYear(name, year, tag);
    TitleLosesQuality(name, tag);
    CodecTagsSpaceless();
    NoWordsBeforeSpaces(name, "  ", CodecTags);
    RemoveWordsNone(name + "  ", CodecTags);
    SpacesNormalizeAway(name);
  }

  // The search and download.

  /** `type` of the search: `movie` for movies and VOD, `episode` for series
      and episodes, nothing otherwise. */
  function SearchType(kind: Option<string>): (r: Option<string>)
    ensures r == Some("movie") <==> kind == Some("movie") || kind == Some("vod")
    ensures r == Some("episode") <==> kind == Some("series") || kind == Some("episode")
    ensures r.Some? ==> r == Some("movie") || r == Some("episode")
  {
    match kind
    case Some(k) =>
      if k == "movie" || k == "vod" then Some("movie")
      else if k == "series" || k == "episode" then Some("episode")
      else None
    case None => None
  }

  /** One search result, as the search maps it. */
  datatype Subtitle = Subtitle(fileId: Option<int>, fileName: Option<string>, language: Option<string>)

  /** The result has a file to download: a present, non-zero id (`0` is
      falsy). */
  predicate Downloadable(s: Subtitle) {
    s.fileId.Some? && s.fileId.value != 0
  }

  /** `results.find(r => r.fileId)`. */
  function FirstDownloadable(results: seq<Subtitle>): (r: Option<nat>)
    ensures r.Some? ==> r.value < |results| && Downloadable(results[r.value])
    ensures r.Some? ==> forall j :: 0 <= j < r.value ==> !Downloadable(results[j])
    ensures r.None? <==> forall j :: 0 <= j < |results| ==> !Downloadable(results[j])
  {
    FindFirst(results, Downloadable)
  }

  /** What `fetchSubtitle` downloads and reports. */
  datatype Choice = Choice(fileId: int, fileName: string, language: Option<string>)

  const NoSubtitles := "No subtitles found"
  const NoDownloadable := "No downloadable subtitle found"

  /** `fetchSubtitle`'s choice: no results and no downloadable result are
      errors, in that order; otherwise the first downloadable result, its file
      name defaulting to `<query>.srt`. */
  function ChooseSubtitle(query: string, results: seq<Subtitle>): (r: Result<Choice, string>)
    ensures r == Err(NoSubtitles) <==> results == []
    ensures r == Err(NoDownloadable) <==> results != [] && forall j :: 0 <= j < |results| ==> !Downloadable(results[j])
    ensures r.Ok? ==> exists i :: (
      && 0 <= i < |results| && Downloadable(results[i])
      && (forall j :: 0 <= j < i ==> !Downloadable(results[j]))
      && r.value == Choice(results[i].fileId.value, Or(results[i].fileName, query + ".srt"), results[i].language))
  {
    if results == [] then Err(NoSubtitles)
    else match FirstDownloadable(results)
      case None => Err(NoDownloadable)
      case Some(i) => Ok(Choice(results[i].fileId.value, Or(results[i].fileName, query + ".srt"), results[i].language))
  }
}

=== FILE: ordering.dfy ===
/** Orders and sorting used by the catalogues: the strict string order that
    stands in for `localeCompare` when group names are sorted, and a stable
    insertion sort by an integer key (`Array.prototype.sort` with a numeric
    comparator such as `(a, b) => a.start - b.start`). */
module Ordering {
  import Seqs

  /** Strict lexicographic order on code points. */
  predicate StrLess(a: string, b: string) {
    if a == [] then b != []
    else if b == [] then false
    else a[0] < b[0] || (a[0] == b[0] && StrLess(a[1..], b[1..]))
  }

  lemma {:induction false} StrLessIrreflexive(a: string)
    ensures !StrLess(a, a)
  {
    if a != [] {
      StrLessIrreflexive(a[1..]);
    }
  }

  lemma {:induction false} StrLessTransitive(a: string, b: string, c: string)
    requires StrLess(a, b) && StrLess(b, c)
    ensures StrLess(a, c)
  {
    if a != [] && b != [] && c != [] && a[0] == b[0] == c[0] {
      StrLessTransitive(a[1..], b[1..], c[1..]);
    }
  }

  lemma {:induction false} StrLessTotal(a: string, b: string)
    ensures a == b || StrLess(a, b) || StrLess(b, a)
  {
    if a != [] && b != [] && a[0] == b[0] {
      StrLessTotal(a[1..], b[1..]);
      if a[1..] == b[1..] {
        assert a == [a[0]] + a[1..] && b == [b[0]] + b[1..];
      }
    }
  }

  lemma StrLessAsymmetric(a: string, b: string)
    requires StrLess(a, b)
    ensures !StrLess(b, a)
  {
    if StrLess(b, a) {
      StrLessTransitive(a, b, a);
      StrLessIrreflexive(a);
    }
  }

  /** Sorted without repetition: what `Array.from(set).sort(cmp)` yields. */
  predicate StrictlySorted(xs: seq<string>) {
    forall i, j :: 0 <= i < j < |xs| ==> StrLess(xs[i], xs[j])
  }

  /** Adds `g` to a strictly sorted list of names, keeping it strictly sorted;
      a name already present is not added twice. */
  function InsertSorted(xs: seq<string>, g: string): (r: seq<string>)
    requires StrictlySorted(xs)
    ensures StrictlySorted(r)
    ensures forall x :: x in r <==> x in xs || x == g
    ensures |r| == if g in xs then |xs| else |xs| + 1
  {
    if xs == [] then [g]
    else if xs[0] == g then xs
    else if StrLess(g, xs[0]) then
      assert g !in xs by {
        forall i | 0 <= i < |xs| ensures xs[i] != g {
          if i > 0 {
            StrLessTransitive(g, xs[0], xs[i]);
            StrLessIrreflexive(g);
          }
        }
      }
      assert forall i :: 0 < i < |xs| ==> StrLess(g, xs[i]) by {
        forall i | 0 < i < |xs| ensures StrLess(g, xs[i]) {
          StrLessTransitive(g, xs[0], xs[i]);
        }
      }
      [g] + xs
    else
      StrLessTotal(g, xs[0]);
      var rest := InsertSorted(xs[1..], g);
      assert xs == [xs[0]] + xs[1..];
      forall k | 0 <= k < |rest| ensures StrLess(xs[0], rest[k]) {
        assert rest[k] in rest;
      }
      [xs[0]] + rest
  }

  /** Two strictly sorted lists holding the same names are equal: the group
      lists do not depend on the order in which groups were first seen. */
  lemma {:induction false} StrictlySortedUnique(xs: seq<string>, ys: seq<string>)
    requires StrictlySorted(xs) && StrictlySorted(ys)
    requires forall x :: x in xs <==> x in ys
    ensures xs == ys
  {
    assert xs != [] ==> xs[0] in xs;
    assert ys != [] ==> ys[0] in ys;
    if xs != [] && ys != [] {
      var i :| 0 <= i < |xs| && xs[i] == ys[0];
      var j :| 0 <= j < |ys| && ys[j] == xs[0];
      if i != 0 && j != 0 {
        StrLessAsymmetric(xs[0], ys[0]);
      }
      assert xs[0] == ys[0];
      assert forall x :: x in xs[1..] <==> x in ys[1..] by {
        HeadNotInTail(xs);
        HeadNotInTail(ys);
        forall x ensures x in xs[1..] <==> x in ys[1..] {
          if x in xs[1..] {
            InTail(ys, x);
          }
          if x in ys[1..] {
            InTail(xs, x);
          }
        }
      }
      StrictlySortedUnique(xs[1..], ys[1..]);
    }
  }

  /** A name below the head of a strictly sorted list is not in it. */
  lemma NotBelowHead(ys: seq<string>, x: string)
    requires StrictlySorted(ys) && ys != [] && StrLess(x, ys[0])
    ensures x !in ys
  {
    forall i | 0 <= i < |ys| ensures ys[i] != x {
      StrLessIrreflexive(x);
      if i > 0 {
        StrLessTransitive(x, ys[0], ys[i]);
      }
    }
  }

  lemma InTail(ys: seq<string>, x: string)
    requires x in ys && x != ys[0]
    ensures x in ys[1..]
  {
    var i :| 0 <= i < |ys| && ys[i] == x;
    assert ys[1..][i - 1] == x;
  }

  lemma HeadNotInTail(xs: seq<string>)
    requires StrictlySorted(xs) && xs != []
    ensures xs[0] !in xs[1..]
  {
    forall i | 1 <= i < |xs| ensures xs[i] != xs[0] {
      StrLessIrreflexive(xs[0]);
    }
  }

  /** `s` is ordered by `key`, non-decreasing. */
  predicate SortedBy<T>(s: seq<T>, key: T -> int) {
    forall i, j :: 0 <= i < j < |s| ==> key(s[i]) <= key(s[j])
  }

  /** Inserts `x` after every element whose key is not greater than its own. */
  function InsertBy<T>(s: seq<T>, x: T, key: T -> int): (r: seq<T>)
    requires SortedBy(s, key)
    ensures SortedBy(r, key)
    ensures multiset(r) == multiset(s) + multiset{x}
  {
    if s == [] then [x]
    else if key(x) < key(s[0]) then [x] + s
    else
      var rest := InsertBy(s[1..], x, key);
      assert s == [s[0]] + s[1..];
      forall k | 0 <= k < |rest| ensures key(s[0]) <= key(rest[k]) {
        assert rest[k] in multiset(rest);
        if rest[k] != x {
          assert rest[k] in multiset(s[1..]);
          var j :| 0 <= j < |s[1..]| && s[1..][j] == rest[k];
          assert s[j + 1] == rest[k];
        }
      }
      [s[0]] + rest
  }

  /** The elements whose key is `k`. */
  function KeyIs<T>(key: T -> int, k: int): T -> bool {
    (y: T) => key(y) == k
  }

  /** Insertion puts `x` after every element with its key, so among the
      elements sharing a key it comes last. */
  lemma {:induction false} InsertByStable<T(!new)>(s: seq<T>, x: T, key: T -> int, k: int)
    requires SortedBy(s, key)
    ensures Seqs.Filter(InsertBy(s, x, key), KeyIs(key, k))
         == Seqs.Filter(s, KeyIs(key, k)) + (if key(x) == k then [x] else [])
    decreases |s|
  {
    if s == [] {
      Seqs.FilterCons(x, [], KeyIs(key, k));
    } else if key(x) < key(s[0]) {
      InsertInFront(s, x, key, k);
    } else {
      InsertByStable(s[1..], x, key, k);
      InsertBehind(s, x, key, k);
    }
  }

  /** Inserting before the first element: nothing with `x`'s key follows. */
  lemma InsertInFront<T(!new)>(s: seq<T>, x: T, key: T -> int, k: int)
    requires SortedBy(s, key) && s != [] && key(x) < key(s[0])
    ensures Seqs.Filter(InsertBy(s, x, key), KeyIs(key, k))
         == Seqs.Filter(s, KeyIs(key, k)) + (if key(x) == k then [x] else [])
  {
    assert InsertBy(s, x, key) == [x] + s;
    Seqs.FilterCons(x, s, KeyIs(key, k));
    if key(x) == k {
      BelowAllFiltersOut(s, key, k);
    }
  }

  /** Inserting past the first element, given the fact for the rest. */
  lemma InsertBehind<T(!new)>(s: seq<T>, x: T, key: T -> int, k: int)
    requires SortedBy(s, key) && s != [] && key(s[0]) <= key(x)
    requires Seqs.Filter(InsertBy(s[1..], x, key), KeyIs(key, k))
          == Seqs.Filter(s[1..], KeyIs(key, k)) + (if key(x) == k then [x] else [])
    ensures Seqs.Filter(InsertBy(s, x, key), KeyIs(key, k))
         == Seqs.Filter(s, KeyIs(key, k)) + (if key(x) == k then [x] else [])
  {
    var p := KeyIs(key, k);
    var rest := InsertBy(s[1..], x, key);
    var head: seq<T> := if p(s[0]) then [s[0]] else [];
    var tail: seq<T> := if key(x) == k then [x] else [];
    HeadTail(s);
    assert InsertBy(s, x, key) == [s[0]] + rest;
    Seqs.FilterCons(s[0], rest, p);
    Seqs.FilterCons(s[0], s[1..], p);
    calc {
      Seqs.Filter(InsertBy(s, x, key), p);
      head + Seqs.Filter(rest, p);
      head + (Seqs.Filter(s[1..], p) + tail);
      { Reassociate(head, Seqs.Filter(s[1..], p), tail); }
      (head + Seqs.Filter(s[1..], p)) + tail;
      Seqs.Filter(s, p) + tail;
    }
  }

  /** A non-empty sequence is its head and its tail. */
  lemma HeadTail<T>(s: seq<T>)
    requires s != []
    ensures s == [s[0]] + s[1..]
  {
  }

  /** Concatenation regroups. */
  lemma Reassociate<T>(a: seq<T>, b: seq<T>, c: seq<T>)
    ensures a + (b + c) == (a + b) + c
  {
  }

  /** No element of a sorted sequence has a key below its first one's. */
  lemma BelowAllFiltersOut<T(!new)>(s: seq<T>, key: T -> int, k: int)
    requires SortedBy(s, key) && s != [] && k < key(s[0])
    ensures Seqs.Filter(s, KeyIs(key, k)) == []
  {
  }

  /** The sort is stable: for every key, the elements carrying it come out
      in the order they went in. */
  lemma {:induction false} SortByStable<T(!new)>(s: seq<T>, key: T -> int, k: int)
    ensures Seqs.Filter(SortBy(s, key), KeyIs(key, k)) == Seqs.Filter(s, KeyIs(key, k))
    decreases |s|
  {
    if s != [] {
      var init, last := s[..|s| - 1], s[|s| - 1];
      assert s == init + [last];
      var sorted := SortBy(init, key);
      assert SortBy(s, key) == InsertBy(sorted, last, key);
      SortByStable(init, key, k);
      InsertByStable(sorted, last, key, k);
      Seqs.FilterSnoc(init, last, KeyIs(key, k));
    }
  }

  /** A stable sort by `key`: the result is ordered and a permutation of `s`;
      `SortByStable` states the stability. */
  function SortBy<T>(s: seq<T>, key: T -> int): (r: seq<T>)
    ensures SortedBy(r, key)
    ensures multiset(r) == multiset(s)
    ensures |r| == |s|
  {
    if s == [] then []
    else
      var r := InsertBy(SortBy(s[..|s| - 1], key), s[|s| - 1], key);
      assert s == s[..|s| - 1] + [s[|s| - 1]];
      assert |r| == |multiset(r)|;
      r
  }
}

=== FILE: playlist_service.dfy ===
/** The renderer's playlist service
    (src/renderer/js/services/playlist-service.js): the loaded catalogue it
    holds and the channel filter behind the search bar, the group list and
    the favourites view. */
module PlaylistService {
  import opened Wrappers
  import opened Strings
  import opened Seqs
  import opened Content
  import Store

  /** The service's fields. */
  datatype Holder = Holder(current: Option<Catalog>, channels: seq<Item>, groups: seq<string>, epgUrl: Option<string>)

  /** `loadFromUrl`: a loaded catalogue replaces the channels, groups and EPG
      address wholesale; a failed load rejects and leaves the service as it
      was. */
  function LoadFromUrl(h: Holder, loaded: Fetched<Catalog>): (r: (Holder, Option<Catalog>))
    ensures loaded.Threw? ==> r == (h, None)
    ensures loaded.Got? ==> r.1 == Some(loaded.value) && r.0.current == Some(loaded.value)
    ensures loaded.Got? ==>
      r.0.channels == loaded.value.channels && r.0.groups == loaded.value.groups
      && r.0.epgUrl == loaded.value.epgUrl
  {
    match loaded
    case Threw => (h, None)
    case Got(c) => (Holder(Some(c), c.channels, c.groups, c.epgUrl), Some(c))
  }

  /** Nothing of the previous state survives a successful load. */
  lemma LoadFromUrlForgets(h1: Holder, h2: Holder, c: Catalog)
    ensures LoadFromUrl(h1, Got(c)) == LoadFromUrl(h2, Got(c))
  {
  }

  /** `addPlaylist(url, name)` as the service declares it: only the URL and
      the name cross to the main process (the preload bridge and the
      `playlist:add` handler pass on the same two), so the store's type
      defaults to `m3u` and no credentials are kept, whatever the caller
      passed beyond them. `idClock`, `clock` and `noise` are the store's
      clock reads and random suffix. */
  function AddPlaylist(st: Store.State, url: string, name: string,
                       idClock: nat, clock: nat, noise: string): (r: (Store.State, Store.Playlist))
    ensures r.0.playlists == st.playlists + [r.1]
    ensures r.1.url == url && r.1.name == name
    ensures r.1.kind == "m3u" && r.1.xtream.None?
  {
    Store.AddPlaylist(st, url, name, None, None, idClock, clock, noise)
  }

  /** The forwarding the callers rely on: the type and the Xtream
      credentials reach the store along with the URL and the name. */
  function AddPlaylistForwarded(st: Store.State, url: string, name: string, kind: string,
                                data: Option<Store.XtreamLogin>, idClock: nat, clock: nat,
                                noise: string): (r: (Store.State, Store.Playlist))
    ensures r.0.playlists == st.playlists + [r.1]
    ensures r.1.url == url && r.1.name == name && r.1.kind == kind
    ensures r.1.xtream == (if kind == "xtream" then data else None)
  {
    Store.AddPlaylist(st, url, name, Some(kind), data, idClock, clock, noise)
  }

  /** The group filter is on: a group other than `''` and `'all'`. */
  predicate GroupActive(group: string) {
    group != "" && group != "all"
  }

  /** The lowercased query is part of the channel's lowercased name, tvg
      name or group. */
  predicate MatchesQuery(ch: Item, q: string) {
    || Contains(Lower(ch.name), q)
    || Contains(Lower(ch.tvgName.GetOr("")), q)
    || Contains(Lower(ch.group), q)
  }

  /** A channel passes every active filter. */
  predicate Passes(ch: Item, query: string, group: string, favoriteIds: Option<set<string>>) {
    && (GroupActive(group) ==> ch.group == group)
    && (favoriteIds.Some? ==> ch.id in favoriteIds.value)
    && (query != "" ==> MatchesQuery(ch, Lower(query)))
  }

  /** The group filter's test, vacuous when the filter is off. */
  function GroupTest(group: string): Item -> bool {
    (ch: Item) => GroupActive(group) ==> ch.group == group
  }

  /** The favourites filter's test; any set, even an empty one, switches it on. */
  function FavoriteTest(favoriteIds: Option<set<string>>): Item -> bool {
    (ch: Item) => favoriteIds.Some? ==> ch.id in favoriteIds.value
  }

  /** The text filter's test, vacuous for an empty query. */
  function TextTest(query: string): Item -> bool {
    (ch: Item) => query != "" ==> MatchesQuery(ch, Lower(query))
  }

  function GroupAndFavoriteTest(group: string, favoriteIds: Option<set<string>>): Item -> bool {
    (ch: Item) => GroupTest(group)(ch) && FavoriteTest(favoriteIds)(ch)
  }

  function PassesTest(query: string, group: string, favoriteIds: Option<set<string>>): Item -> bool {
    (ch: Item) => Passes(ch, query, group, favoriteIds)
  }

  /** One stage of the filter: applied when its switch is on, skipped
      otherwise, and either way the filter by its test. */
  function Stage(cs: seq<Item>, on: bool, test: Item -> bool): (r: seq<Item>)
    requires !on ==> forall ch :: test(ch)
    ensures r == Filter(cs, test)
  {
    if on then Filter(cs, test)
    else
      FilterAll(cs, test);
      cs
  }

  /** `filterChannels(query, group, favoriteIds)`: the group filter, then the
      favourites filter, then the text filter, each only when active; the
      result is the channels that pass every active filter. The channels come
      from the M3U parser or the live Xtream listing, which always set
      `tvgName`; the text filter would throw on one without it. */
  function FilterChannels(channels: seq<Item>, query: string, group: string, favoriteIds: Option<set<string>>): (r: seq<Item>)
    requires forall i :: 0 <= i < |channels| ==> channels[i].tvgName.Some?
    ensures r == Filter(channels, PassesTest(query, group, favoriteIds))
  {
    var byGroup := Stage(channels, GroupActive(group), GroupTest(group));
    var byFavorite := Stage(byGroup, favoriteIds.Some?, FavoriteTest(favoriteIds));
    var byText := Stage(byFavorite, query != "", TextTest(query));
    FilterThen(channels, GroupTest(group), FavoriteTest(favoriteIds), GroupAndFavoriteTest(group, favoriteIds));
    FilterThen(channels, GroupAndFavoriteTest(group, favoriteIds), TextTest(query), PassesTest(query, group, favoriteIds));
    byText
  }

  /** What the filter promises: it keeps channels in order, every kept channel
      passes the active filters, every channel that passes them is kept, and
      with no filter active it returns the channels as they are. */
  lemma FilterChannelsSound(channels: seq<Item>, query: string, group: string, favoriteIds: Option<set<string>>)
    requires forall i :: 0 <= i < |channels| ==> channels[i].tvgName.Some?
    ensures var r := FilterChannels(channels, query, group, favoriteIds);
            && IsSubseq(r, channels)
            && (GroupActive(group) ==> forall i :: 0 <= i < |r| ==> r[i].group == group)
            && (favoriteIds.Some? ==> forall i :: 0 <= i < |r| ==> r[i].id in favoriteIds.value)
            && (query != "" ==> forall i :: 0 <= i < |r| ==> MatchesQuery(r[i], Lower(query)))
            && (forall ch :: ch in channels && Passes(ch, query, group, favoriteIds) ==> ch in r)
            && (query == "" && !GroupActive(group) && favoriteIds.None? ==> r == channels)
  {
    var p := PassesTest(query, group, favoriteIds);
    FilterSubseq(channels, p);
    if query == "" && !GroupActive(group) && favoriteIds.None? {
      FilterAll(channels, p);
    }
  }
}

=== FILE: seqs.dfy ===
/** Sequence helpers for the persisted lists and the catalogue queries:
    `Array.prototype.filter` with its order-preservation and exactness
    facts, repetition-freedom, and the counting facts the playback-position
    cap rests on. */
module Seqs {
  import opened Wrappers

  /** No element occurs twice. */
  predicate Distinct<T(==)>(s: seq<T>) {
    forall i, j :: 0 <= i < j < |s| ==> s[i] != s[j]
  }

  /** `a` is `b` with some elements left out, the rest in their order. */
  predicate IsSubseq<T(==)>(a: seq<T>, b: seq<T>)
    decreases |b|
  {
    || a == []
    || (b != [] && ((a[0] == b[0] && IsSubseq(a[1..], b[1..])) || IsSubseq(a, b[1..])))
  }

  /** The index `findIndex` reports: the leftmost element passing `p`, and
      none iff no element does. */
  function FindFirst<T>(s: seq<T>, p: T -> bool): (r: Option<nat>)
    ensures r.Some? ==> r.value < |s| && p(s[r.value])
    ensures r.Some? ==> forall j :: 0 <= j < r.value ==> !p(s[j])
    ensures r.None? <==> forall j :: 0 <= j < |s| ==> !p(s[j])
    decreases |s|
  {
    if s == [] then None
    else if p(s[0]) then Some(0)
    else match FindFirst(s[1..], p)
      case None => None
      case Some(i) => Some(i + 1)
  }

  /** `s.filter(p)`: exactly the elements of `s` that pass `p`. */
  function Filter<T(==,!new)>(s: seq<T>, p: T -> bool): (r: seq<T>)
    ensures |r| <= |s|
    ensures forall i :: 0 <= i < |r| ==> p(r[i])
    ensures forall x :: x in r <==> x in s && p(x)
    decreases |s|
  {
    if s == [] then []
    else
      var rest := Filter(s[1..], p);
      assert forall x :: x in s[1..] ==> x in s;
      assert s == [s[0]] + s[1..];
      if p(s[0]) then [s[0]] + rest else rest
  }

  /** Filtering keeps the order of what it keeps. */
  lemma {:induction false} FilterSubseq<T(!new)>(s: seq<T>, p: T -> bool)
    ensures IsSubseq(Filter(s, p), s)
    decreases |s|
  {
    if s != [] {
      FilterSubseq(s[1..], p);
    }
  }

  /** Nothing is dropped when everything passes. */
  lemma {:induction false} FilterAll<T(!new)>(s: seq<T>, p: T -> bool)
    requires forall i :: 0 <= i < |s| ==> p(s[i])
    ensures Filter(s, p) == s
    decreases |s|
  {
    if s != [] {
      FilterAll(s[1..], p);
      assert s == [s[0]] + s[1..];
    }
  }

  /** Filtering distributes over appending one element. */
  lemma {:induction false} FilterSnoc<T(!new)>(s: seq<T>, x: T, p: T -> bool)
    ensures Filter(s + [x], p) == Filter(s, p) + (if p(x) then [x] else [])
    decreases |s|
  {
    if s == [] {
      assert [] + [x] == [x];
    } else {
      assert (s + [x])[1..] == s[1..] + [x];
      FilterSnoc(s[1..], x, p);
    }
  }

  /** Filtering a sequence with a first element. */
  lemma FilterCons<T(!new)>(x: T, s: seq<T>, p: T -> bool)
    ensures Filter([x] + s, p) == (if p(x) then [x] else []) + Filter(s, p)
  {
    assert ([x] + s)[1..] == s;
  }

  /** Filtering a repetition-free sequence leaves it repetition-free. */
  lemma {:induction false} FilterDistinct<T(!new)>(s: seq<T>, p: T -> bool)
    requires Distinct(s)
    ensures Distinct(Filter(s, p))
    decreases |s|
  {
    if s != [] {
      DistinctCons(s);
      FilterDistinct(s[1..], p);
      if p(s[0]) {
        DistinctConsBuild(s[0], Filter(s[1..], p));
      }
    }
  }

  /** A sequence with a head is repetition-free exactly when its head does not
      recur and its tail is repetition-free. */
  lemma DistinctCons<T>(s: seq<T>)
    requires s != []
    ensures Distinct(s) <==> s[0] !in s[1..] && Distinct(s[1..])
  {
    var t := s[1..];
    assert forall j :: 0 <= j < |t| ==> t[j] == s[j + 1];
    if s[0] !in t && Distinct(t) {
      forall i, j | 0 <= i < j < |s| ensures s[i] != s[j] {
        if i > 0 {
          assert s[i] == t[i - 1] && s[j] == t[j - 1];
        } else {
          assert s[j] in t;
        }
      }
    }
    if Distinct(s) {
      forall i, j | 0 <= i < j < |t| ensures t[i] != t[j] {
        assert t[i] == s[i + 1] && t[j] == s[j + 1];
      }
    }
  }

  lemma DistinctConsBuild<T>(x: T, t: seq<T>)
    requires x !in t && Distinct(t)
    ensures Distinct([x] + t)
  {
    DistinctCons([x] + t);
    assert ([x] + t)[1..] == t;
  }

  /** The set of elements of `s`. */
  function Elems<T(==,!new)>(s: seq<T>): (r: set<T>)
    ensures forall x :: x in r <==> x in s
    decreases |s|
  {
    if s == [] then {} else {s[0]} + Elems(s[1..])
  }

  /** A sequence is repetition-free exactly when it has as many distinct
      elements as positions. */
  lemma {:induction false} DistinctIffCard<T(!new)>(s: seq<T>)
    ensures |Elems(s)| <= |s|
    ensures Distinct(s) <==> |Elems(s)| == |s|
    decreases |s|
  {
    if s != [] {
      var t := s[1..];
      DistinctIffCard(t);
      DistinctCons(s);
      if s[0] in t {
        assert Elems(s) == Elems(t);
      } else {
        assert Elems(s) == Elems(t) + {s[0]};
      }
    }
  }

  /** A permutation of a repetition-free sequence is repetition-free. */
  lemma PermutationDistinct<T(!new)>(a: seq<T>, b: seq<T>)
    requires multiset(a) == multiset(b) && Distinct(a)
    ensures Distinct(b)
  {
    assert |a| == |multiset(a)| == |multiset(b)| == |b|;
    assert Elems(a) == Elems(b) by {
      forall x ensures x in a <==> x in b {
        assert x in a <==> x in multiset(a);
        assert x in b <==> x in multiset(b);
      }
    }
    DistinctIffCard(a);
    DistinctIffCard(b);
  }
  /** Every element of a subsequence is an element of the sequence. */
  lemma {:induction false} SubseqMembers<T(!new)>(a: seq<T>, b: seq<T>)
    requires IsSubseq(a, b)
    ensures forall x :: x in a ==> x in b
    decreases |b|
  {
    if a != [] {
      if a[0] == b[0] && IsSubseq(a[1..], b[1..]) {
        SubseqMembers(a[1..], b[1..]);
        assert a == [a[0]] + a[1..];
      } else {
        SubseqMembers(a, b[1..]);
      }
      assert forall x :: x in b[1..] ==> x in b;
    }
  }

  /** Two filters in a row are one filter by the conjunction. */
  lemma {:induction false} FilterThen<T(!new)>(s: seq<T>, p: T -> bool, q: T -> bool, pq: T -> bool)
    requires forall x :: pq(x) == (p(x) && q(x))
    ensures Filter(Filter(s, p), q) == Filter(s, pq)
    decreases |s|
  {
    if s != [] {
      FilterThen(s[1..], p, q, pq);
      if p(s[0]) {
        assert Filter(s, p) == [s[0]] + Filter(s[1..], p);
        assert ([s[0]] + Filter(s[1..], p))[1..] == Filter(s[1..], p);
      }
    }
  }

  /** Dropping a prefix of the larger sequence keeps a subsequence a
      subsequence of the whole. */
  lemma {:induction false} SubseqOfSuffix<T>(a: seq<T>, b: seq<T>, n: nat)
    requires n <= |b| && IsSubseq(a, b[n..])
    ensures IsSubseq(a, b)
    decreases n
  {
    if n > 0 {
      assert b[1..][n - 1..] == b[n..];
      SubseqOfSuffix(a, b[1..], n - 1);
    }
  }
}

=== FILE: sidebar.dfy ===
/** The category sidebar (src/renderer/js/ui/sidebar.js): per-group item
    counts computed when a playlist loads, and the group rows shown for the
    active content type. The DOM is replaced by the list of rows it would
    show. */
module Sidebar {
  import opened Wrappers
  import opened Content

  const All := "all"

  /** A count table, read as `counts[g] || 0`. */
  function Lookup(m: map<string, nat>, g: string): nat {
    if g in m then m[g] else 0
  }

  /** The number of items whose group is `g`. */
  function Count(items: seq<Item>, g: string): (n: nat)
    ensures n <= |items|
  {
    if items == [] then 0
    else (if items[0].group == g then 1 else 0) + Count(items[1..], g)
  }

  /** The loop body `counts[it.group] = (counts[it.group] || 0) + 1`, over the
      items in order. */
  function Tally(items: seq<Item>, m: map<string, nat>): map<string, nat> {
    if items == [] then m
    else Tally(items[1..], m[items[0].group := Lookup(m, items[0].group) + 1])
  }

  /** Tallying adds each group's count to what the table held. */
  lemma {:induction false} TallyCounts(items: seq<Item>, m: map<string, nat>, g: string)
    ensures Lookup(Tally(items, m), g) == Lookup(m, g) + Count(items, g)
    decreases |items|
  {
    if items != [] {
      TallyCounts(items[1..], m[items[0].group := Lookup(m, items[0].group) + 1], g);
    }
  }

  /** A missing list reads as empty (`list || []`). */
  function OrEmpty<T>(list: Option<seq<T>>): (r: seq<T>)
    ensures list.None? ==> r == []
    ensures list.Some? ==> r == list.value
  {
    list.GetOr([])
  }

  /** The count table `onPlaylistLoaded` builds for one content type: `all`
      holds the number of items (plus any item whose group is literally
      `all`), every other group the number of its items. */
  function Counts(items: seq<Item>): (m: map<string, nat>)
    ensures All in m && m[All] == |items| + Count(items, All)
    ensures forall g :: g != All ==> Lookup(m, g) == Count(items, g)
  {
    var m := Tally(items, map[All := |items|]);
    TallyCounts(items, map[All := |items|], All);
    forall g | g != All
      ensures Lookup(m, g) == Count(items, g)
    {
      TallyCounts(items, map[All := |items|], g);
    }
    m
  }

  /** The `playlist-loaded` event's payload; any field may be missing. */
  datatype Loaded = Loaded(
    channels: Option<seq<Item>>, groups: Option<seq<string>>,
    vods: Option<seq<Item>>, vodGroups: Option<seq<string>>,
    series: Option<seq<Item>>, seriesGroups: Option<seq<string>>)

  datatype Panel = Panel(
    activeCategory: string, activeType: string,
    groups: seq<string>, vodGroups: seq<string>, seriesGroups: seq<string>,
    channelCounts: map<string, nat>, vodCounts: map<string, nat>, seriesCounts: map<string, nat>)

  /** The constructor's state. */
  function Initial(): Panel {
    Panel(All, "live", [], [], [], map[], map[], map[])
  }

  /** `onPlaylistLoaded`: the three group lists and count tables are replaced;
      the active category and type are kept. */
  function OnPlaylistLoaded(p: Panel, e: Loaded): (r: Panel)
    ensures r.activeCategory == p.activeCategory && r.activeType == p.activeType
    ensures r.groups == OrEmpty(e.groups) && r.vodGroups == OrEmpty(e.vodGroups)
    ensures r.seriesGroups == OrEmpty(e.seriesGroups)
    ensures Lookup(r.channelCounts, All) == |OrEmpty(e.channels)| + Count(OrEmpty(e.channels), All)
    ensures Lookup(r.vodCounts, All) == |OrEmpty(e.vods)| + Count(OrEmpty(e.vods), All)
    ensures Lookup(r.seriesCounts, All) == |OrEmpty(e.series)| + Count(OrEmpty(e.series), All)
    ensures forall g :: g != All ==> Lookup(r.channelCounts, g) == Count(OrEmpty(e.channels), g)
    ensures forall g :: g != All ==> Lookup(r.vodCounts, g) == Count(OrEmpty(e.vods), g)
    ensures forall g :: g != All ==> Lookup(r.seriesCounts, g) == Count(OrEmpty(e.series), g)
  {
    Panel(p.activeCategory, p.activeType,
      OrEmpty(e.groups), OrEmpty(e.vodGroups), OrEmpty(e.seriesGroups),
      Counts(OrEmpty(e.channels)), Counts(OrEmpty(e.vods)), Counts(OrEmpty(e.series)))
  }

  /** The groups and counts of the active type: VOD, series, or otherwise
      live. */
  function Current(p: Panel): (seq<string>, map<string, nat>) {
    if p.activeType == "vod" then (p.vodGroups, p.vodCounts)
    else if p.activeType == "series" then (p.seriesGroups, p.seriesCounts)
    else (p.groups, p.channelCounts)
  }

  /** One sidebar row: a group and its badge. */
  datatype Row = Row(group: string, count: nat)

  /** `render`: a row per group of the active type, in list order, with the
      group's count or zero when it has none. */
  function Render(p: Panel): (rows: seq<Row>)
    ensures |rows| == |Current(p).0|
    ensures forall i :: 0 <= i < |rows| ==>
      rows[i].group == Current(p).0[i] && rows[i].count == Lookup(Current(p).1, Current(p).0[i])
  {
    var (groups, counts) := Current(p);
    seq(|groups|, i requires 0 <= i < |groups| => Row(groups[i], Lookup(counts, groups[i])))
  }

  /** `setContentType`: switches the type and goes back to every category. */
  function SetContentType(p: Panel, kind: string): (r: Panel)
    ensures r.activeType == kind && r.activeCategory == All
    ensures r.(activeType := p.activeType, activeCategory := p.activeCategory) == p
  {
    p.(activeType := kind, activeCategory := All)
  }

  /** `select`: only the active category changes. */
  function Select(p: Panel, category: string): (r: Panel)
    ensures r.activeCategory == category
    ensures r.(activeCategory := p.activeCategory) == p
  {
    p.(activeCategory := category)
  }

  /** `updateBadges`: the "all" badge of the active type, `counts['all'] || 0`. */
  function AllBadge(p: Panel): nat {
    Lookup(Current(p).1, All)
  }

  /** The items of a content type in a loaded payload. */
  function ItemsOfType(e: Loaded, kind: string): seq<Item> {
    if kind == "vod" then OrEmpty(e.vods)
    else if kind == "series" then OrEmpty(e.series)
    else OrEmpty(e.channels)
  }

  /** After a load and a switch of type, the "all" badge shows the number of
      that type's items and every row the number of its items in its group
      (a group literally named `all` counting twice towards the badge). */
  lemma RowsCountItems(p: Panel, e: Loaded, kind: string)
    ensures var q := SetContentType(OnPlaylistLoaded(p, e), kind);
            AllBadge(q) == |ItemsOfType(e, kind)| + Count(ItemsOfType(e, kind), All)
    ensures var rows := Render(SetContentType(OnPlaylistLoaded(p, e), kind));
            forall i :: 0 <= i < |rows| && rows[i].group != All ==>
              rows[i].count == Count(ItemsOfType(e, kind), rows[i].group)
  {
  }
}

=== FILE: store.dfy ===
/** The persisted application state of src/main/store.js as a record, and
    its update operations as state-in/state-out functions. The clock
    (`Date.now()`) and the random part of new playlist ids are parameters;
    the on-disk store itself is not modelled. */
module Store {
  import opened Wrappers
  import opened Strings
  import opened Ordering
  import opened Seqs
  import Numerals

  // ---- Records ----

  datatype XtreamLogin = XtreamLogin(server: string, username: string, password: string)

  datatype Playlist = Playlist(
    id: string,
    name: string,
    url: string,
    kind: string,
    addedAt: nat,
    xtream: Option<XtreamLogin>)

  /** What the player passes to `addToHistory`. */
  datatype Watched = Watched(
    channelId: string,
    channelName: string,
    logo: Option<string>,
    group: Option<string>,
    url: string)

  datatype HistoryEntry = HistoryEntry(
    channelId: string,
    channelName: string,
    logo: string,
    group: string,
    url: string,
    watchedAt: nat)

  /** A resume point; entries written by older versions may lack `savedAt`. */
  datatype Position = Position(position: real, duration: real, savedAt: Option<int>)

  /** The `playbackPositions` object: its keys in enumeration order and its
      entries. */
  datatype Positions = Positions(keys: seq<string>, at: map<string, Position>)

  datatype Setting = Number(number: real) | Text(text: string) | Flag(flag: bool)

  datatype State = State(
    playlists: seq<Playlist>,
    activePlaylistId: Option<string>,
    favorites: seq<string>,
    history: seq<HistoryEntry>,
    positions: Positions,
    settings: Option<map<string, Setting>>)

  const MaxHistory: nat := 50
  const MaxPositions: nat := 200

  // ---- Playlists ----

  /** `addPlaylist`: appends one entry whose id is the clock in base 36
      followed by five random characters; the type defaults to `'m3u'`, and
      the credentials are kept only for an Xtream playlist that came with
      them. The clock is read twice, once for the id (`idClock`) and once for
      `addedAt` (`clock`). Nothing else changes. */
  function AddPlaylist(st: State, url: string, name: string, kind: Option<string>,
                       data: Option<XtreamLogin>, idClock: nat, clock: nat, noise: string): (r: (State, Playlist))
    ensures r.0 == st.(playlists := st.playlists + [r.1])
    ensures r.1.id == Numerals.Base36(idClock) + noise && r.1.addedAt == clock
    ensures r.1.name == name && r.1.url == url
    ensures r.1.kind == kind.GetOr("m3u")
    ensures r.1.xtream.Some? <==> kind == Some("xtream") && data.Some?
    ensures r.1.xtream.Some? ==> r.1.xtream == data
  {
    var k := kind.GetOr("m3u");
    var entry := Playlist(Numerals.Base36(idClock) + noise, name, url, k, clock,
      if k == "xtream" && data.Some? then data else None);
    (st.(playlists := st.playlists + [entry]), entry)
  }

  /** Removing a playlist just added under a fresh id, one that is neither
      stored nor active, gives back the state before the addition. */
  lemma AddThenRemove(st: State, url: string, name: string, kind: Option<string>,
                      data: Option<XtreamLogin>, idClock: nat, clock: nat, noise: string)
    requires forall i :: 0 <= i < |st.playlists| ==> st.playlists[i].id != Numerals.Base36(idClock) + noise
    requires st.activePlaylistId != Some(Numerals.Base36(idClock) + noise)
    ensures var r := AddPlaylist(st, url, name, kind, data, idClock, clock, noise);
            RemovePlaylist(r.0, r.1.id) == st
  {
    var r := AddPlaylist(st, url, name, kind, data, idClock, clock, noise);
    var keep := (p: Playlist) => p.id != r.1.id;
    FilterSnoc(st.playlists, r.1, keep);
    FilterAll(st.playlists, keep);
  }

  /** `removePlaylist`: every playlist with the id goes, the others stay in
      order, and the active playlist is cleared exactly when it was this one. */
  function RemovePlaylist(st: State, id: string): (r: State)
    ensures forall i :: 0 <= i < |r.playlists| ==> r.playlists[i].id != id
    ensures forall p :: p in st.playlists && p.id != id ==> p in r.playlists
    ensures forall p :: p in r.playlists ==> p in st.playlists
    ensures r.activePlaylistId.None? <==> st.activePlaylistId.None? || st.activePlaylistId == Some(id)
    ensures r.activePlaylistId.Some? ==> r.activePlaylistId == st.activePlaylistId
    ensures r == st.(playlists := r.playlists, activePlaylistId := r.activePlaylistId)
  {
    st.(playlists := Filter(st.playlists, (p: Playlist) => p.id != id),
        activePlaylistId := if st.activePlaylistId == Some(id) then None else st.activePlaylistId)
  }

  /** The playlists that survive a removal are in their old order. */
  lemma RemovePlaylistKeepsOrder(st: State, id: string)
    ensures IsSubseq(RemovePlaylist(st, id).playlists, st.playlists)
  {
    FilterSubseq(st.playlists, (p: Playlist) => p.id != id);
  }

  // ---- Favourites ----

  /** The index of the first occurrence of `x`: `indexOf`. */
  function FirstIndex(xs: seq<string>, x: string): (r: Option<nat>)
    ensures r.Some? ==> r.value < |xs| && xs[r.value] == x && forall j :: 0 <= j < r.value ==> xs[j] != x
    ensures r.None? <==> x !in xs
  {
    FindFirst(xs, (y: string) => y == x)
  }

  /** `toggleFavorite`: an absent id is appended, otherwise its first
      occurrence is removed; the flag says whether the id is now a favourite.
      Other ids keep their membership, and a repetition-free list stays so. */
  function ToggleFavorite(st: State, id: string): (r: (State, bool))
    ensures r.0 == st.(favorites := r.0.favorites)
    ensures r.1 <==> id !in st.favorites
    ensures id !in st.favorites ==> r.0.favorites == st.favorites + [id]
    ensures id in st.favorites ==>
      |r.0.favorites| == |st.favorites| - 1 && multiset(r.0.favorites) == multiset(st.favorites) - multiset{id}
    ensures forall x :: x != id ==> (x in r.0.favorites <==> x in st.favorites)
    ensures Distinct(st.favorites) ==> Distinct(r.0.favorites) && (id in r.0.favorites <==> r.1)
  {
    var favs := st.favorites;
    match FirstIndex(favs, id)
    case None =>
      AppendedDistinct(favs, id);
      (st.(favorites := favs + [id]), true)
    case Some(i) =>
      var rest := favs[..i] + favs[i + 1..];
      assert favs == favs[..i] + [id] + favs[i + 1..];
      assert multiset(favs) == multiset(favs[..i]) + multiset{id} + multiset(favs[i + 1..]);
      RemovedElsewhere(favs, i);
      (st.(favorites := rest), false)
  }

  lemma AppendedDistinct(xs: seq<string>, x: string)
    requires x !in xs
    ensures Distinct(xs) ==> Distinct(xs + [x])
  {
    if Distinct(xs) {
      forall i, j | 0 <= i < j < |xs + [x]| ensures (xs + [x])[i] != (xs + [x])[j] {
        if j == |xs| {
          assert xs[i] in xs;
        }
      }
    }
  }

  /** Removing one position keeps every other value's membership, and removes
      the value itself from a repetition-free list. */
  lemma RemovedElsewhere(xs: seq<string>, i: nat)
    requires i < |xs|
    ensures var rest := xs[..i] + xs[i + 1..];
            && (forall x :: x != xs[i] ==> (x in rest <==> x in xs))
            && (Distinct(xs) ==> Distinct(rest) && xs[i] !in rest)
  {
    var rest := xs[..i] + xs[i + 1..];
    assert forall k :: 0 <= k < |rest| ==> rest[k] == if k < i then xs[k] else xs[k + 1];
    forall x | x != xs[i] && x in xs ensures x in rest {
      var k :| 0 <= k < |xs| && xs[k] == x;
      if k < i {
        assert rest[k] == x;
      } else {
        assert rest[k - 1] == x;
      }
    }
  }

  /** Toggling an absent id twice gives back the list it started from. */
  lemma ToggleFavoriteTwice(st: State, id: string)
    requires id !in st.favorites
    ensures ToggleFavorite(ToggleFavorite(st, id).0, id).0 == st
  {
    var favs := st.favorites + [id];
    assert favs[|st.favorites|] == id;
    assert forall j :: 0 <= j < |st.favorites| ==> favs[j] == st.favorites[j];
    assert favs[..|st.favorites|] + favs[|st.favorites| + 1..] == st.favorites;
  }

  // ---- History ----

  /** The entry `addToHistory` records: `logo` and `group` default to `''`. */
  function Record(e: Watched, now: nat): HistoryEntry {
    HistoryEntry(e.channelId, e.channelName, Or(e.logo, ""), Or(e.group, ""), e.url, now)
  }

  /** The earlier entries for other channels, in order. */
  function Others(h: seq<HistoryEntry>, channelId: string): seq<HistoryEntry> {
    Filter(h, (x: HistoryEntry) => x.channelId != channelId)
  }

  /** `addToHistory`: the new entry first, then the entries of the other
      channels in their old order, cut to fifty; nothing else changes. */
  function AddToHistory(st: State, e: Watched, now: nat): (r: State)
    ensures r == st.(history := r.history)
    ensures 1 <= |r.history| <= MaxHistory
    ensures r.history[0] == Record(e, now)
    ensures forall i :: 1 <= i < |r.history| ==> r.history[i].channelId != e.channelId
    ensures |r.history| == if |Others(st.history, e.channelId)| < MaxHistory then 1 + |Others(st.history, e.channelId)| else MaxHistory
    ensures r.history[1..] == Others(st.history, e.channelId)[..|r.history| - 1]
  {
    var h := [Record(e, now)] + Others(st.history, e.channelId);
    var capped := if |h| > MaxHistory then h[..MaxHistory] else h;
    assert capped[1..] == Others(st.history, e.channelId)[..|capped| - 1];
    st.(history := capped)
  }

  /** A history whose entries have distinct channels keeps that property. */
  lemma AddToHistoryDistinct(st: State, e: Watched, now: nat)
    requires forall i, j :: 0 <= i < j < |st.history| ==> st.history[i].channelId != st.history[j].channelId
    ensures var h := AddToHistory(st, e, now).history;
            forall i, j :: 0 <= i < j < |h| ==> h[i].channelId != h[j].channelId
  {
    var h := AddToHistory(st, e, now).history;
    var o := Others(st.history, e.channelId);
    FilterSubseq(st.history, (x: HistoryEntry) => x.channelId != e.channelId);
    SubseqChannelsDistinct(o, st.history);
    forall i, j | 0 <= i < j < |h| ensures h[i].channelId != h[j].channelId {
      if i > 0 {
        assert h[i] == o[i - 1] && h[j] == o[j - 1];
      }
    }
  }

  predicate ChannelsDistinct(h: seq<HistoryEntry>) {
    forall i, j :: 0 <= i < j < |h| ==> h[i].channelId != h[j].channelId
  }

  /** A subsequence of a history with distinct channels has distinct
      channels. */
  lemma {:induction false} SubseqChannelsDistinct(a: seq<HistoryEntry>, b: seq<HistoryEntry>)
    requires IsSubseq(a, b) && ChannelsDistinct(b)
    ensures ChannelsDistinct(a)
    decreases |b|
  {
    if a != [] {
      assert ChannelsDistinct(b[1..]) by {
        forall i, j | 0 <= i < j < |b[1..]| ensures b[1..][i].channelId != b[1..][j].channelId {
          assert b[1..][i] == b[i + 1] && b[1..][j] == b[j + 1];
        }
      }
      if a[0] == b[0] && IsSubseq(a[1..], b[1..]) {
        SubseqChannelsDistinct(a[1..], b[1..]);
        SubseqMembers(a[1..], b[1..]);
        forall i, j | 0 <= i < j < |a| ensures a[i].channelId != a[j].channelId {
          if i == 0 {
            assert a[j] == a[1..][j - 1];
            assert a[j] in a[1..];
            var k :| 0 <= k < |b[1..]| && b[1..][k] == a[j];
            assert b[k + 1] == a[j];
          } else {
            assert a[i] == a[1..][i - 1] && a[j] == a[1..][j - 1];
          }
        }
      } else {
        SubseqChannelsDistinct(a, b[1..]);
      }
    }
  }

  // ---- Playback positions ----

  /** The keys enumerate the entries, each once. */
  predicate ValidPositions(p: Positions) {
    Distinct(p.keys) && Elems(p.keys) == p.at.Keys
  }

  /** `position / duration`, or 0 for a duration that is not positive. */
  function Progress(position: real, duration: real): real {
    if duration > 0.0 then position / duration else 0.0
  }

  /** Started (past 1 %) and not finished (below 95 %). */
  predicate WorthKeeping(position: real, duration: real) {
    0.01 < Progress(position, duration) < 0.95
  }

  /** The eviction order: `savedAt`, a missing stamp counting as 0. */
  function Age(p: Positions): string -> int {
    (k: string) => if k in p.at then p.at[k].savedAt.GetOr(0) else 0
  }

  /** `positions[id] = v`: a new key goes last, an existing one keeps its
      place. */
  function Put(p: Positions, id: string, v: Position): (r: Positions)
    requires ValidPositions(p)
    ensures ValidPositions(r)
    ensures r.at == p.at[id := v]
    ensures id in p.at ==> r.keys == p.keys
    ensures id !in p.at ==> r.keys == p.keys + [id]
  {
    if id in p.at then Positions(p.keys, p.at[id := v])
    else
      AppendedDistinct(p.keys, id);
      Positions(p.keys + [id], p.at[id := v])
  }

  /** `delete positions[id]`. */
  function Delete(p: Positions, id: string): (r: Positions)
    requires ValidPositions(p)
    ensures ValidPositions(r)
  {
    var keys := Filter(p.keys, (k: string) => k != id);
    FilterDistinct(p.keys, (k: string) => k != id);
    Positions(keys, p.at - {id})
  }

  /** The first half of `savePlaybackPosition`: store the entry if it is
      worth keeping, delete the key otherwise. */
  function Update(p: Positions, id: string, position: real, duration: real, now: int): (r: Positions)
    requires ValidPositions(p)
    ensures ValidPositions(r)
    ensures WorthKeeping(position, duration) ==> id in r.at && r.at[id] == Position(position, duration, Some(now))
    ensures !WorthKeeping(position, duration) ==> id !in r.at
    ensures forall k :: k != id ==> (k in r.at <==> k in p.at)
    ensures forall k :: k in r.at && k != id ==> r.at[k] == p.at[k]
  {
    if WorthKeeping(position, duration) then Put(p, id, Position(position, duration, Some(now)))
    else Delete(p, id)
  }

  /** The entries of `at` whose keys are not in `gone`. */
  function Without(at: map<string, Position>, gone: set<string>): (r: map<string, Position>)
    ensures r.Keys == at.Keys - gone
    ensures forall k :: k in r ==> r[k] == at[k]
  {
    map k | k in at && k !in gone :: at[k]
  }

  /** The keys eviction keeps: those not in `gone`. */
  function Kept(gone: set<string>): string -> bool {
    (k: string) => k !in gone
  }

  /** The second half: above two hundred entries, sort the keys by age and
      delete the first surplus ones. Exactly two hundred remain, untouched,
      and no evicted entry is younger than a kept one. */
  function Evict(p: Positions): (r: Positions)
    requires ValidPositions(p)
    ensures ValidPositions(r)
    ensures |r.keys| == if |p.keys| <= MaxPositions then |p.keys| else MaxPositions
    ensures |p.keys| <= MaxPositions ==> r == p
    ensures forall k :: k in r.at ==> k in p.at && r.at[k] == p.at[k]
    ensures forall k, j :: k in p.at && k !in r.at && j in r.at ==> Age(p)(k) <= Age(p)(j)
  {
    if |p.keys| <= MaxPositions then p
    else
      var sorted := SortBy(p.keys, Age(p));
      var surplus := |p.keys| - MaxPositions;
      var gone := Elems(sorted[..surplus]);
      var keys := Filter(p.keys, Kept(gone));
      var r := Positions(keys, Without(p.at, gone));
      EvictCount(p, sorted, surplus, gone, keys);
      EvictOldest(p, sorted, surplus, gone, r);
      r
  }

  lemma EvictCount(p: Positions, sorted: seq<string>, surplus: nat, gone: set<string>, keys: seq<string>)
    requires ValidPositions(p) && surplus <= |p.keys| == |sorted|
    requires multiset(sorted) == multiset(p.keys)
    requires gone == Elems(sorted[..surplus])
    requires keys == Filter(p.keys, Kept(gone))
    ensures Distinct(keys) && Elems(keys) == p.at.Keys - gone
    ensures |keys| == |p.keys| - surplus
  {
    FilterDistinct(p.keys, Kept(gone));
    assert |keys| == |Elems(keys)| by { DistinctIffCard(keys); }
    assert |p.keys| == |p.at.Keys| by { DistinctIffCard(p.keys); }
    KeptElems(p, gone, keys);
    GoneCount(p, sorted, surplus, gone);
    SubsetDifferenceCard(p.at.Keys, gone);
  }

  /** The kept keys are the object's keys outside `gone`. */
  lemma KeptElems(p: Positions, gone: set<string>, keys: seq<string>)
    requires Elems(p.keys) == p.at.Keys
    requires keys == Filter(p.keys, Kept(gone))
    ensures Elems(keys) == p.at.Keys - gone
  {
    forall k ensures k in Elems(keys) <==> k in p.at.Keys - gone {
      assert Kept(gone)(k) <==> k !in gone;
    }
  }

  /** The evicted keys are keys of the object, `surplus` of them. */
  lemma GoneCount(p: Positions, sorted: seq<string>, surplus: nat, gone: set<string>)
    requires ValidPositions(p) && surplus <= |p.keys| == |sorted|
    requires multiset(sorted) == multiset(p.keys)
    requires gone == Elems(sorted[..surplus])
    ensures gone <= p.at.Keys && |gone| == surplus
  {
    var front := sorted[..surplus];
    assert Distinct(front) by {
      PermutationDistinct(p.keys, sorted);
      assert forall i :: 0 <= i < |front| ==> front[i] == sorted[i];
    }
    assert |gone| == surplus by { DistinctIffCard(front); }
    forall k | k in gone ensures k in p.at.Keys {
      assert k in sorted;
      assert k in multiset(sorted);
    }
  }

  lemma SubsetDifferenceCard(a: set<string>, b: set<string>)
    requires b <= a
    ensures |a - b| == |a| - |b|
  {
    assert a == (a - b) + b;
    assert (a - b) * b == {};
  }

  lemma EvictOldest(p: Positions, sorted: seq<string>, surplus: nat, gone: set<string>, r: Positions)
    requires surplus <= |sorted|
    requires multiset(sorted) == multiset(p.keys) && Elems(p.keys) == p.at.Keys
    requires SortedBy(sorted, Age(p))
    requires gone == Elems(sorted[..surplus])
    requires r.at == Without(p.at, gone)
    ensures forall k, j :: k in p.at && k !in r.at && j in r.at ==> Age(p)(k) <= Age(p)(j)
  {
    forall k, j | k in p.at && k !in r.at && j in r.at ensures Age(p)(k) <= Age(p)(j) {
      assert k in gone;
      var a :| 0 <= a < surplus && sorted[..surplus][a] == k;
      assert j in multiset(p.keys);
      assert j in multiset(sorted);
      var b :| 0 <= b < |sorted| && sorted[b] == j;
      assert forall c :: 0 <= c < surplus ==> sorted[..surplus][c] == sorted[c];
      assert j !in gone;
      assert b >= surplus;
      assert sorted[a] == k;
    }
  }

  /** `savePlaybackPosition`. Nothing but the positions changes. */
  function SavePlaybackPosition(st: State, id: string, position: real, duration: real, now: int): (r: State)
    requires ValidPositions(st.positions)
    ensures r == st.(positions := r.positions)
    ensures ValidPositions(r.positions)
    ensures |r.positions.keys| <= MaxPositions
    ensures |Update(st.positions, id, position, duration, now).keys| > MaxPositions ==> |r.positions.keys| == MaxPositions
    ensures !WorthKeeping(position, duration) ==> id !in r.positions.at
    ensures WorthKeeping(position, duration) && id in r.positions.at ==>
      r.positions.at[id] == Position(position, duration, Some(now))
    ensures forall k :: k in r.positions.at && k != id ==> k in st.positions.at && r.positions.at[k] == st.positions.at[k]
  {
    var u := Update(st.positions, id, position, duration, now);
    st.(positions := Evict(u))
  }

  /** `getPlaybackPosition`. */
  function GetPlaybackPosition(st: State, id: string): Option<Position> {
    if id in st.positions.at then Some(st.positions.at[id]) else None
  }

  /** With fewer than two hundred entries stored, a save is read back
      exactly: the new entry when it is worth keeping, nothing otherwise. */
  lemma SaveThenGet(st: State, id: string, position: real, duration: real, now: int)
    requires ValidPositions(st.positions) && |st.positions.keys| < MaxPositions
    ensures GetPlaybackPosition(SavePlaybackPosition(st, id, position, duration, now), id) ==
      if WorthKeeping(position, duration) then Some(Position(position, duration, Some(now))) else None
  {
    var u := Update(st.positions, id, position, duration, now);
    DistinctIffCard(st.positions.keys);
    DistinctIffCard(u.keys);
    assert u.at.Keys <= st.positions.at.Keys + {id};
    assert |u.at.Keys| <= |st.positions.at.Keys| + 1;
  }

  // ---- Settings ----

  /** The settings in force when none are stored. */
  function DefaultSettings(): map<string, Setting> {
    map["volume" := Number(0.8), "epgRefreshHours" := Number(6.0),
        "defaultView" := Text("grid"), "defaultSort" := Text("default")]
  }

  /** `getSettings`. */
  function Settings(st: State): map<string, Setting> {
    st.settings.GetOr(DefaultSettings())
  }

  /** `updateSettings`: a shallow merge; the keys of `partial` take its
      values, every other setting is kept, and the merged settings are both
      stored and returned. Nothing else changes. */
  function UpdateSettings(st: State, partial: map<string, Setting>): (r: (State, map<string, Setting>))
    ensures r.0 == st.(settings := Some(r.1))
    ensures forall k :: k in partial ==> k in r.1 && r.1[k] == partial[k]
    ensures forall k :: k !in partial ==> (k in r.1 <==> k in Settings(st))
    ensures forall k :: k !in partial && k in r.1 ==> r.1[k] == Settings(st)[k]
  {
    var merged := Settings(st) + partial;
    (st.(settings := Some(merged)), merged)
  }
}

=== FILE: strings.dfy ===
/** String helpers with the semantics of the JavaScript built-ins the program
    relies on (`trim`, `startsWith`, `includes`, `lastIndexOf`, `split`,
    ASCII `toLowerCase`). Strings are sequences of Unicode scalar values. */
module Strings {
  import opened Wrappers

  /** The code points JavaScript's `trim` and the regex class `\s` treat as
      white space (WhiteSpace and LineTerminator of ECMA-262). */
  predicate IsSpace(c: char) {
    || c == ' ' || c == '\t' || c == '\n' || c == '\r'
    || c == '\U{000B}' || c == '\U{000C}' || c == '\U{00A0}' || c == '\U{1680}'
    || ('\U{2000}' <= c <= '\U{200A}')
    || c == '\U{2028}' || c == '\U{2029}' || c == '\U{202F}' || c == '\U{205F}'
    || c == '\U{3000}' || c == '\U{FEFF}'
  }

  /** The code points the regex `.` refuses to match (LineTerminator). */
  predicate IsLineTerminator(c: char) {
    c == '\n' || c == '\r' || c == '\U{2028}' || c == '\U{2029}'
  }

  /** A character of the regex class `\w` (ASCII letters, digits, `_`). */
  predicate IsWordChar(c: char) {
    ('a' <= c <= 'z') || ('A' <= c <= 'Z') || ('0' <= c <= '9') || c == '_'
  }

  predicate IsDigit(c: char) {
    '0' <= c <= '9'
  }

  predicate AllSpace(s: string) {
    forall i :: 0 <= i < |s| ==> IsSpace(s[i])
  }

  /** The end of the white-space run that starts at `i`: where the regex `\s*` stops. */
  function SkipSpace(s: string, i: nat): (j: nat)
    requires i <= |s|
    ensures i <= j <= |s|
    ensures forall k :: i <= k < j ==> IsSpace(s[k])
    ensures j == |s| || !IsSpace(s[j])
    decreases |s| - i
  {
    if i < |s| && IsSpace(s[i]) then SkipSpace(s, i + 1) else i
  }

  /** `s.trimStart()`: drops the leading white space, nothing else. */
  function TrimStart(s: string): (r: string)
    ensures |r| <= |s| && r == s[|s| - |r|..]
    ensures AllSpace(s[..|s| - |r|])
    ensures r == [] || !IsSpace(r[0])
  {
    if |s| > 0 && IsSpace(s[0]) then
      var t := s[1..];
      var r := TrimStart(t);
      assert t[|t| - |r|..] == s[|s| - |r|..];
      var dropped, all := t[..|t| - |r|], s[..|s| - |r|];
      assert forall k :: 1 <= k < |all| ==> all[k] == dropped[k - 1];
      r
    else s
  }

  /** `s.trimEnd()`: drops the trailing white space, nothing else. */
  function TrimEnd(s: string): (r: string)
    ensures |r| <= |s| && r == s[..|r|]
    ensures AllSpace(s[|r|..])
    ensures r == [] || !IsSpace(r[|r| - 1])
  {
    if |s| > 0 && IsSpace(s[|s| - 1]) then
      var t := s[..|s| - 1];
      var r := TrimEnd(t);
      assert t[..|r|] == s[..|r|];
      var dropped, all := t[|r|..], s[|r|..];
      assert forall k :: 0 <= k < |dropped| ==> all[k] == dropped[k];
      assert all[|all| - 1] == s[|s| - 1];
      r
    else s
  }

  /** `s.trim()`. */
  function Trim(s: string): (r: string)
    ensures |r| <= |s|
    ensures r == [] || (!IsSpace(r[0]) && !IsSpace(r[|r| - 1]))
    ensures r == [] <==> AllSpace(s)
  {
    var t := TrimStart(s);
    assert t != [] ==> t[0] == s[|s| - |t|];
    assert t == [] ==> s[..|s|] == s;
    TrimEnd(t)
  }

  /** Where `trim` starts cutting what it keeps. */
  function TrimOffset(s: string): nat {
    |s| - |TrimStart(s)|
  }

  /** `trim` keeps a contiguous slice of the string. */
  lemma TrimIsSlice(s: string)
    ensures TrimOffset(s) + |Trim(s)| <= |s|
    ensures Trim(s) == s[TrimOffset(s)..TrimOffset(s) + |Trim(s)|]
  {
    var t := TrimStart(s);
    PrefixOfSuffix(s, TrimOffset(s), t, TrimEnd(t));
  }

  /** A prefix of a suffix is a slice. */
  lemma PrefixOfSuffix(s: string, o: nat, t: string, r: string)
    requires o <= |s| && t == s[o..] && |r| <= |t| && r == t[..|r|]
    ensures o + |r| <= |s| && r == s[o..o + |r|]
  {
  }

  /** A trimmed string is its own trim. */
  lemma {:induction false} TrimIdempotent(s: string)
    ensures Trim(Trim(s)) == Trim(s)
  {
    var r := Trim(s);
    if r != [] {
      assert TrimStart(r) == r;
      assert TrimEnd(r) == r;
    }
  }

  /** A string with no white space at either end is its own trim. */
  lemma TrimOfTrimmed(s: string)
    requires s == [] || (!IsSpace(s[0]) && !IsSpace(s[|s| - 1]))
    ensures Trim(s) == s
  {
    assert TrimStart(s) == s;
  }

  /** Trimming keeps a prefix that begins and ends with visible characters. */
  lemma TrimKeepsPrefix(s: string, p: string)
    requires StartsWith(s, p) && p != [] && !IsSpace(p[0]) && !IsSpace(p[|p| - 1])
    ensures StartsWith(Trim(s), p)
  {
    assert s[0] == p[0];
    assert TrimStart(s) == s;
    var r := TrimEnd(s);
    assert forall j :: |r| <= j < |s| ==> s[|r|..][j - |r|] == s[j];
    assert s[|p| - 1] == p[|p| - 1];
    assert r[..|p|] == s[..|p|];
  }

  /** A field that may be missing, `null` or empty, read with JavaScript's
      `field || fallback`: an absent or empty string is falsy. */
  function Or(field: Option<string>, fallback: string): string {
    if field.Some? && field.value != "" then field.value else fallback
  }

  /** `s.startsWith(p)`. */
  predicate StartsWith(s: string, p: string) {
    |p| <= |s| && s[..|p|] == p
  }

  /** A string that starts with `p + q` starts with `p`. */
  lemma StartsWithLonger(s: string, p: string, q: string)
    requires StartsWith(s, p + q)
    ensures StartsWith(s, p)
  {
    assert s[..|p|] == s[..|p + q|][..|p|];
  }

  /** Appending keeps a prefix. */
  lemma AppendKeepsPrefix(a: string, b: string, p: string)
    requires StartsWith(a, p)
    ensures StartsWith(a + b, p)
  {
    assert (a + b)[..|p|] == a[..|p|];
  }

  /** `s.endsWith(p)`. */
  predicate EndsWith(s: string, p: string) {
    |p| <= |s| && s[|s| - |p|..] == p
  }

  /** ASCII-only `toLowerCase` of one character. */
  function LowerChar(c: char): (r: char)
    ensures 'A' <= c <= 'Z' ==> r != c && 'a' <= r <= 'z'
    ensures !('A' <= c <= 'Z') ==> r == c
  {
    if 'A' <= c <= 'Z' then (c as int + 32) as char else c
  }

  /** ASCII-only `toLowerCase`. */
  function Lower(s: string): (r: string)
    ensures |r| == |s|
    ensures forall i :: 0 <= i < |s| ==> r[i] == LowerChar(s[i])
  {
    if s == [] then [] else [LowerChar(s[0])] + Lower(s[1..])
  }

  /** `lit` occurs in `s` at index `i`, letters compared case-insensitively
      (the `i` flag of a regex whose pattern is ASCII). */
  predicate MatchesAtCI(s: string, i: nat, lit: string) {
    i + |lit| <= |s| && Lower(s[i..i + |lit|]) == Lower(lit)
  }

  /** `s` starts with `lit`, case-insensitively. */
  predicate StartsWithCI(s: string, lit: string) {
    MatchesAtCI(s, 0, lit)
  }

  /** `s` ends with `lit`, case-insensitively. */
  predicate EndsWithCI(s: string, lit: string) {
    |lit| <= |s| && MatchesAtCI(s, |s| - |lit|, lit)
  }

  /** `s.includes(p)`, computed by scanning from the left. */
  predicate Contains(s: string, p: string) {
    StartsWith(s, p) || (|s| > 0 && Contains(s[1..], p))
  }

  /** Case-insensitive `includes` (a regex made of one literal with the `i` flag). */
  predicate ContainsCI(s: string, p: string) {
    StartsWithCI(s, p) || (|s| > 0 && ContainsCI(s[1..], p))
  }

  /** `p` occurs in `s` at index `i`. */
  predicate OccursAt(s: string, p: string, i: int) {
    0 <= i <= |s| - |p| && s[i..i + |p|] == p
  }

  /** An occurrence at index `i` is either a prefix match or an occurrence
      in the tail one index earlier. */
  lemma OccursStep(s: string, p: string, i: int)
    ensures OccursAt(s, p, i) <==>
      (i == 0 && StartsWith(s, p)) || (i >= 1 && |s| > 0 && OccursAt(s[1..], p, i - 1))
  {
    if i >= 1 && |s| > 0 && i <= |s| - |p| {
      var a, b := s[i..i + |p|], s[1..][i - 1..i - 1 + |p|];
      assert forall k :: 0 <= k < |p| ==> a[k] == b[k];
      assert a == b;
    }
    if i == 0 {
      assert s[0..|p|] == s[..|p|] <== |p| <= |s|;
    }
  }

  /** The scanning definition of `includes` agrees with "occurs at some index". */
  lemma {:induction false} ContainsIffOccurs(s: string, p: string)
    ensures Contains(s, p) <==> exists i :: OccursAt(s, p, i)
  {
    forall i ensures OccursAt(s, p, i) <==>
      (i == 0 && StartsWith(s, p)) || (i >= 1 && |s| > 0 && OccursAt(s[1..], p, i - 1))
    {
      OccursStep(s, p, i);
    }
    if StartsWith(s, p) {
      assert OccursAt(s, p, 0);
    }
    if |s| > 0 {
      ContainsIffOccurs(s[1..], p);
      if Contains(s[1..], p) {
        var j :| OccursAt(s[1..], p, j);
        assert OccursAt(s, p, j + 1);
      }
    }
  }

  /** Index of the first occurrence of `c`, as `indexOf` (with `None` for -1). */
  function IndexOf(s: string, c: char): (r: Option<nat>)
    ensures r.None? <==> c !in s
    ensures r.Some? ==> r.value < |s| && s[r.value] == c && c !in s[..r.value]
  {
    if s == [] then None
    else if s[0] == c then Some(0)
    else match IndexOf(s[1..], c)
      case None => None
      case Some(i) => Some(i + 1)
  }

  /** Index of the last occurrence of `c`, as `lastIndexOf` (with `None` for -1). */
  function LastIndexOf(s: string, c: char): (r: Option<nat>)
    ensures r.None? <==> c !in s
    ensures r.Some? ==> r.value < |s| && s[r.value] == c && c !in s[r.value + 1..]
  {
    if s == [] then None
    else if s[|s| - 1] == c then Some(|s| - 1)
    else LastIndexOf(s[..|s| - 1], c)
  }

  /** The inverse of `Split`: the parts glued back with the separator. */
  function Join(parts: seq<string>, sep: char): string
    requires |parts| >= 1
  {
    if |parts| == 1 then parts[0] else parts[0] + [sep] + Join(parts[1..], sep)
  }

  /** `s.split(sep)` for a one-character separator: never empty, no part
      contains the separator, and joining the parts gives `s` back. */
  function Split(s: string, sep: char): (parts: seq<string>)
    ensures |parts| >= 1
    ensures forall i :: 0 <= i < |parts| ==> sep !in parts[i]
    ensures Join(parts, sep) == s
    decreases |s|
  {
    match IndexOf(s, sep)
    case None => [s]
    case Some(i) =>
      var rest := Split(s[i + 1..], sep);
      assert s == s[..i] + [sep] + s[i + 1..];
      [s[..i]] + rest
  }

  /** `s.replace(/\r\n/g, '\n')`: every CR LF pair found scanning from the
      left becomes one LF; nothing else changes. */
  function NormalizeNewlines(s: string): (r: string)
    ensures |r| <= |s|
    ensures '\r' !in s ==> r == s
    ensures forall c :: c in r ==> c in s
  {
    if |s| >= 2 && s[0] == '\r' && s[1] == '\n' then "\n" + NormalizeNewlines(s[2..])
    else if s == [] then []
    else [s[0]] + NormalizeNewlines(s[1..])
  }

  /** A stretch without CR passes through the replacement unchanged. */
  lemma {:induction false} NormalizeNewlinesPrefix(p: string, x: string)
    requires '\r' !in p
    ensures NormalizeNewlines(p + x) == p + NormalizeNewlines(x)
  {
    if p != [] {
      assert (p + x)[1..] == p[1..] + x;
      NormalizeNewlinesPrefix(p[1..], x);
      assert p == [p[0]] + p[1..];
    } else {
      assert p + x == x;
    }
  }

  /** The first part of a split keeps a prefix free of the separator. */
  lemma SplitKeepsPrefix(s: string, sep: char, p: string)
    requires StartsWith(s, p) && sep !in p
    ensures StartsWith(Split(s, sep)[0], p)
  {
    match IndexOf(s, sep)
    case None =>
    case Some(i) =>
      assert forall j :: 0 <= j < |p| ==> s[j] == p[j];
      assert s[..i][..|p|] == p;
  }

  /** The replacement is a single left-to-right pass: a CR before a CR LF pair
      survives and meets the LF, so the result may still hold a CR LF pair. */
  lemma NormalizeNewlinesSinglePass()
    ensures NormalizeNewlines("\r\r\n") == "\r\n"
  {
    assert NormalizeNewlines("\r\n") == "\n";
  }
}

=== FILE: wrappers.dfy ===
/** Failure-carrying datatypes shared by every module of the model. */
module Wrappers {

  /** A value that may be absent (JavaScript's `null`/`undefined`). */
  datatype Option<T> = None | Some(value: T) {
    function GetOr(default: T): T {
      match this
      case Some(v) => v
      case None => default
    }
  }

  /** The outcome of an operation that either returns a value or raises an error. */
  datatype Result<T, E> = Ok(value: T) | Err(error: E)

  /** The settled value of a promise handed to the model by a collaborator
      (a network fetch, an IPC call): it resolved with a value, or it rejected. */
  datatype Fetched<T> = Got(value: T) | Threw
}

=== FILE: xml_scan.dfy ===
/** The lenient tag extraction of the XMLTV parser (src/main/epg-parser.js):
    each regular expression there is a fixed sequence of literals, white-space
    runs, "anything up to the first `c`" runs (`[^c]*c`) and lazy "anything up
    to the first `lit`" runs (`[\s\S]*?lit`). None of them can backtrack into
    a different match at a given start, so a regex is a partial function of
    the start index; `match` takes the leftmost start and a global `exec`
    loop resumes at the end of each match. */
module XmlScan {
  import opened Wrappers
  import opened Strings

  /** `lit` occurs in `s` at index `i`. */
  predicate LitAt(s: string, i: nat, lit: string) {
    i + |lit| <= |s| && s[i..i + |lit|] == lit
  }

  /** The first index at or after `i` that holds `c`: where `[^c]*c` stops. */
  function CharFrom(s: string, i: nat, c: char): (r: Option<nat>)
    ensures r.Some? ==> i <= r.value < |s| && s[r.value] == c
    ensures r.Some? ==> forall k :: i <= k < r.value ==> s[k] != c
    ensures r.None? ==> forall k :: i <= k < |s| ==> s[k] != c
    decreases |s| - i
  {
    if i >= |s| then None
    else if s[i] == c then Some(i)
    else CharFrom(s, i + 1, c)
  }

  /** The first index at or after `i` where `lit` occurs: where `[\s\S]*?lit`
      stops. */
  function LitFrom(s: string, i: nat, lit: string): (r: Option<nat>)
    ensures r.Some? ==> i <= r.value && LitAt(s, r.value, lit)
    ensures r.Some? ==> forall k :: i <= k < r.value ==> !LitAt(s, k, lit)
    ensures r.None? ==> forall k :: i <= k ==> !LitAt(s, k, lit)
    decreases |s| - i
  {
    if i + |lit| > |s| then None
    else if LitAt(s, i, lit) then Some(i)
    else LitFrom(s, i + 1, lit)
  }

  /** A regex match: the captured value and the index just after the match. */
  datatype Match<T> = Match(value: T, end: nat)

  /** `\s+name="([^"]*)"` at index `i`: the quoted value. */
  function SpacedAttr(s: string, i: nat, name: string): (r: Option<Match<string>>)
    ensures r.Some? ==> i < r.value.end <= |s|
    ensures r.Some? ==> '"' !in r.value.value
  {
    if i < |s| && IsSpace(s[i]) then
      var j := SkipSpace(s, i);
      var v := j + |name| + 2;
      if LitAt(s, j, name + "=\"") then
        match CharFrom(s, v, '"')
        case Some(q) =>
          assert forall k :: 0 <= k < q - v ==> s[v..q][k] == s[v + k];
          Some(Match(s[v..q], q + 1))
        case None => None
      else None
    else None
  }

  /** `[^>]*>` from index `i`, then a lazy run up to `</tag>`: the element
      body between the end of the start tag and the end tag. */
  function Body(s: string, i: nat, closing: string): (r: Option<Match<string>>)
    requires closing != []
    ensures r.Some? ==> i < r.value.end <= |s| && |closing| <= r.value.end
    ensures r.Some? ==> LitAt(s, r.value.end - |closing|, closing)
    ensures r.Some? ==> forall k :: 0 <= k < |r.value.value| ==> !LitAt(r.value.value, k, closing)
  {
    match CharFrom(s, i, '>')
    case None => None
    case Some(g) =>
      match LitFrom(s, g + 1, closing)
      case None => None
      case Some(c) =>
        var body := s[g + 1..c];
        forall k | 0 <= k < |body| && LitAt(body, k, closing)
          ensures false
        {
          LitAtSlice(s, g + 1, c, k, closing);
        }
        Some(Match(body, c + |closing|))
  }

  /** An occurrence inside a slice is an occurrence in the whole string. */
  lemma LitAtSlice(s: string, a: nat, b: nat, k: nat, lit: string)
    requires a <= b <= |s| && LitAt(s[a..b], k, lit)
    ensures LitAt(s, a + k, lit)
  {
    var t := s[a..b][k..k + |lit|];
    assert forall j :: 0 <= j < |t| ==> t[j] == s[a + k + j];
  }

  /** The leftmost start in `[i, n]` at which `at` matches: what `match` and
      each round of `exec` return. */
  function Leftmost<T>(n: nat, i: nat, at: nat -> Option<T>): (r: Option<(nat, T)>)
    requires i <= n + 1
    ensures r.Some? ==> i <= r.value.0 <= n && at(r.value.0) == Some(r.value.1)
    ensures r.Some? ==> forall k :: i <= k < r.value.0 ==> at(k).None?
    ensures r.None? ==> forall k :: i <= k <= n ==> at(k).None?
    decreases n + 1 - i
  {
    if i > n then None
    else match at(i)
      case Some(v) => Some((i, v))
      case None => Leftmost(n, i + 1, at)
  }

  /** `while ((m = re.exec(s)) !== null)` over a string of length `n`: every
      match from index `i` on, each search resuming where the last match
      ended. */
  function ExecAll<T>(n: nat, i: nat, at: nat -> Option<Match<T>>): (ms: seq<T>)
    requires i <= n + 1
    requires forall p: nat :: at(p).Some? ==> p < at(p).value.end <= n + 1
    ensures |ms| <= n + 1 - i
    decreases n + 1 - i
  {
    match Leftmost(n, i, at)
    case None => []
    case Some((p, m)) => [m.value] + ExecAll(n, m.end, at)
  }

  /** `<tag[^>]*>([^<]*)</tag>` at index `p`: the text of a text-only element. */
  function TagTextAt(s: string, p: nat, tag: string): (r: Option<string>)
    ensures r.Some? ==> '<' !in r.value
  {
    if LitAt(s, p, "<" + tag) then
      match CharFrom(s, p + 1 + |tag|, '>')
      case None => None
      case Some(g) =>
        match CharFrom(s, g + 1, '<')
        case None => None
        case Some(l) =>
          if LitAt(s, l, "</" + tag + ">") then
            var text := s[g + 1..l];
            assert forall k :: 0 <= k < |text| ==> text[k] == s[g + 1 + k];
            Some(text)
          else None
    else None
  }

  /** `s.match(/<tag[^>]*>([^<]*)<\/tag>/)`: the text of the leftmost match. */
  function FirstTagText(s: string, tag: string): (r: Option<string>)
    ensures r.Some? <==> exists p :: 0 <= p <= |s| && TagTextAt(s, p, tag).Some?
    ensures r.Some? ==> '<' !in r.value
  {
    var at := (p: nat) => TagTextAt(s, p, tag);
    match Leftmost(|s|, 0, at)
    case None =>
      forall p: nat | p <= |s| ensures TagTextAt(s, p, tag).None? {
        assert at(p).None?;
      }
      None
    case Some((p, text)) => Some(text)
  }
}

=== FILE: xmltv_date.dfy ===
/** `parseXmltvDate` (src/main/epg-parser.js): the XMLTV compact date
    `YYYYMMDDhhmmss` read as UTC through `Date.UTC`, then shifted by the first
    `+hhmm`/`-hhmm` offset of the string through `setUTCMinutes`. Time values
    are integer milliseconds since 1970-01-01T00:00:00Z. Every division below
    has a positive divisor, where Dafny's `/` and `%` are floor division and
    its non-negative remainder, as ECMA-262's `floor` and `modulo` are. */
module XmltvDate {
  import opened Wrappers
  import opened Strings

  const MsPerSecond: int := 1000
  const MsPerMinute: int := 60_000
  const MsPerHour: int := 3_600_000
  const MsPerDay: int := 86_400_000

  /** ECMA-262's bound on time values: beyond it `TimeClip` gives NaN. */
  const MaxTimeValue: int := 8_640_000_000_000_000

  /** `n` decimal digits at index `i`. */
  predicate DigitsAt(s: string, i: nat, n: nat) {
    i + n <= |s| && forall k :: i <= k < i + n ==> IsDigit(s[k])
  }

  function Pow10(n: nat): nat {
    if n == 0 then 1 else 10 * Pow10(n - 1)
  }

  /** `parseInt(s.substring(i, i + n), 10)` on `n` digits: below `10^n`. */
  function Number(s: string, i: nat, n: nat): (v: nat)
    requires DigitsAt(s, i, n)
    ensures v < Pow10(n)
    decreases n
  {
    if n == 0 then 0 else Number(s, i, n - 1) * 10 + (s[i + n - 1] as int - '0' as int)
  }

  /** What the parser needs of its argument: fourteen leading digits. */
  predicate IsCompactDate(s: string) {
    DigitsAt(s, 0, 14)
  }

  // ---- The calendar of ECMA-262 (the reference) ----

  predicate IsLeapYear(y: int) {
    y % 4 == 0 && (y % 100 != 0 || y % 400 == 0)
  }

  function DaysInYear(y: int): int {
    if IsLeapYear(y) then 366 else 365
  }

  /** ECMA-262's `DayFromYear`: the day number of 1 January of `y`. */
  function DayFromYear(y: int): int {
    365 * (y - 1970) + (y - 1969) / 4 - (y - 1901) / 100 + (y - 1601) / 400
  }

  /** Days of the year before the first of month `m` (0 = January), as
      ECMA-262's `MonthFromTime` table lays them out. */
  function DaysBeforeMonth(m: int, leap: bool): int
    requires 0 <= m < 12
  {
    [0, 31, 59, 90, 120, 151, 181, 212, 243, 273, 304, 334][m] + if leap && m >= 2 then 1 else 0
  }

  // ---- The model of `Date.UTC` ----

  /** Day number of the first of March of `y`: the start of the year in the
      computational calendar of `DaysFromCivil`, where years begin in March. */
  function MarchFirst(y: int): int {
    var era := y / 400;
    var yoe := y - era * 400;
    era * 146097 + yoe * 365 + yoe / 4 - yoe / 100 - 719468
  }

  /** Howard Hinnant's `days_from_civil`: the day number of day `d` of month
      `m` (1 = January) of year `y`, counted from 1970-01-01. */
  function DaysFromCivil(y: int, m: int, d: int): int
    requires 1 <= m <= 12
  {
    var yc := if m <= 2 then y - 1 else y;
    var mp := if m > 2 then m - 3 else m + 9;
    MarchFirst(yc) + (153 * mp + 2) / 5 + d - 1
  }

  /** `MakeDay(year, month, date)`: the month is normalised first, any
      overflow carried into the year; the date may overflow the month. */
  function MakeDay(year: int, month: int, date: int): int {
    DaysFromCivil(year + month / 12, month % 12 + 1, 1) + date - 1
  }

  /** `Date.UTC(year, month, day, hour, minute, second)` with integer
      arguments; a year 0 to 99 means 1900 to 1999. */
  function DateUtc(year: int, month: int, day: int, hour: int, minute: int, second: int): int {
    var fullYear := if 0 <= year <= 99 then 1900 + year else year;
    MakeDay(fullYear, month, day) * MsPerDay + hour * MsPerHour + minute * MsPerMinute + second * MsPerSecond
  }

  /** 1 January of `y` is 306 days after 1 March of `y - 1`. */
  lemma {:induction false} MarchFirstBeforeJanuary(y: int)
    ensures MarchFirst(y - 1) + 306 == DayFromYear(y)
  {
    var e := (y - 1) / 400;
    var r := (y - 1) % 400;
    assert y - 1 == 400 * e + r;
    assert (y - 1969) / 4 == 100 * e - 492 + r / 4;
    assert (y - 1901) / 100 == 4 * e - 19 + r / 100;
    assert (y - 1601) / 400 == e - 4;
  }

  lemma MulAtLeast(k: int, b: int)
    requires k >= 1 && b > 0
    ensures k * b >= b
  {
    assert k * b == (k - 1) * b + b;
  }

  /** Quotient and remainder are determined by the division equation. */
  lemma DivUnique(x: int, b: int, q: int, r: int)
    requires b > 0 && 0 <= r < b && x == q * b + r
    ensures x / b == q && x % b == r
  {
    var q0 := x / b;
    assert (q - q0) * b == x % b - r;
    if q > q0 {
      MulAtLeast(q - q0, b);
    } else if q < q0 {
      MulAtLeast(q0 - q, b);
    }
  }

  /** Floor division by `b` steps up exactly when `b` divides the new value. */
  lemma FloorDivStep(a: int, b: int)
    requires b > 0
    ensures (a + 1) / b == a / b + (if (a + 1) % b == 0 then 1 else 0)
  {
    var q := a / b;
    var r := a % b;
    if r == b - 1 {
      DivUnique(a + 1, b, q + 1, 0);
    } else {
      DivUnique(a + 1, b, q, r + 1);
    }
  }

  /** Consecutive years start `DaysInYear` days apart. */
  lemma DayFromYearStep(y: int)
    ensures DayFromYear(y + 1) == DayFromYear(y) + DaysInYear(y)
  {
    FloorDivStep(y - 1969, 4);
    FloorDivStep(y - 1901, 100);
    FloorDivStep(y - 1601, 400);
  }

  /** The computational year from March of `y` is as long as the calendar
      year that holds its February, `y + 1`. */
  lemma MarchFirstStep(y: int)
    ensures MarchFirst(y) == DayFromYear(y) + DaysBeforeMonth(2, IsLeapYear(y))
  {
    MarchFirstBeforeJanuary(y + 1);
    DayFromYearStep(y);
  }

  /** `DaysFromCivil` agrees with ECMA-262's calendar: the day number of a
      date is the day number of its year's 1 January plus the days of the
      months before it plus the days before it in its month. */
  lemma DaysFromCivilAgrees(y: int, m: int, d: int)
    requires 1 <= m <= 12
    ensures DaysFromCivil(y, m, d) == DayFromYear(y) + DaysBeforeMonth(m - 1, IsLeapYear(y)) + d - 1
  {
    if m <= 2 {
      MarchFirstBeforeJanuary(y);
    } else {
      MarchFirstStep(y);
    }
  }

  /** `MakeDay` is ECMA-262's: the year absorbs whole years of the month
      argument, the rest selects the month of that year. */
  lemma MakeDayAgrees(year: int, month: int, date: int)
    ensures MakeDay(year, month, date) ==
      DayFromYear(year + month / 12) + DaysBeforeMonth(month % 12, IsLeapYear(year + month / 12)) + date - 1
  {
    DaysFromCivilAgrees(year + month / 12, month % 12 + 1, 1);
  }

  /** The epoch is day 0. */
  lemma EpochIsDayZero()
    ensures MakeDay(1970, 0, 1) == 0
  {
    MakeDayAgrees(1970, 0, 1);
    assert 0 / 12 == 0 && 0 % 12 == 0;
    assert DayFromYear(1970) == 0 by {
      assert 1 / 4 == 0 && 69 / 100 == 0 && 369 / 400 == 0;
    }
    assert DaysBeforeMonth(0, IsLeapYear(1970)) == 0;
  }

  // ---- Fields of a time value, and `setUTCMinutes` ----

  function Day(t: int): int { t / MsPerDay }
  function HourFromTime(t: int): int { (t / MsPerHour) % 24 }
  function MinFromTime(t: int): int { (t / MsPerMinute) % 60 }
  function SecFromTime(t: int): int { (t / MsPerSecond) % 60 }
  function MsFromTime(t: int): int { t % MsPerSecond }

  /** `date.setUTCMinutes(min)`: rebuilds the time value from the date and the
      other fields of `t`, with the minutes replaced (possibly out of range). */
  function SetUtcMinutes(t: int, min: int): int {
    Day(t) * MsPerDay + HourFromTime(t) * MsPerHour + min * MsPerMinute
      + SecFromTime(t) * MsPerSecond + MsFromTime(t)
  }

  /** A time value is the sum of its fields. */
  lemma TimeFields(t: int)
    ensures t == Day(t) * MsPerDay + HourFromTime(t) * MsPerHour + MinFromTime(t) * MsPerMinute
      + SecFromTime(t) * MsPerSecond + MsFromTime(t)
  {
    var sec := t / 1000;
    var min := sec / 60;
    var hour := min / 60;
    var day := hour / 24;
    assert t == sec * 1000 + t % 1000;
    assert sec == min * 60 + sec % 60;
    assert min == hour * 60 + min % 60;
    assert hour == day * 24 + hour % 24;
    assert t / MsPerMinute == min;
    assert t / MsPerHour == hour;
    assert t / MsPerDay == day;
  }

  /** Adding `delta` to the minutes field moves the instant by exactly
      `delta` minutes, whatever carries into hours and days. */
  lemma SetUtcMinutesShifts(t: int, delta: int)
    ensures SetUtcMinutes(t, MinFromTime(t) + delta) == t + delta * MsPerMinute
  {
    TimeFields(t);
  }

  /** The fields of a time value built from in-range fields are those
      fields: with `TimeFields`, time values and field tuples correspond
      one to one. */
  lemma FieldsOfTime(day: int, hour: int, minute: int, second: int, ms: int)
    requires 0 <= hour < 24 && 0 <= minute < 60 && 0 <= second < 60 && 0 <= ms < 1000
    ensures var t := day * MsPerDay + hour * MsPerHour + minute * MsPerMinute + second * MsPerSecond + ms;
      && Day(t) == day && HourFromTime(t) == hour && MinFromTime(t) == minute
      && SecFromTime(t) == second && MsFromTime(t) == ms
  {
    var t := day * MsPerDay + hour * MsPerHour + minute * MsPerMinute + second * MsPerSecond + ms;
    var sec := ((day * 24 + hour) * 60 + minute) * 60 + second;
    DivUnique(t, 1000, sec, ms);
    DivUnique(t, MsPerMinute, (day * 24 + hour) * 60 + minute, second * 1000 + ms);
    DivUnique(t, MsPerHour, day * 24 + hour, minute * MsPerMinute + second * 1000 + ms);
    DivUnique(t, MsPerDay, day, hour * MsPerHour + minute * MsPerMinute + second * 1000 + ms);
    DivUnique(sec, 60, (day * 24 + hour) * 60 + minute, second);
    DivUnique((day * 24 + hour) * 60 + minute, 60, day * 24 + hour, minute);
    DivUnique(day * 24 + hour, 24, day, hour);
  }

  // ---- The offset ----

  /** The regex `/([+-])(\d{2})(\d{2})/` tried at index `i`. */
  predicate OffsetAt(s: string, i: nat) {
    i < |s| && (s[i] == '+' || s[i] == '-') && DigitsAt(s, i + 1, 4)
  }

  /** The leftmost match of the offset regex at or after index `i`. */
  function FindOffset(s: string, i: nat): (r: Option<nat>)
    requires i <= |s|
    ensures r.Some? ==> i <= r.value && OffsetAt(s, r.value)
    ensures r.Some? ==> forall k :: i <= k < r.value ==> !OffsetAt(s, k)
    ensures r.None? ==> forall k :: i <= k < |s| ==> !OffsetAt(s, k)
    decreases |s| - i
  {
    if i == |s| then None
    else if OffsetAt(s, i) then Some(i)
    else FindOffset(s, i + 1)
  }

  /** The signed offset of the match at `i`, in minutes east of UTC. */
  function OffsetMinutes(s: string, i: nat): (r: int)
    requires OffsetAt(s, i)
    ensures -6_040 < r < 6_040
    ensures r == (if s[i] == '+' then 1 else -1) * (Number(s, i + 1, 2) * 60 + Number(s, i + 3, 2))
  {
    Pow10Values();
    var size := Number(s, i + 1, 2) * 60 + Number(s, i + 3, 2);
    if s[i] == '+' then size else -size
  }

  /** The six numbers of a compact date, as `parseInt` reads them. */
  datatype DateFields = DateFields(year: nat, month: nat, day: nat, hour: nat, minute: nat, second: nat)

  /** What two and four digits can hold. */
  predicate InDigitRange(f: DateFields) {
    f.year < 10_000 && f.month < 100 && f.day < 100 && f.hour < 100 && f.minute < 100 && f.second < 100
  }

  /** The fields of `YYYYMMDDhhmmss`. */
  function CompactFields(s: string): (f: DateFields)
    requires IsCompactDate(s)
    ensures InDigitRange(f)
  {
    Pow10Values();
    DateFields(Number(s, 0, 4), Number(s, 4, 2), Number(s, 6, 2),
      Number(s, 8, 2), Number(s, 10, 2), Number(s, 12, 2))
  }

  /** The fields read as a UTC instant; the month digits count from 1. */
  function UtcValue(f: DateFields): int {
    DateUtc(f.year, f.month - 1, f.day, f.hour, f.minute, f.second)
  }

  /** The fourteen digits read as a UTC instant. */
  function LocalValue(s: string): int
    requires IsCompactDate(s)
  {
    UtcValue(CompactFields(s))
  }

  /** `parseXmltvDate(str)`. Without an offset the digits are UTC; a
      `+hhmm` offset subtracts `hh*60+mm` minutes, a `-hhmm` offset adds them. */
  function ParseXmltvDate(s: string): (t: int)
    requires IsCompactDate(s)
    ensures FindOffset(s, 0).None? ==> t == LocalValue(s)
    ensures FindOffset(s, 0).Some? ==>
      t == LocalValue(s) - OffsetMinutes(s, FindOffset(s, 0).value) * MsPerMinute
  {
    var local := LocalValue(s);
    match FindOffset(s, 0)
    case None => local
    case Some(i) =>
      var size := Number(s, i + 1, 2) * 60 + Number(s, i + 3, 2);
      var delta := if s[i] == '+' then -size else size;
      ShiftMinutes(local, delta)
  }

  /** `date.setUTCMinutes(date.getUTCMinutes() + delta)`: the instant moves by
      `delta` minutes. */
  function ShiftMinutes(t: int, delta: int): (r: int)
    ensures r == t + delta * MsPerMinute
  {
    SetUtcMinutesShifts(t, delta);
    SetUtcMinutes(t, MinFromTime(t) + delta)
  }

  /** Fields in their calendar ranges (a year from 100 on, which `Date.UTC`
      takes as it is) give the instant of that date and time of day in
      ECMA-262's calendar. */
  lemma UtcValueCalendar(f: DateFields)
    requires f.year >= 100 && 1 <= f.month <= 12
    ensures UtcValue(f) ==
      (DayFromYear(f.year) + DaysBeforeMonth(f.month - 1, IsLeapYear(f.year)) + f.day - 1) * MsPerDay
      + f.hour * MsPerHour + f.minute * MsPerMinute + f.second * MsPerSecond
  {
    DivUnique(f.month - 1, 12, 0, f.month - 1);
    MakeDayAgrees(f.year, f.month - 1, f.day);
  }

  /** Reading the time of day back from the instant gives the fields again. */
  lemma UtcValueTimeOfDay(f: DateFields)
    requires f.year >= 100
    requires f.hour < 24 && f.minute < 60 && f.second < 60
    ensures Day(UtcValue(f)) == MakeDay(f.year, f.month - 1, f.day)
    ensures HourFromTime(UtcValue(f)) == f.hour
    ensures MinFromTime(UtcValue(f)) == f.minute
    ensures SecFromTime(UtcValue(f)) == f.second
    ensures MsFromTime(UtcValue(f)) == 0
  {
    FieldsOfTime(MakeDay(f.year, f.month - 1, f.day), f.hour, f.minute, f.second, 0);
  }

  lemma Pow10Values()
    ensures Pow10(2) == 100 && Pow10(4) == 10_000
  {
    assert Pow10(1) == 10 && Pow10(3) == 1000;
  }

  /** The day numbers the fourteen digits can produce. */
  lemma MakeDayBounds(year: int, month: int, date: int)
    requires 99 <= year <= 9999 && -1 <= month <= 98 && 0 <= date <= 99
    ensures -1_000_000 <= MakeDay(year, month, date) <= 4_000_000
  {
    MakeDayAgrees(year, month, date);
  }

  /** Any digits give an instant within a few thousand years of 1970. */
  lemma UtcValueInRange(f: DateFields)
    requires InDigitRange(f)
    ensures -1_000_000 * MsPerDay <= UtcValue(f) <= 4_000_001 * MsPerDay
  {
    var full := if f.year <= 99 then 1900 + f.year else f.year;
    MakeDayBounds(full, f.month - 1, f.day);
  }

  /** Every parsed date is a valid time value, so the `TimeClip` of
      `Date.UTC` and `setUTCMinutes` never yields NaN here. */
  lemma ParseXmltvDateInRange(s: string)
    requires IsCompactDate(s)
    ensures -MaxTimeValue <= ParseXmltvDate(s) <= MaxTimeValue
  {
    UtcValueInRange(CompactFields(s));
  }
}

=== FILE: xtream.dfy ===
/** What the two Xtream-Codes clients (src/renderer/js/services/xtream-client.js
    and src/main/xtream-client.js) share: the decoded records of the
    `player_api.php` replies, the server-string normalisation, the base URL
    with percent-encoded credentials, the ordered checks of the login reply
    and the category table that gives a stream its group. */
module Xtream {
  import opened Wrappers
  import opened Strings
  import opened Encoding

  // ---- Decoded replies ----

  /** `user_info`: `auth` is `Some` only when it is a JSON number (`=== 0`
      holds for nothing else); the last three fields are passed through. */
  datatype UserInfo = UserInfo(
    auth: Option<int>,
    status: Option<string>,
    expDate: Option<string>,
    activeCons: Option<string>,
    maxConnections: Option<string>)

  datatype ServerInfo = ServerInfo(url: Option<string>)

  /** The login reply; `userInfo` is `None` when `user_info` is falsy. */
  datatype LoginReply = LoginReply(userInfo: Option<UserInfo>, serverInfo: Option<ServerInfo>)

  /** An element of a category listing. */
  datatype Category = Category(categoryId: string, categoryName: Option<string>)

  /** An element of a live-stream listing. */
  datatype LiveStream = LiveStream(
    streamId: string,
    categoryId: string,
    epgChannelId: Option<string>,
    name: Option<string>,
    streamIcon: Option<string>)

  /** The account summary both clients return next to the catalogue. */
  datatype Account = Account(
    status: Option<string>,
    expDate: Option<string>,
    activeCons: Option<string>,
    maxConnections: Option<string>)

  function AccountOf(u: UserInfo): Account {
    Account(u.status, u.expDate, u.activeCons, u.maxConnections)
  }

  /** A decoded listing: `Array.isArray` holds of it or it does not. */
  datatype Listing<T> = Array(elements: seq<T>) | NotArray

  /** `Array.isArray(d) ? d : []`. */
  function Elements<T>(l: Listing<T>): (r: seq<T>)
    ensures l.Array? ==> r == l.elements
    ensures l.NotArray? ==> r == []
  {
    match l
    case Array(xs) => xs
    case NotArray => []
  }

  // ---- Server string and URLs ----

  /** `s.replace(/\/+$/, '')`: the longest run of `/` at the end is removed. */
  function StripTrailingSlashes(s: string): (r: string)
    ensures |r| <= |s| && r == s[..|r|]
    ensures forall k :: |r| <= k < |s| ==> s[k] == '/'
    ensures r == [] || r[|r| - 1] != '/'
    decreases |s|
  {
    if s != [] && s[|s| - 1] == '/' then StripTrailingSlashes(s[..|s| - 1]) else s
  }

  predicate HasScheme(s: string) {
    StartsWith(s, "http://") || StartsWith(s, "https://")
  }

  /** The server string with an `http://` scheme unless it already names
      `http://` or `https://`. */
  function WithScheme(server: string): (r: string)
    ensures HasScheme(r)
    ensures HasScheme(Trim(server)) ==> r == Trim(server)
    ensures !HasScheme(Trim(server)) ==> r == "http://" + Trim(server)
  {
    var t := Trim(server);
    if HasScheme(t) then t
    else
      var r := "http://" + t;
      assert r[..7] == "http://";
      r
  }

  /** `_normalizeServer` (and the same three steps inlined in the main
      process): trim, add a default scheme, drop every trailing `/`. The
      result is the schemed string up to its trailing slashes, so it never
      ends in `/` and still starts with `http:` or `https:`. */
  function NormalizeServer(server: string): (r: string)
    ensures |r| <= |WithScheme(server)| && r == WithScheme(server)[..|r|]
    ensures forall k :: |r| <= k < |WithScheme(server)| ==> WithScheme(server)[k] == '/'
    ensures r == [] || r[|r| - 1] != '/'
    ensures StartsWith(r, "http:") || StartsWith(r, "https:")
  {
    var s := WithScheme(server);
    if StartsWith(s, "http://") then
      StartsWithLonger(s, "http:", "//");
      StripKeepsPrefix(s, "http:");
      StripTrailingSlashes(s)
    else
      StartsWithLonger(s, "https:", "//");
      StripKeepsPrefix(s, "https:");
      StripTrailingSlashes(s)
  }

  /** Stripping slashes never reaches into a prefix that does not end in
      `/`. */
  lemma StripKeepsPrefix(s: string, p: string)
    requires StartsWith(s, p) && p != [] && p[|p| - 1] != '/'
    ensures StartsWith(StripTrailingSlashes(s), p)
  {
    var r := StripTrailingSlashes(s);
    assert s[|p| - 1] == p[|p| - 1];
    assert r[..|p|] == s[..|p|];
  }

  /** Normalising is not idempotent: `"http://"` loses its slashes, and the
      `"http:"` left over no longer counts as having a scheme, so a second
      pass prefixes another `http://`. */
  lemma NormalizeServerNotIdempotent()
    ensures NormalizeServer("http://") == "http:"
    ensures NormalizeServer("http:") == "http://http:"
  {
    SchemeOnlyNormalizes();
    SchemeColonNormalizes();
  }

  lemma SchemeOnlyNormalizes()
    ensures NormalizeServer("http://") == "http:"
  {
    var s := "http://";
    TrimOfTrimmed(s);
    assert Trim(s) == s;
    assert s[..7] == "http://";
    assert WithScheme(s) == s;
    assert s[..6] == "http:/" && "http:/"[..5] == "http:";
    assert StripTrailingSlashes(s) == StripTrailingSlashes("http:/");
    assert StripTrailingSlashes("http:/") == StripTrailingSlashes("http:");
    assert StripTrailingSlashes("http:") == "http:";
  }

  lemma SchemeColonNormalizes()
    ensures NormalizeServer("http:") == "http://http:"
  {
    var s := "http:";
    TrimOfTrimmed(s);
    assert Trim(s) == s;
    assert |s| < 7 && !HasScheme(s);
    var t := "http://" + s;
    assert t == "http://http:";
    assert WithScheme(s) == t;
    assert t[..7] == "http://";
    assert t[|t| - 1] == ':';
    assert StripTrailingSlashes(t) == t;
  }

  /** A normalised server that kept its scheme and gained no edge white space
      is left as it is by a second normalisation. */
  lemma NormalizeServerStable(server: string)
    requires HasScheme(NormalizeServer(server))
    requires Trim(NormalizeServer(server)) == NormalizeServer(server)
    ensures NormalizeServer(NormalizeServer(server)) == NormalizeServer(server)
  {
  }

  /** The query string both clients append: `?username=<u>&password=<p>`
      with each credential passed through `encode`. */
  function CredentialQuery(user: string, pass: string): string {
    "?username=" + EncodeUriComponent(user) + "&password=" + EncodeUriComponent(pass)
  }

  /** `_buildBaseUrl` / `buildBaseUrl`. */
  function BuildBaseUrl(server: string, user: string, pass: string): string {
    NormalizeServer(server) + "/player_api.php" + CredentialQuery(user, pass)
  }

  /** The credentials survive the query string: neither encoded value can
      contain the `&` that separates them, and each decodes to the UTF-8
      bytes of the credential it came from. */
  lemma CredentialQueryFields(user: string, pass: string)
    ensures var u := EncodeUriComponent(user);
            var p := EncodeUriComponent(pass);
            && CredentialQuery(user, pass) == "?username=" + u + "&password=" + p
            && '&' !in u && '&' !in p && '#' !in u && '#' !in p
            && DecodeBytes(u) == Utf8(user) && DecodeBytes(p) == Utf8(pass)
  {
    EncodeUriComponentRoundTrip(user);
    EncodeUriComponentRoundTrip(pass);
    EncodedLacks(user, '&');
    EncodedLacks(pass, '&');
    EncodedLacks(user, '#');
    EncodedLacks(pass, '#');
  }

  /** A character that is neither unreserved nor part of an escape never
      appears in an encoded string. */
  lemma EncodedLacks(s: string, c: char)
    requires !IsUnreserved(c) && c != '%' && !IsUpperHex(c)
    ensures c !in EncodeUriComponent(s)
  {
  }

  // ---- Login ----

  datatype LoginError =
    | RequestFailed     // the request or the JSON decoding threw; its own message is not modelled
    | InvalidResponse   // no `user_info`
    | AuthFailed        // `auth === 0`
    | AccountDisabled   // status `Disabled`
    | AccountExpired    // status `Expired`

  /** The message each rejection carries. A failed request surfaces the
      thrown error's own message, which is outside the model; its text here
      is only a stand-in. */
  function Message(e: LoginError): string {
    match e
    case RequestFailed => "request failed"
    case InvalidResponse => "Invalid credentials or server response"
    case AuthFailed => "Authentication failed: invalid username or password"
    case AccountDisabled => "Account is disabled"
    case AccountExpired => "Account has expired"
  }

  datatype Session = Session(userInfo: UserInfo, serverInfo: Option<ServerInfo>)

  /** The account may be used: authenticated, neither disabled nor expired. */
  predicate Admitted(u: UserInfo) {
    u.auth != Some(0) && u.status != Some("Disabled") && u.status != Some("Expired")
  }

  /** `login` / `xtreamLogin` after the request: the four checks in order,
      the first that fails deciding the error. An `auth` of 0 therefore wins
      over any status, and a disabled account is reported as disabled even
      when it is also expired. */
  function Login(reply: Fetched<LoginReply>): (r: Result<Session, LoginError>)
    ensures r.Ok? <==> reply.Got? && reply.value.userInfo.Some? && Admitted(reply.value.userInfo.value)
    ensures r.Ok? ==> r.value == Session(reply.value.userInfo.value, reply.value.serverInfo)
    ensures r == Err(RequestFailed) <==> reply.Threw?
    ensures r == Err(InvalidResponse) <==> reply.Got? && reply.value.userInfo.None?
    ensures r == Err(AuthFailed) <==>
      reply.Got? && reply.value.userInfo.Some? && reply.value.userInfo.value.auth == Some(0)
    ensures r == Err(AccountDisabled) <==>
      && reply.Got? && reply.value.userInfo.Some?
      && reply.value.userInfo.value.auth != Some(0)
      && reply.value.userInfo.value.status == Some("Disabled")
    ensures r == Err(AccountExpired) <==>
      && reply.Got? && reply.value.userInfo.Some?
      && reply.value.userInfo.value.auth != Some(0)
      && reply.value.userInfo.value.status == Some("Expired")
  {
    match reply
    case Threw => Err(RequestFailed)
    case Got(data) =>
      match data.userInfo
      case None => Err(InvalidResponse)
      case Some(u) =>
        if u.auth == Some(0) then Err(AuthFailed)
        else if u.status == Some("Disabled") then Err(AccountDisabled)
        else if u.status == Some("Expired") then Err(AccountExpired)
        else Ok(Session(u, data.serverInfo))
  }

  // ---- Categories ----

  /** The group a category names: its name, or `'Unknown'` when it has none. */
  function CategoryName(c: Category): (r: string)
    ensures r != ""
  {
    Or(c.categoryName, "Unknown")
  }

  /** The category table built by `catMap[cat.category_id] = cat.category_name
      || 'Unknown'` over the listing, in order. */
  function CategoryMap(cats: seq<Category>): (m: map<string, string>)
    ensures forall id :: id in m ==> m[id] != ""
    decreases |cats|
  {
    if cats == [] then map[]
    else
      var last := cats[|cats| - 1];
      CategoryMap(cats[..|cats| - 1])[last.categoryId := CategoryName(last)]
  }

  /** `catMap[stream.category_id] || fallback`. */
  function GroupOf(m: map<string, string>, categoryId: string, fallback: string): string {
    if categoryId in m && m[categoryId] != "" then m[categoryId] else fallback
  }

  /** `cats[i]` is the last category of the listing with its id. */
  predicate LastOfItsId(cats: seq<Category>, i: nat) {
    i < |cats| && forall j :: i < j < |cats| ==> cats[j].categoryId != cats[i].categoryId
  }

  /** The table has an entry for exactly the ids the listing names. */
  lemma {:induction false} CategoryMapKeys(cats: seq<Category>, id: string)
    ensures id in CategoryMap(cats) <==> exists i :: 0 <= i < |cats| && cats[i].categoryId == id
    decreases |cats|
  {
    if cats != [] {
      var init := cats[..|cats| - 1];
      CategoryMapKeys(init, id);
      assert forall i :: 0 <= i < |init| ==> init[i] == cats[i];
    }
  }

  /** A later category with the same id overwrites an earlier one. */
  lemma {:induction false} CategoryMapLastWins(cats: seq<Category>, i: nat)
    requires LastOfItsId(cats, i)
    ensures cats[i].categoryId in CategoryMap(cats)
    ensures CategoryMap(cats)[cats[i].categoryId] == CategoryName(cats[i])
    decreases |cats|
  {
    if i < |cats| - 1 {
      var init := cats[..|cats| - 1];
      assert init[i] == cats[i];
      CategoryMapLastWins(init, i);
    }
  }

  /** A stream's group: the name of the last category with the stream's
      category id, or the fallback when no category has that id. */
  lemma StreamGroup(cats: seq<Category>, categoryId: string, fallback: string)
    ensures (forall i :: 0 <= i < |cats| ==> cats[i].categoryId != categoryId) ==>
      GroupOf(CategoryMap(cats), categoryId, fallback) == fallback
    ensures forall i: nat :: LastOfItsId(cats, i) && cats[i].categoryId == categoryId ==>
      GroupOf(CategoryMap(cats), categoryId, fallback) == CategoryName(cats[i])
  {
    CategoryMapKeys(cats, categoryId);
    forall i: nat | LastOfItsId(cats, i) && cats[i].categoryId == categoryId
      ensures GroupOf(CategoryMap(cats), categoryId, fallback) == CategoryName(cats[i])
    {
      CategoryMapLastWins(cats, i);
    }
  }
}

=== FILE: xtream_main.dfy ===
/** The main-process Xtream-Codes client (src/main/xtream-client.js): the
    older loader that builds live channels only, with the legacy
    `<server>/<u>/<p>/<id>` stream address, no content type, and an EPG
    address taken from the server's own `server_info.url`. A failed listing
    request fails the whole load. */
module XtreamMain {
  import opened Wrappers
  import opened Strings
  import opened Content
  import opened Xtream
  import XtreamRenderer

  datatype LoadError = LoginFailed(reason: LoginError) | ListingFailed

  datatype MainCatalog = MainCatalog(
    epgUrl: Option<string>,
    channels: seq<Item>,
    groups: seq<string>,
    account: Account)

  /** The group of a stream whose category is not in the table. */
  const Unclassified: string := "Non class\U{00E9}"

  /** `xtreamGetLiveCategories` / `xtreamGetLiveStreams` after the request: a
      failed request propagates, a reply that is not an array reads as `[]`. */
  function Strict<T>(f: Fetched<Listing<T>>): (r: Option<seq<T>>)
    ensures r.None? <==> f.Threw?
    ensures f.Got? && f.value.Array? ==> r == Some(f.value.elements)
    ensures f.Got? && f.value.NotArray? ==> r == Some([])
  {
    match f
    case Threw => None
    case Got(l) => Some(Elements(l))
  }

  function ChannelItem(s: string, user: string, pass: string, cats: map<string, string>, st: LiveStream): Item {
    Item("xt_" + st.streamId, Some(Or(st.epgChannelId, "")), Some(Or(st.name, "")),
      Or(st.name, "Unknown"), Or(st.streamIcon, ""), GroupOf(cats, st.categoryId, Unclassified),
      Some(s + "/" + user + "/" + pass + "/" + st.streamId), None, NoExtra)
  }

  /** The channels: one per stream, in listing order, named `xt_<stream_id>`,
      grouped by the category table (else `'Non classé'`), with no type and
      the legacy address `<server>/<u>/<p>/<id>`. */
  function Channels(server: string, user: string, pass: string, cats: seq<Category>, streams: seq<LiveStream>): (chs: seq<Item>)
    ensures |chs| == |streams|
    ensures forall i :: 0 <= i < |chs| ==> chs[i].kind.None?
    ensures forall i :: 0 <= i < |chs| ==>
      && chs[i].id == "xt_" + streams[i].streamId
      && chs[i].group == GroupOf(CategoryMap(cats), streams[i].categoryId, Unclassified)
      && chs[i].url == Some(NormalizeServer(server) + "/" + user + "/" + pass + "/" + streams[i].streamId)
  {
    var s := NormalizeServer(server);
    var m := CategoryMap(cats);
    seq(|streams|, i requires 0 <= i < |streams| => ChannelItem(s, user, pass, m, streams[i]))
  }

  /** The EPG address: present only when the server reports a non-empty
      `server_info.url`; that address gets an `http://` prefix unless it
      already starts with `http`, and the credentials go in unencoded. */
  function MainEpgUrl(info: Option<ServerInfo>, user: string, pass: string): (r: Option<string>)
    ensures r.Some? <==> info.Some? && info.value.url.Some? && info.value.url.value != ""
    ensures r.Some? ==> StartsWith(r.value, "http")
    ensures r.Some? && StartsWith(info.value.url.value, "http") ==>
      r.value == info.value.url.value + "/xmltv.php?username=" + user + "&password=" + pass
    ensures r.Some? && !StartsWith(info.value.url.value, "http") ==>
      r.value == "http://" + info.value.url.value + "/xmltv.php?username=" + user + "&password=" + pass
  {
    if info.Some? && info.value.url.Some? && info.value.url.value != "" then
      var u := info.value.url.value;
      var base := if StartsWith(u, "http") then u else "http://" + u;
      var r := base + "/xmltv.php?username=" + user + "&password=" + pass;
      assert r[..4] == base[..4];
      Some(r)
    else None
  }

  /** `xtreamLoadAll`: the login first, then both listings; the first
      failure decides the error. On success the group list is the sorted set
      of the channels' groups. */
  function LoadAll(
    server: string, user: string, pass: string,
    login: Fetched<LoginReply>,
    cats: Fetched<Listing<Category>>, streams: Fetched<Listing<LiveStream>>
  ): (r: Result<MainCatalog, LoadError>)
    ensures r.Err? <==> Login(login).Err? || cats.Threw? || streams.Threw?
    ensures Login(login).Err? ==> r == Err(LoginFailed(Login(login).error))
    ensures Login(login).Ok? && (cats.Threw? || streams.Threw?) ==> r == Err(ListingFailed)
    ensures r.Ok? ==> IndexesGroups(r.value.groups, r.value.channels)
    ensures r.Ok? ==>
      r.value.channels == Channels(server, user, pass, Strict(cats).value, Strict(streams).value)
    ensures r.Ok? ==> r.value.epgUrl == MainEpgUrl(Login(login).value.serverInfo, user, pass)
    ensures r.Ok? ==> r.value.account == AccountOf(Login(login).value.userInfo)
  {
    match Login(login)
    case Err(e) => Err(LoginFailed(e))
    case Ok(session) =>
      match (Strict(cats), Strict(streams))
      case (Some(cs), Some(ss)) =>
        var channels := Channels(server, user, pass, cs, ss);
        Ok(MainCatalog(MainEpgUrl(session.serverInfo, user, pass), channels, GroupIndex(channels),
          AccountOf(session.userInfo)))
      case _ => Err(ListingFailed)
  }

  /** Given the same login reply and live listings, the two clients accept
      and refuse alike and name and group the live channels alike, except
      that an unmapped stream is `'Non classé'` here and `'Uncategorized'` in
      the renderer. */
  lemma ClientsAgree(
    server: string, user: string, pass: string,
    login: Fetched<LoginReply>,
    cats: seq<Category>, streams: seq<LiveStream>,
    vodCats: Fetched<Listing<Category>>, vodStreams: Fetched<Listing<XtreamRenderer.VodStream>>,
    seriesCats: Fetched<Listing<Category>>, seriesList: Fetched<Listing<XtreamRenderer.SeriesEntry>>)
    ensures var m := LoadAll(server, user, pass, login, Got(Array(cats)), Got(Array(streams)));
            var r := XtreamRenderer.LoadAll(server, user, pass, login,
              Got(Array(cats)), Got(Array(streams)), vodCats, vodStreams, seriesCats, seriesList);
            && (m.Ok? <==> r.Ok?)
            && (m.Ok? ==>
                && |m.value.channels| == |r.value.catalog.channels|
                && forall i :: 0 <= i < |m.value.channels| ==>
                  var a := m.value.channels[i];
                  var b := r.value.catalog.channels[i];
                  && a.id == b.id && a.name == b.name && a.tvgId == b.tvgId && a.logo == b.logo
                  && (a.group == b.group || (a.group == Unclassified && b.group == "Uncategorized")))
  {
    ChannelsAgree(server, user, pass, cats, streams);
  }

  /** The channel lists of the two clients, element by element. */
  lemma ChannelsAgree(server: string, user: string, pass: string, cats: seq<Category>, streams: seq<LiveStream>)
    ensures var ms := Channels(server, user, pass, cats, streams);
            var rs := XtreamRenderer.LiveItems(server, user, pass, cats, streams);
            && |ms| == |rs|
            && forall i :: 0 <= i < |ms| ==>
              && ms[i].id == rs[i].id && ms[i].name == rs[i].name
              && ms[i].tvgId == rs[i].tvgId && ms[i].logo == rs[i].logo
              && (ms[i].group == rs[i].group || (ms[i].group == Unclassified && rs[i].group == "Uncategorized"))
  {
    var ms := Channels(server, user, pass, cats, streams);
    var rs := XtreamRenderer.LiveItems(server, user, pass, cats, streams);
    var s := NormalizeServer(server);
    var table := CategoryMap(cats);
    forall i | 0 <= i < |ms|
      ensures && ms[i].id == rs[i].id && ms[i].name == rs[i].name
              && ms[i].tvgId == rs[i].tvgId && ms[i].logo == rs[i].logo
              && (ms[i].group == rs[i].group || (ms[i].group == Unclassified && rs[i].group == "Uncategorized"))
    {
      assert ms[i] == ChannelItem(s, user, pass, table, streams[i]);
      assert rs[i] == XtreamRenderer.LiveItem(s, user, pass, table, streams[i]);
    }
  }
}

=== FILE: xtream_renderer.dfy ===
/** The renderer-side Xtream-Codes client
    (src/renderer/js/services/xtream-client.js): after a successful login,
    six listings are turned into a three-part catalogue with type-specific
    stream URLs. A listing whose request fails or whose reply is not an array
    counts as empty. The replies are inputs; the requests themselves are not
    modelled. */
module XtreamRenderer {
  import opened Wrappers
  import opened Strings
  import opened Content
  import opened Xtream

  /** An element of the VOD listing. */
  datatype VodStream = VodStream(
    streamId: string,
    categoryId: string,
    name: Option<string>,
    streamIcon: Option<string>,
    containerExtension: Option<string>,
    rating: Option<string>,
    added: Option<string>)

  /** An element of the series listing. */
  datatype SeriesEntry = SeriesEntry(
    seriesId: string,
    categoryId: string,
    name: Option<string>,
    cover: Option<string>,
    rating: Option<string>,
    plot: Option<string>)

  /** The credentials the catalogue remembers, as the user typed them. */
  datatype Credentials = Credentials(server: string, username: string, password: string)

  datatype Loaded = Loaded(catalog: Catalog, credentials: Credentials, account: Account)

  /** `fetch(...).catch(() => [])` followed by `toArray`. */
  function Tolerant<T>(f: Fetched<Listing<T>>): (r: seq<T>)
    ensures f.Got? && f.value.Array? ==> r == f.value.elements
    ensures f.Threw? || f.value.NotArray? ==> r == []
  {
    match f
    case Threw => []
    case Got(l) => Elements(l)
  }

  /** `field || null`. */
  function Present(field: Option<string>): Option<string> {
    if field.Some? && field.value != "" then field else None
  }

  function LiveItem(s: string, user: string, pass: string, cats: map<string, string>, st: LiveStream): Item {
    Item("xt_" + st.streamId, Some(Or(st.epgChannelId, "")), Some(Or(st.name, "")),
      Or(st.name, "Unknown"), Or(st.streamIcon, ""), GroupOf(cats, st.categoryId, "Uncategorized"),
      Some(s + "/live/" + user + "/" + pass + "/" + st.streamId + ".m3u8"), Some(Live), NoExtra)
  }

  function VodItem(s: string, user: string, pass: string, cats: map<string, string>, v: VodStream): Item {
    Item("vod_" + v.streamId, None, None,
      Or(v.name, "Unknown"), Or(v.streamIcon, ""), GroupOf(cats, v.categoryId, "Uncategorized"),
      Some(s + "/movie/" + user + "/" + pass + "/" + v.streamId + "." + Or(v.containerExtension, "mp4")),
      Some(Vod), VodExtra(Or(v.rating, ""), Present(v.added)))
  }

  function SeriesItem(cats: map<string, string>, e: SeriesEntry): Item {
    Item("sr_" + e.seriesId, None, None,
      Or(e.name, "Unknown"), Or(e.cover, ""), GroupOf(cats, e.categoryId, "Uncategorized"),
      None, Some(Series), SeriesExtra(e.seriesId, Or(e.rating, ""), Or(e.plot, "")))
  }

  /** The EPG address: the normalised server's `xmltv.php` with the same
      encoded credentials as the API requests. */
  function EpgUrl(server: string, user: string, pass: string): string {
    NormalizeServer(server) + "/xmltv.php" + CredentialQuery(user, pass)
  }

  /** The live channels: one per stream, in listing order, each typed live,
      named `xt_<stream_id>`, grouped by the category table (else
      `'Uncategorized'`) and played from `<server>/live/<u>/<p>/<id>.m3u8`. */
  function LiveItems(server: string, user: string, pass: string, cats: seq<Category>, lives: seq<LiveStream>): (chs: seq<Item>)
    ensures |chs| == |lives|
    ensures forall i :: 0 <= i < |chs| ==> chs[i].kind == Some(Live)
    ensures forall i :: 0 <= i < |chs| ==>
      && chs[i].id == "xt_" + lives[i].streamId
      && chs[i].group == GroupOf(CategoryMap(cats), lives[i].categoryId, "Uncategorized")
      && chs[i].url == Some(NormalizeServer(server) + "/live/" + user + "/" + pass + "/" + lives[i].streamId + ".m3u8")
  {
    var s := NormalizeServer(server);
    var m := CategoryMap(cats);
    seq(|lives|, i requires 0 <= i < |lives| => LiveItem(s, user, pass, m, lives[i]))
  }

  /** The VOD items: one per stream, typed VOD, named `vod_<stream_id>`,
      played from `<server>/movie/<u>/<p>/<id>.<ext>` with `mp4` as the
      default extension. */
  function VodItems(server: string, user: string, pass: string, cats: seq<Category>, vs: seq<VodStream>): (vods: seq<Item>)
    ensures |vods| == |vs|
    ensures forall i :: 0 <= i < |vods| ==> vods[i].kind == Some(Vod)
    ensures forall i :: 0 <= i < |vods| ==>
      && vods[i].id == "vod_" + vs[i].streamId
      && vods[i].group == GroupOf(CategoryMap(cats), vs[i].categoryId, "Uncategorized")
      && vods[i].url == Some(NormalizeServer(server) + "/movie/" + user + "/" + pass + "/"
           + vs[i].streamId + "." + Or(vs[i].containerExtension, "mp4"))
  {
    var s := NormalizeServer(server);
    var m := CategoryMap(cats);
    seq(|vs|, i requires 0 <= i < |vs| => VodItem(s, user, pass, m, vs[i]))
  }

  /** The series items: one per entry, typed series, named `sr_<series_id>`,
      carrying the series id and no URL. */
  function SeriesItems(cats: seq<Category>, es: seq<SeriesEntry>): (series: seq<Item>)
    ensures |series| == |es|
    ensures forall i :: 0 <= i < |series| ==> series[i].kind == Some(Series)
    ensures forall i :: 0 <= i < |series| ==>
      && series[i].id == "sr_" + es[i].seriesId
      && series[i].group == GroupOf(CategoryMap(cats), es[i].categoryId, "Uncategorized")
      && series[i].url.None?
      && series[i].extra.SeriesExtra? && series[i].extra.seriesId == es[i].seriesId
  {
    var m := CategoryMap(cats);
    seq(|es|, i requires 0 <= i < |es| => SeriesItem(m, es[i]))
  }

  /** `loadAll`: the login decides success; a listing that failed or is not
      an array adds nothing; every list holds only its own type and its group
      list is the sorted set of its groups. */
  function LoadAll(
    server: string, user: string, pass: string,
    login: Fetched<LoginReply>,
    liveCats: Fetched<Listing<Category>>, liveStreams: Fetched<Listing<LiveStream>>,
    vodCats: Fetched<Listing<Category>>, vodStreams: Fetched<Listing<VodStream>>,
    seriesCats: Fetched<Listing<Category>>, seriesList: Fetched<Listing<SeriesEntry>>
  ): (r: Result<Loaded, LoginError>)
    ensures r.Err? <==> Login(login).Err?
    ensures r.Err? ==> r.error == Login(login).error
    ensures r.Ok? ==> WellSorted(r.value.catalog)
    ensures r.Ok? ==> r.value.catalog.epgUrl == Some(EpgUrl(server, user, pass))
    ensures r.Ok? ==> r.value.credentials == Credentials(server, user, pass)
    ensures r.Ok? ==> r.value.account == AccountOf(Login(login).value.userInfo)
    ensures r.Ok? ==>
      r.value.catalog.channels == LiveItems(server, user, pass, Tolerant(liveCats), Tolerant(liveStreams))
    ensures r.Ok? ==>
      r.value.catalog.vods == VodItems(server, user, pass, Tolerant(vodCats), Tolerant(vodStreams))
    ensures r.Ok? ==> r.value.catalog.series == SeriesItems(Tolerant(seriesCats), Tolerant(seriesList))
  {
    match Login(login)
    case Err(e) => Err(e)
    case Ok(session) =>
      var channels := LiveItems(server, user, pass, Tolerant(liveCats), Tolerant(liveStreams));
      var vods := VodItems(server, user, pass, Tolerant(vodCats), Tolerant(vodStreams));
      var series := SeriesItems(Tolerant(seriesCats), Tolerant(seriesList));
      var catalog := Catalog(Some(EpgUrl(server, user, pass)),
        channels, GroupIndex(channels), vods, GroupIndex(vods), series, GroupIndex(series));
      Ok(Loaded(catalog, Credentials(server, user, pass), AccountOf(session.userInfo)))
  }

  /** The three id prefixes start with different letters, so a live, a VOD
      and a series item never share an id, whatever the stream ids are. */
  lemma IdsDisjoint(a: string, b: string)
    ensures "xt_" + a != "vod_" + b
    ensures "xt_" + a != "sr_" + b
    ensures "vod_" + a != "sr_" + b
  {
    assert ("xt_" + a)[0] == 'x';
    assert ("vod_" + a)[0] == 'v';
    assert ("vod_" + b)[0] == 'v';
    assert ("sr_" + b)[0] == 's';
  }

  /** The EPG address and the API base address differ only in the script:
      both carry the same server and the same encoded query. */
  lemma EpgUrlSharesQuery(server: string, user: string, pass: string)
    ensures exists q :: (BuildBaseUrl(server, user, pass) == NormalizeServer(server) + "/player_api.php" + q
      && EpgUrl(server, user, pass) == NormalizeServer(server) + "/xmltv.php" + q)
  {
    var q := CredentialQuery(user, pass);
    assert BuildBaseUrl(server, user, pass) == NormalizeServer(server) + "/player_api.php" + q;
  }
}
